=== FILE: README.md ===
# Alectryon's prover drivers, modelled in Dafny

Alectryon turns Coq and Lean 3 sources into documents in which every
sentence carries the proof goals and the messages the prover produced for it.
This project models the two drivers that get this information from the
provers, and proves properties of the model.

- **SerAPI driver** (`alectryon/core.py`). It talks to `sertop` for Coq.
  - It sends a chunk of input and cuts it along the sentence spans that
    `sertop` answers with.
  - It runs each sentence, prints its messages and goals, and attaches the
    messages to their sentences.
  - It reports exceptions and orphaned messages to an observer, which writes
    them to standard error and keeps the exit code.
  - The supporting pieces are modelled too: position headers, the byte-to-position
    view of a chunk, the `Gensym` name generator, `indent`, the exception excerpt
    and the `--topfile` name.
- **Lean 3 driver** (`alectryon/lean3.py`). It works in three steps:
  - It reads the server's replies until the answer to the current request.
  - It walks the AST that `lean --ast` writes, to find the sentence ranges and
    their proof states.
  - It cuts the document's fragments along the server's messages, so that each
    message ends up on the sentence it is about.

Reading from and writing to the prover become explicit sequences. `sertop`'s
output is a list of already classified lines; the requests sent are a list that
grows. The Lean server's replies are a list of decoded records. Everything else
the drivers consult is a function parameter:
- the Unicode category table;
- `Document.pos2offset`;
- the Lean `info` query.

Exceptions are a `Fault` value in a `Result`, one constructor per Python
exception class. Modules follow the source:

| module | models |
|---|---|
| `Common` | Python string and slice primitives, `Result` and `Fault` |
| `Numerals` | `str` and `hex` of integers |
| `Utf8` | encoding, and decoding with the `'ignore'` handler |
| `Positions` | `Position`, `Range`, `PosView` |
| `Reports` | the paragraphs of the warnings |
| `Observers` | `Observer`, `StderrObserver` |
| `TextFormat` | `indent`, `splitlines`, the highlighted excerpt |
| `Topfiles` | `valid_char`, `sub_chars`, `topfile` |
| `Gensyms` | `Gensym` |
| `Fragments` | the output records |
| `SerapiProtocol` | `_collect_messages`, `_warn_on_exn` |
| `SerapiSession` | the requests a chunk sends |
| `SerapiRun` | `run` |
| `Sorting` | Python's `sorted` on tuples |
| `LeanAst` | the AST walks |
| `LeanSentences` | the sentence ranges and their states |
| `LeanWait` | `_wait` |
| `LeanMessages` | message spans and `_add_messages` |

## Model

| member | source | states |
|---|---|---|
| TextFormat.IndentLineByLine | alectryon/core.py:42-46 | `indent` works line by line. The lines of the result are the input's lines, each non-empty one prefixed and each empty one replaced by the prefix without its trailing whitespace. |
| TextFormat.IndentOneLine | alectryon/core.py:42-46 | A single non-empty line is just prefixed. |
| Fragments.JoinedAppend | alectryon/core.py:58-62 | The text of a fragment list is the concatenation of the texts of its parts. |
| Fragments.AllMessagesAppend | alectryon/core.py:58-62 | The messages of a fragment list are those of its parts, in order. |
| Numerals.B16Injective | alectryon/core.py:91-92 | Distinct counters give distinct `b16` suffixes, negative counters included. |
| Numerals.DecimalRoundTrip | alectryon/core.py:155-157 | The decimal text of any integer, as headers print it, parses back to that integer. |
| Gensyms.Register | alectryon/core.py:99-101 | Creating a generator registers its stem with no counters. A stem that is already registered keeps its counters, and no other stem is touched. |
| Gensyms.Call | alectryon/core.py:103-106 | A call bumps the counter of its prefix alone and names the new counter value. |
| Gensyms.CallManyNames | alectryon/core.py:103-106 | `n` calls hand out the names of the next `n` counter values and advance the counter by `n`. |
| Gensyms.SameCounterSameName | alectryon/core.py:91-106 | With one stem and one prefix, two names are equal exactly when their counters are. |
| Gensyms.CallManyDistinct | alectryon/core.py:94-106 | Successive calls with one prefix never repeat a name. |
| Gensyms.SharedCounters | alectryon/core.py:94-106 | A second generator for the same stem continues the first one's counters, so its next name is new. |
| Gensyms.FirstName | alectryon/core.py:94-106 | The first name for a prefix ends in `0`. |
| Gensyms.CrossPrefixCollision | alectryon/core.py:91-106 | Names are distinct only per prefix: prefix `a` at counter 16 prints like prefix `a1` at counter 0. |
| Positions.PositionHeaderRoundTrip | alectryon/core.py:155-157 | A position header can be read back: it determines the printed path, the line and the column. |
| Positions.PointRangeHeader | alectryon/core.py:159-165 | A range without an end prints as its beginning's header followed by one more colon. |
| Positions.MakeView | alectryon/core.py:167-196 | The view of a chunk keeps its text and anchor, and its bytes decode strictly back to that text. |
| Positions.TranslateOffset | alectryon/core.py:198-216 | A translated position lies in the chunk's own file. |
| Positions.TranslateFirstLine | alectryon/core.py:198-216 | Before the first newline the line is the anchor's and the column advances by the byte offset. |
| Positions.TranslateAfterNewline | alectryon/core.py:198-216 | After a newline, the line advances by one per newline, and the column is counted in decoded characters from the last newline, plus the anchor's column offset. |
| Positions.TranslateDoctest | alectryon/core.py:202-207 | In `"abc\ndef\nghi"` anchored at line 3, column 2 of `f` with column offset 5, offset 0 is line 3, column 2 and offset 10 is line 5, column 8. |
| Positions.TranslateSpan | alectryon/core.py:218-220 | A translated span lies within one file, and its ends are the translated offsets. |
| Observers.NotifyAllAppend | alectryon/core.py:228-233 | Notifying two lists in turn is notifying their concatenation. |
| Observers.LevelName | alectryon/core.py:239-244 | Level 2 is named `WARNING` and level 3 `ERROR`, and no other level takes those names. |
| Observers.Reflow | alectryon/core.py:239-244 | A one-line message is written stripped of trailing whitespace. |
| Observers.ReflowTwoLines | alectryon/core.py:239-244 | The second line of a message is written indented by three spaces. |
| Observers.Render | alectryon/core.py:239-244 | Each notification is written as text ending in a newline. |
| Observers.ExitCodeIsMaxLevel | alectryon/core.py:235-244 | The exit code is the highest level notified, or 0. It bounds every level and equals one of them unless it is 0. |
| Observers.ExitCodeAppend | alectryon/core.py:235-244 | Later notifications never lower the exit code: it is the maximum over both halves. |
| Observers.StderrAppend | alectryon/core.py:235-244 | The lines of later notifications are written after the earlier ones. |
| Observers.StderrLine | alectryon/core.py:239-244 | The line written for the `i`-th notification is its rendering. |
| Topfiles.ValidChar | alectryon/core.py:335-341 | A character is valid exactly when some allowed pattern accepts it. |
| Topfiles.SubCharsValid | alectryon/core.py:335-346 | After substitution every character is valid, as long as `_` is. |
| Topfiles.SubCharsIdempotent | alectryon/core.py:343-346 | Substituting twice is substituting once. |
| Topfiles.StemSuffix | alectryon/core.py:348-354 | The stem followed by the suffix is the file name, and a suffix is empty or a dot followed by at least one character that is not a dot. |
| Topfiles.TopfileAt | alectryon/core.py:348-354 | Character by character, the first stem character is checked against the start patterns, later ones against the part patterns, and the suffix follows unchanged. |
| Topfiles.TopfileWithShape | alectryon/core.py:335-354 | For any identifier class that accepts `_`, the topfile is `Top` for the stems `-` and empty. Otherwise it keeps the name's length and suffix, and every stem character is valid at its place under that class. |
| Topfiles.UnderscoreInWrittenClass | alectryon/core.py:311-324 | The identifier-start class as written accepts `_`. |
| Topfiles.TopfileAsWrittenShape | alectryon/core.py:311-354 | The topfile the program computes, with the class as written, has the same shape: `Top` for the stems `-` and empty, otherwise the name's length and suffix with every stem character valid under the class as written. |
| Topfiles.TopfileShape | alectryon/core.py:311-354 | With the class its comments describe, the topfile has the same shape, with every stem character valid under that class. |
| Topfiles.SpaceInWrittenClass | alectryon/core.py:311-324 | The identifier-start class as written matches a space. |
| Topfiles.SpaceKeptAsWritten | alectryon/core.py:311-354 | With the class as written, a space inside a stem is kept in the topfile. |
| Topfiles.SpaceReplaced | alectryon/core.py:311-354 | With the class its comments describe, a space inside a stem becomes `_`. |
| Topfiles.SpaceNotIdentPart | alectryon/core.py:311-333 | With the intended class, a space is not an identifier character. |
| Topfiles.SertopArgs | alectryon/core.py:280-292 | `sertop` receives the caller's arguments unchanged, then `--printer=sertop` and `--implicit`, then `--topfile=` followed by the topfile computed with the identifier class as written. |
| Topfiles.SertopArgsKeepSpace | alectryon/core.py:280-354 | For the file `a b.v`, `sertop` receives `--topfile=a b.v`: the space reaches it unchanged. |
| TextFormat.SplitLinesAsSplit | alectryon/core.py:464-468 | Without carriage returns, `splitlines` is `split` on newlines, less the empty piece after a final newline. |
| TextFormat.ContextBefore | alectryon/core.py:466 | The context before the highlighted part holds at most two `\n` and no `\r`, for any text. |
| TextFormat.ContextAfter | alectryon/core.py:467 | The context after the highlighted part holds at most two `\n` and no `\r`, for any text. |
| TextFormat.ContextBeforeIsTail | alectryon/core.py:466 | For text without `\r`, the context before is a tail of the text less one final `\n`, starting at the text's start or just after a `\n`. |
| TextFormat.ContextBeforeLines | alectryon/core.py:466 | Split at `\n`, the context before gives exactly the last three lines of the text, or all of them when there are fewer. It is empty when the text has no lines. |
| TextFormat.ContextAfterIsHead | alectryon/core.py:467 | For text without `\r`, the context after is a head of the text, ending at the text's end or just before a `\n`. |
| TextFormat.ContextAfterLines | alectryon/core.py:467 | Split at `\n`, the context after gives exactly the first three lines of the text, or all of them when there are fewer. It is empty when the text has no lines. |
| TextFormat.LinesJoinToTrimmed | alectryon/core.py:466 | For text without `\r`, joining the lines of `splitlines` with `\n` gives back the text less one final `\n`. |
| TextFormat.ShortContextKept | alectryon/core.py:464-468 | Text of at most three lines is kept whole as the context on either side. |
| TextFormat.HighlightShortChunk | alectryon/core.py:464-468 | A chunk with at most three lines on each side of the highlighted part is reproduced whole, with `>>>` and `<<<` around that part. |
| Positions.ClipSpan | alectryon/core.py:476-479 | A clipped span lies within the chunk. A missing location is the whole chunk, and a location already within the chunk is kept. |
| Positions.ClipSpanIdempotent | alectryon/core.py:476-479 | Clipping a clipped span changes nothing. |
| Positions.RangeOfSpan | alectryon/core.py:481-483 | A range is reported exactly when the chunk has a position, and it is the translated span. |
| SerapiProtocol.ExnParagraphs | alectryon/core.py:485-494 | An exception report holds the quoted exception, the excerpt of the clipped span (only for a non-empty chunk), and the caveat last. |
| SerapiProtocol.ExnNotification | alectryon/core.py:485-494 | An exception is reported as an error about the chunk, located at its clipped span. |
| SerapiProtocol.WarnOnExn | alectryon/core.py:485-494 | Reporting fails exactly when there is no chunk. Otherwise it delivers the one error notification. |
| SerapiProtocol.ScanLineSpec | alectryon/core.py:496-508 | Within one line, the exceptions before the first `Completed` are reported and the events asked for are handed over, in order. |
| SerapiProtocol.CollectSpec | alectryon/core.py:496-508 | A request fails when the output ends, or an unclassified line comes, before `Completed`. Otherwise it reports the transcript's exceptions and hands over the events asked for, both in arrival order. |
| SerapiProtocol.CollectSucceeds | alectryon/core.py:485-508 | A request succeeds exactly when it reads a whole transcript and either has a chunk or has no exception to report. |
| SerapiProtocol.AskedExceptionsNotReported | alectryon/core.py:496-508 | When exceptions are asked for, none is reported and the observer is unchanged. |
| SerapiProtocol.OneErrorPerReport | alectryon/core.py:485-494 | Each reported exception writes one more error line after the earlier ones, and makes the exit code at least 3. |
| SerapiSession.AskEvents | alectryon/core.py:496-508 | A request without a complete transcript fails. Otherwise the events handed over are the chosen events of its transcript, the request is recorded as sent, and exactly the transcript's lines are read. |
| SerapiSession.AskReports | alectryon/core.py:485-508 | A request fails exactly when reporting its exceptions fails, and its observer is the one that reporting produces. |
| SerapiSession.Pprint | alectryon/core.py:510-525 | Nothing to print gives nothing and sends no request; a successful print of an object gives text. |
| SerapiSession.PprintSpec | alectryon/core.py:510-525 | Printing sends one `Print` request with the given printer and arguments. The text is the one string in the answer, and the output read and the printing arguments are kept. |
| SerapiSession.PprintOutcome | alectryon/core.py:510-525 | A reported exception raises `TypeError`. Otherwise zero strings give "No string found", more than one fails the assertion, and exactly one is the result. |
| SerapiSession.PprintMessagesSpec | alectryon/core.py:527-528 | Printing messages keeps their order and sentence ids, and sends one `Print` per message with the session's arguments. |
| SerapiSession.ExecSpec | alectryon/core.py:530-533 | Running a sentence sends `Exec`, then prints each message of its answer in order. |
| SerapiSession.AddSpec | alectryon/core.py:535-551 | Adding a chunk sends it, cuts it along the `Added` answers and prints the messages among the answers. |
| SerapiSession.SpansCoverChunk | alectryon/core.py:535-551 | When the sentences lie in order within the chunk, the spans put back together are exactly the chunk. |
| SerapiSession.SpansFollowAnswers | alectryon/core.py:535-551 | There is one sentence span per `Added` answer, in answer order. Every span between sentences is non-empty. |
| SerapiSession.HypWidthShares | alectryon/core.py:553-559 | The names and the printed hypothesis share the margin exactly, except that the hypothesis width never drops below `MIN_PP_MARGIN`. |
| SerapiSession.PprintHyp | alectryon/core.py:553-559 | A hypothesis without names raises `ValueError`. |
| SerapiSession.PprintHypSpec | alectryon/core.py:553-559 | A printed hypothesis keeps its names and has a body exactly when it had one. The body is requested two columns narrower than the hypothesis width, and the type three columns narrower. |
| SerapiSession.PprintHypsSpec | alectryon/core.py:553-564 | Printing hypotheses keeps their order and names, and only adds to the requests sent. |
| SerapiSession.PprintGoalSpec | alectryon/core.py:561-564 | A printed goal keeps its hypotheses' names. Its conclusion is the first thing requested, with the session's arguments. |
| SerapiSession.PprintGoalsSpec | alectryon/core.py:561-571 | Printing goals keeps their order and names. |
| SerapiSession.GoalsSpec | alectryon/core.py:566-571 | The goals printed after a sentence are the goals in the answer to the query, in order, with their names. |
| SerapiRun.OrphanNotification | alectryon/core.py:573-577 | An orphaned message is a warning about the whole chunk that names the sentence and quotes the message. |
| SerapiRun.OrphanLine | alectryon/core.py:573-577 | A one-line orphaned message is written with the header first and the quoted text on an indented continuation line. |
| SerapiRun.OrphanWarningExample | recipes/tests/errors.py:83-91 | An orphaned message for sentence 0 sets the exit code to 2 and writes one warning line naming the orphaned message. |
| SerapiRun.WithSentence | alectryon/core.py:586-598 | A sentence joins the fragments without messages, and its id points at it. A later sentence with the same id takes the id over. |
| SerapiRun.BuildOne | alectryon/core.py:588-598 | One turn of the loop adds one fragment made from the span, points the sentence's id at it, and appends the messages its execution printed after the pending ones. |
| SerapiRun.BuildFragments | alectryon/core.py:586-598 | The fragment loop adds one fragment per span, in order. Every id it indexes points at a fragment of a span with that id, other ids are kept, and the pending messages are only added to. |
| SerapiRun.Build | alectryon/core.py:585-598 | The first half of `run` succeeds only after `_add` succeeds. Its fragments and index are grown from the spans `_add` returned, starting from the messages `_add` printed. |
| SerapiRun.AppendMessage | alectryon/core.py:601-604 | Appending a message changes only the indexed sentence, adding the message at the end of its messages. |
| SerapiRun.AttachKeeps | alectryon/core.py:601-606 | Attaching messages keeps every fragment's text, kind and goals, and leaves text alone. |
| SerapiRun.AttachMessages | alectryon/core.py:601-606 | Each sentence receives the messages addressed to its id, in order, after the ones it had. |
| SerapiRun.RunJoinsBack | alectryon/core.py:579-607 | When the sentences lie in order within the chunk, the fragments of a run put back together are exactly the chunk. |
| SerapiRun.RunOrphanWarnings | alectryon/core.py:579-607 | A run adds to the observer exactly the orphan warnings of the build it performs. The indexed ids are exactly the sentence ids of the chunk's spans, and there is one warning per message whose id is not among them. With at least one, the exit code is at least 2. |
| SerapiRun.RunRoutesMessages | alectryon/core.py:579-606 | The messages `_add` printed come first in the routed list. There is one output fragment per span, each indexed id points at a span with that id, and each sentence's messages are those of the list addressed to its position, in order. |
| SerapiRun.OrphansCount | alectryon/core.py:599-604 | There are as many orphan warnings as messages whose sentence id is not indexed. |
| SerapiRun.OrphansCover | alectryon/core.py:599-604 | Every message whose sentence id is not indexed is warned about. |
| SerapiRun.OrphansOnly | alectryon/core.py:599-604 | Every orphan warning is about a message whose sentence id is not indexed. |
| Utf8.DecodeEncode | alectryon/core.py:206-214 | Decoding with the `'ignore'` handler undoes encoding. |
| Utf8.DecodeStrictEncode | alectryon/core.py:586-598 | Strict decoding reads back every encoded string. |
| Utf8.AsciiCount | alectryon/core.py:206-214 | On ASCII bytes the decoded character count is the byte count. |
| Sorting.SortByIsTheSortedPermutation | alectryon/lean3.py:141 | When equal keys mean equal elements there is only one sorted permutation, whatever algorithm produces it. |
| LeanWait.Wait | alectryon/lean3.py:57-72 | A returned answer is `ok` and carries the request's number. It was read from the replies, and the messages gathered so far are a prefix of the result. |
| LeanWait.WaitStopsAtFirstAnswer | alectryon/lean3.py:57-72 | The loop stops at the first reply that is not a task report or a message batch. It returns `ok` with every earlier batch appended in order, raises on `error`, on a wrong number or an unknown kind, and fails at the end of the stream. |
| LeanWait.WaitIgnoresTasks | alectryon/lean3.py:57-72 | Task reports before the answer change nothing. |
| LeanAst.Lookup | alectryon/lean3.py:84-98 | Python list indexing: an index in `[0, len)` gives that node, an index in `[-len, 0)` gives the node `len + i`, and any other index raises `IndexError`. |
| LeanAst.DescendantsAreWalkedChildren | alectryon/lean3.py:84-89 | Every index the walk yields is a child of the start or of an index it yielded, through a node it may walk into. |
| LeanAst.DescendantsClosed | alectryon/lean3.py:84-89 | The walk misses nothing: the walkable children of the start and of every yielded index are yielded. |
| LeanAst.SetParentsSpec | alectryon/lean3.py:91-98 | Linking one node's children keeps every node's kind, children, positions and existing links, and links each child to that node. |
| LeanAst.AssignFromSpec | alectryon/lean3.py:91-98 | The outer loop keeps every node's shape and existing links, and links the children of every node it passes. |
| LeanAst.AssignParentingLinksChildren | alectryon/lean3.py:91-98 | After parenting, every node keeps its shape, and every child that is a node has as its parent the node that lists it. |
| LeanAst.SharedChildExample | alectryon/lean3.py:91-98 | Two nodes listing the same child fail the assertion. |
| LeanAst.ByInParentsFindsBy | alectryon/lean3.py:126-127 | When it answers, `_by_in_parents` says whether some node up the parent links, the node itself included, is a `by`. |
| LeanSentences.NodeRangesSpec | alectryon/lean3.py:100-124 | A node gives ranges only when it has both positions and no `by` above it. A tactic gives its own range with depth change 0. A container gives its opening keyword with +1, then its closing keyword with -1, each as wide as the keyword. Columns are never negative. |
| LeanSentences.RangesFromSpec | alectryon/lean3.py:106-124 | The ranges of any set of nodes have non-negative columns, and their depth changes cancel. |
| LeanSentences.FindSentenceRangesBalanced | alectryon/lean3.py:106-124 | The ranges of a file have non-negative columns, and the blocks' opening and closing keywords pair up. |
| LeanSentences.SortRangesSpec | alectryon/lean3.py:141 | The ranges come out in order with nothing lost or added, and this is the only such order. |
| LeanSentences.AcceptedEndsIncrease | alectryon/lean3.py:141-158 | The ranges kept have strictly increasing ends. |
| LeanSentences.CollectPairs | alectryon/lean3.py:141-158 | The loop yields exactly the kept ranges, in order. Each is paired with the state at the start of the next, unless it is the last or either one closes a block at depth 0. |
| LeanSentences.CollectFailsIffNegativeDepth | alectryon/lean3.py:141-158 | The loop fails exactly when some prefix of the ranges closes more blocks than it opens, and then with `AssertionError`. |
| LeanSentences.CollectSentencesAndStatesSpec | alectryon/lean3.py:135-158 | The sentences are the kept ranges of the sorted ranges, in order and with strictly increasing ends, each with its state, and the running depth never went negative. |
| LeanMessages.SkipSpaceSpec | alectryon/lean3.py:195 | Skipping whitespace stops at the first non-whitespace character or at the end. |
| LeanMessages.SkipWordSpec | alectryon/lean3.py:195 | Skipping a word stops at the first whitespace character or at the end. |
| LeanMessages.CommandEndSpec | alectryon/lean3.py:195-206 | The probable command is missing exactly when only whitespace follows the position. Otherwise it ends after a run of non-whitespace that follows only whitespace. |
| LeanMessages.MessageSpanOfWord | alectryon/lean3.py:197-206 | A message without an end that points at non-whitespace spans the word it points at. |
| LeanMessages.MessageSpans | alectryon/lean3.py:208-210 | Messages without a span are dropped, never added. |
| LeanMessages.SortMessagesAsWrittenTie | alectryon/lean3.py:208-210 | As written, two different messages with the same span make the sort raise `TypeError`. |
| LeanMessages.SortMessagesAsWrittenWithoutTie | alectryon/lean3.py:208-210 | Without such a tie, the sort as written succeeds, and its result is the one sorted permutation. |
| LeanMessages.SortMessagesSpec | alectryon/lean3.py:208-210 | Messages come out ordered by span with nothing lost or added, and messages with the same span keep the order they came in. |
| LeanMessages.MergeJoined | alectryon/lean3.py:212-240 | Cutting the fragments along the messages keeps the text: the output put back together is the input. |
| LeanMessages.MergeAttachesEach | alectryon/lean3.py:212-240 | Each message is attached exactly once, in sorted order, read across the output fragments. |
| LeanMessages.MergeBySegment | alectryon/lean3.py:216-236 | The output is the current fragment merged with the leading messages that start before its end, all of which start inside it, followed by the rest of the fragments merged with the other messages. With no fragments left, every message starts inside the current one. |
| LeanMessages.MergeIntoSentence | alectryon/lean3.py:219-233 | Messages that start inside a sentence are all appended to it in order, and its text is kept. The loop fails its assertion instead if one of them ends before it starts. |
| LeanMessages.MergeSentencePlacement | alectryon/lean3.py:216-236 | When the current fragment is a sentence, the leading messages that start before its end are appended to it in order, and the others land in the fragments after it. |
| LeanMessages.MergeCutsText | alectryon/lean3.py:219-233 | A message inside a text fragment cuts it into the text before it, a sentence of the message's span carrying the message, and the text after it, with empty parts omitted. |
| LeanMessages.MergeKeepsSentence | alectryon/lean3.py:219-233 | A message on a sentence is appended to its messages, and the sentence is not truncated. |
| LeanMessages.AddMessagesSpec | alectryon/lean3.py:208-240 | Adding messages keeps the document's text and attaches every message that has a span once, in sorted order. With no fragments, the messages are dropped. |
| LeanMessages.AddMessagesAsWrittenAgrees | alectryon/lean3.py:208-214 | As written, `_add_messages` raises `TypeError` when two different messages share a span, even with no fragments. Otherwise it gives what the corrected `AddMessages` gives. |
| LeanMessages.AddMessagesAsWrittenTieExample | alectryon/lean3.py:208-214 | An error and a warning at the same position make `_add_messages` as written raise `TypeError`, while the corrected version drops them from an empty document. |

## Left out

- The S-expression reader and printer and the `_deserialize_*` functions. The model starts from classified events (`SerapiProtocol.Event`).
- Process I/O: `_query`, `_send`, `next_sexp`, `reset`, `kill`, `resolve_sertop` and `version_info`. Output is a list of lines and input a list of requests.
- The Unicode character database. `unicodedata.category` is a parameter of `Topfiles`.
- `indent` with a blank prefix. Only non-blank prefixes occur: the drivers pass `"  > "` and `" >  "`. The blank default of four spaces in `_highlight_exn` is never used.
- `TextFormat.ContextBeforeIsTail` and `TextFormat.ContextAfterIsHead`: stated for text without `\r`. `splitlines` also ends lines at `\r` and `\r\n`, so there the context is not a plain tail or head of the text. For any text, `ContextBeforeLines` and `ContextAfterLines` still state which lines the context holds.
- `TextFormat.LinesJoinToTrimmed`: stated for text without `\r`, for the same reason.
- `Path` normalisation in `topfile`. The model takes the file name as a string.
- `pygments.py`, `Backend`, `Enriched`, `Asset` and `annotate`: rendering is not part of this model.
- The `annotate` entry points of both drivers and Lean's `_annotate`, which only chain the modelled steps over several chunks.
- `Lean3._parse_hyps` and `_parse_goals`, the regular-expression parsing of Lean's goal text. `_get_state_at` is a parameter that returns the state text.
- `Lean3._find_sentences`, `partition` and `Document.intersperse_text_fragments`. `Document.with_boundaries` is not part of this model either: the `_add_messages` lemmas take its result (`Fits`) as a precondition.
- `Document.pos2offset` is a parameter, and `str(doc)` is taken to be the document's contents.
- Recursion depth. `LeanAst.Descendants` and `LeanAst.ByInParents` carry a fuel bound, and running out stands for the `RecursionError` that a cycle causes. Python's depth limit on deep acyclic trees is not modelled.
- A missing `kind` key on an AST node or a reply is not modelled: the fields are always present.
- Python's set iteration order in `_find_sentence_ranges`. The indices are visited in increasing order. This changes only which exception is raised when several nodes are faulty, since the ranges are sorted next.
- `SerapiRun.RunOrphanWarnings`: the message loop of `run` is modelled as attaching, then warning. The two do not interact, so only the order between appends and warnings differs, and neither is observable on the other.
- `LeanMessages.AddMessages`: sorts by span only, keeping the order of messages with the same span. The code as written raises `TypeError` on such a tie; that behaviour is `LeanMessages.AddMessagesAsWritten`, and the two agree on every other input (see "## Findings").
- `LeanMessages.AddMessagesSpec`: stated for segments that carry no messages yet (`Bare`), which is what `partition` produces.
- `LeanMessages.MergeAttachesEach`: states the messages read across all the output fragments. Which input fragment each message lands on is `MergeBySegment`, and for a sentence `MergeSentencePlacement`. For a text fragment that several messages cut, which piece each message lands on is stated only for a single message (`MergeCutsText`).
- `SerapiProtocol.Collect`: the observer records notifications and loses those delivered before a failing request, because the exception ends the driver.
- `SerapiSession.Ask`: the request's `qid` is implicit as its position in the list of requests sent.
- `Common.Fault`: the five `UnexpectedError` messages are an enumeration rather than strings. Three of them, for an unexpected answer, feedback and response, are merged into `UnexpectedResponse`: the model starts from classified lines, and a line it cannot classify (`Unclassified`) stands for all three.
- `EXPECT_UNEXPECTED`: the model takes its default, `False`, so an unclassified response always raises (alectryon/core.py:270, 460).
- `Observers.Notification`: the `subject` is kept as the chunk's text. Python passes the chunk itself, which is its bytes when it has no position. The observer never reads the subject.
- The `TRACEBACK` and `DEBUG` switches and `debug`, which only print.

## Findings

| source | as written | input that shows it | evidently intended | confidence | as-written member | corrected member |
|---|---|---|---|---|---|---|
| alectryon/core.py:317-323 | The identifier-start character class is written over several lines with `#` comments and compiled in verbose mode. Verbose mode keeps whitespace and `#` literal inside a character class, so the class also holds spaces, `#` and the comment letters. A space is therefore accepted as an identifier character. | A file named `a b.v`: the space in the stem is kept, giving topfile `a b.v`. | The class holds only the three phonetic blocks, `_` and the no-break space, so a space (category `Zs`) becomes `_` and the topfile is `a_b.v`. | not executed | Topfiles.SpaceKeptAsWritten | Topfiles.SpaceReplaced |
| alectryon/lean3.py:210 | Messages are sorted as `(beg, end, msg)` tuples whose last field is a dictionary. Two different messages with the same span make Python compare two dictionaries, which raises `TypeError`. | An error and a warning both reported from position `(1, 4)` to `(1, 9)`, that is offsets 4 to 9 of the document. | Messages are sorted by `(beg, end)` only, and messages with the same span keep the order Lean reported them in. | not executed | LeanMessages.AddMessagesAsWrittenTieExample | LeanMessages.AddMessagesSpec |

=== FILE: common.dfy ===
/** Shared value types and the handful of Python string/bytes primitives the
    drivers lean on, written out with Python's exact semantics. */
module Common {

  datatype Option<+T> = None | Some(value: T)

  /** A computation that either produces a value or raises (the error). */
  datatype Result<+T, +E> = Ok(value: T) | Fail(error: E)

  /** The exceptions the drivers raise, by Python class; `UnexpectedError` is the
      SerAPI driver's own, `ProtocolError` the Lean driver's. */
  datatype Fault =
    | UnexpectedError(reason: Unexpected)
    | ProtocolError(message: string)
    | AssertionError
    | TypeError
    | ValueError
    | IndexError
    | UnicodeDecodeError
    | RecursionError

  /** The reasons the SerAPI driver gives for an `UnexpectedError`. */
  datatype Unexpected =
    | EmptyLine           // "SerTop printed an empty line"
    | UnexpectedResponse  // "Unexpected response", "Unexpected answer" or "Unexpected feedback"
    | NoStringFound       // "No string found in Print answer"

  newtype byte = x: int | 0 <= x < 256

  const NL: byte := 10
  const CR: byte := 13

  function Max(a: int, b: int): int { if a >= b then a else b }

  function Min(a: int, b: int): int { if a <= b then a else b }

  /** Python's normalisation of a slice bound `i` against a sequence of length `n`:
      negative bounds count from the end, and the result is clamped to `[0, n]`. */
  function ClampIndex(i: int, n: nat): (k: nat)
    ensures k <= n
    ensures 0 <= i <= n ==> k == i
    ensures i < 0 && -i <= n ==> k == n + i
    ensures i > n ==> k == n
  {
    var j := if i < 0 then i + n else i;
    if j < 0 then 0 else if j > n then n else j
  }

  /** Python's `s[i:j]`. */
  function Slice<T>(s: seq<T>, i: int, j: int): (r: seq<T>)
    ensures 0 <= i <= j <= |s| ==> r == s[i..j]
    ensures |r| <= |s|
  {
    var a := ClampIndex(i, |s|);
    var b := ClampIndex(j, |s|);
    if a <= b then s[a..b] else []
  }

  /** Number of occurrences of `x` in `s` (Python `count` of a one-element needle). */
  function Count<T(==)>(s: seq<T>, x: T): (n: nat)
    ensures n <= |s|
    ensures n == 0 <==> x !in s
  {
    if |s| == 0 then 0 else Count(s[..|s| - 1], x) + (if s[|s| - 1] == x then 1 else 0)
  }

  /** Highest index of `x` in `s`, or -1 (Python `rfind` of a one-element needle). */
  function LastIndex<T(==)>(s: seq<T>, x: T): (i: int)
    ensures -1 <= i < |s|
    ensures i == -1 <==> x !in s
    ensures i >= 0 ==> s[i] == x && x !in s[i + 1..]
  {
    if |s| == 0 then -1
    else if s[|s| - 1] == x then |s| - 1
    else LastIndex(s[..|s| - 1], x)
  }

  lemma {:induction false} CountAppend<T>(a: seq<T>, b: seq<T>, x: T)
    ensures Count(a + b, x) == Count(a, x) + Count(b, x)
    decreases |b|
  {
    if |b| == 0 {
      assert a + b == a;
    } else {
      assert (a + b)[..|a + b| - 1] == a + b[..|b| - 1];
      CountAppend(a, b[..|b| - 1], x);
    }
  }

  /** The characters Python's `str.isspace` accepts (also what `\s` matches in a
      Unicode regular expression). */
  predicate IsSpace(c: char) {
    ('\t' <= c <= '\r') || ('\U{1C}' <= c <= '\U{1F}') || c == ' '
    || c == '\U{85}' || c == '\U{A0}' || c == '\U{1680}'
    || ('\U{2000}' <= c <= '\U{200A}') || c == '\U{2028}' || c == '\U{2029}'
    || c == '\U{202F}' || c == '\U{205F}' || c == '\U{3000}'
  }

  /** Python's `str.rstrip()`. */
  function RStrip(s: string): (r: string)
    ensures r <= s
    ensures |r| == 0 || !IsSpace(r[|r| - 1])
    ensures forall i :: |r| <= i < |s| ==> IsSpace(s[i])
  {
    if |s| == 0 || !IsSpace(s[|s| - 1]) then s else RStrip(s[..|s| - 1])
  }

  /** Python's `s.replace(c, rep)` for a one-character needle. */
  function ReplaceChar(s: string, c: char, rep: string): (r: string)
    ensures c !in s ==> r == s
  {
    if |s| == 0 then []
    else (if s[0] == c then rep else [s[0]]) + ReplaceChar(s[1..], c, rep)
  }

  /** Replacement works piece by piece. */
  lemma {:induction false} ReplaceCharAppend(a: string, b: string, c: char, rep: string)
    ensures ReplaceChar(a + b, c, rep) == ReplaceChar(a, c, rep) + ReplaceChar(b, c, rep)
  {
    if |a| > 0 {
      assert (a + b)[0] == a[0] && (a + b)[1..] == a[1..] + b;
      ReplaceCharAppend(a[1..], b, c, rep);
      AppendAssoc(if a[0] == c then rep else [a[0]], ReplaceChar(a[1..], c, rep), ReplaceChar(b, c, rep));
    } else {
      assert a + b == b;
    }
  }

  /** Python's `s.split(c)` for a one-character separator: always at least one piece. */
  function Split<T(==)>(s: seq<T>, c: T): (pieces: seq<seq<T>>)
    ensures |pieces| == Count(s, c) + 1
    ensures forall k :: 0 <= k < |pieces| ==> c !in pieces[k]
  {
    var i := LastIndex(s, c);
    if i < 0 then [s]
    else
      CountAtLast(s, c);
      Split(s[..i], c) + [s[i + 1..]]
  }

  /** The last occurrence accounts for one in the count. */
  lemma CountAtLast<T>(s: seq<T>, c: T)
    requires c in s
    ensures Count(s, c) == Count(s[..LastIndex(s, c)], c) + 1
  {
    var i := LastIndex(s, c);
    assert s == s[..i] + ([c] + s[i + 1..]);
    CountAppend(s[..i], [c] + s[i + 1..], c);
    CountAppend([c], s[i + 1..], c);
    assert [c][..0] == [];
  }

  /** Python's `sep.join(pieces)`. */
  function Join<T>(pieces: seq<seq<T>>, sep: seq<T>): seq<T> {
    if |pieces| == 0 then []
    else if |pieces| == 1 then pieces[0]
    else Join(pieces[..|pieces| - 1], sep) + sep + pieces[|pieces| - 1]
  }

  /** Splitting on a separator and joining with it again gives back the input. */
  lemma {:induction false} JoinSplit<T>(s: seq<T>, c: T)
    ensures Join(Split(s, c), [c]) == s
    decreases |s|
  {
    var i := LastIndex(s, c);
    if i >= 0 {
      var pieces := Split(s[..i], c);
      JoinSplit(s[..i], c);
      SplitAround(s, i);
      assert Split(s, c) == pieces + [s[i + 1..]];
      assert |pieces| >= 1;
      assert (pieces + [s[i + 1..]])[..|pieces|] == pieces;
    }
  }

  lemma AppendAssoc<T>(a: seq<T>, b: seq<T>, c: seq<T>)
    ensures a + (b + c) == (a + b) + c
  {
  }

  /** A sequence is what comes before position `j`, the element there, and what
      comes after. */
  lemma SplitAround<T>(s: seq<T>, j: nat)
    requires j < |s|
    ensures s == s[..j] + [s[j]] + s[j + 1..]
  {
  }

  lemma InitLast<T>(s: seq<T>)
    requires |s| > 0
    ensures s == s[..|s| - 1] + [s[|s| - 1]]
  {
  }

  /** Splitting at a separator that the tail does not contain. */
  lemma SplitUnfold<T>(a: seq<T>, c: T, b: seq<T>)
    requires c !in b
    ensures Split(a + [c] + b, c) == Split(a, c) + [b]
  {
    var s := a + [c] + b;
    LastIndexJunction(a, c, b);
    assert s[..|a|] == a && s[|a| + 1..] == b;
  }

  /** Joining pieces that do not contain the separator and splitting again gives
      back the pieces. */
  lemma {:induction false} SplitJoin<T>(pieces: seq<seq<T>>, c: T)
    requires |pieces| >= 1
    requires forall k :: 0 <= k < |pieces| ==> c !in pieces[k]
    ensures Split(Join(pieces, [c]), c) == pieces
    decreases |pieces|
  {
    if |pieces| > 1 {
      var init, last := pieces[..|pieces| - 1], pieces[|pieces| - 1];
      assert Join(pieces, [c]) == Join(init, [c]) + [c] + last;
      SplitUnfold(Join(init, [c]), c, last);
      SplitJoin(init, c);
      InitLast(pieces);
    }
  }

  /** Splitting at the first separator: the piece before it, then the split of
      what follows. */
  lemma {:induction false} SplitFront<T>(a: seq<T>, c: T, b: seq<T>)
    requires c !in a
    ensures Split(a + [c] + b, c) == [a] + Split(b, c)
    decreases |b|
  {
    assert LastIndex(a, c) == -1;
    var i := LastIndex(b, c);
    if i < 0 {
      SplitUnfold(a, c, b);
    } else {
      var b1, b2 := b[..i], b[i + 1..];
      SplitAround(b, i);
      assert a + [c] + b == (a + [c] + b1) + [c] + b2;
      SplitUnfold(a + [c] + b1, c, b2);
      SplitUnfold(b1, c, b2);
      SplitFront(a, c, b1);
      AppendAssoc([a], Split(b1, c), [b2]);
    }
  }

  /** Joining two non-empty runs of pieces puts one separator between their joins. */
  lemma {:induction false} JoinAppend<T>(a: seq<seq<T>>, b: seq<seq<T>>, sep: seq<T>)
    requires |a| >= 1 && |b| >= 1
    ensures Join(a + b, sep) == Join(a, sep) + sep + Join(b, sep)
    decreases |b|
  {
    var s := a + b;
    assert s[|s| - 1] == b[|b| - 1];
    if |b| == 1 {
      assert s[..|s| - 1] == a;
    } else {
      var init := b[..|b| - 1];
      assert s[..|s| - 1] == a + init;
      JoinAppend(a, init, sep);
      AppendAssoc(Join(a, sep) + sep, Join(init, sep), sep + b[|b| - 1]);
      AppendAssoc(Join(init, sep), sep, b[|b| - 1]);
    }
  }

  /** The join of the first `m` pieces is a head of the whole join, which
      continues with the separator. */
  lemma JoinHead<T>(pieces: seq<seq<T>>, m: nat, c: T)
    requires 1 <= m < |pieces|
    ensures var s, r := Join(pieces, [c]), Join(pieces[..m], [c]);
      |r| < |s| && s[..|r|] == r && s[|r|] == c
  {
    assert pieces == pieces[..m] + pieces[m..];
    JoinAppend(pieces[..m], pieces[m..], [c]);
  }

  /** The join of the pieces from `k` on is a tail of the whole join, which
      has the separator just before it. */
  lemma JoinTail<T>(pieces: seq<seq<T>>, k: nat, c: T)
    requires 1 <= k < |pieces|
    ensures var s, r := Join(pieces, [c]), Join(pieces[k..], [c]);
      |r| < |s| && s[|s| - |r|..] == r && s[|s| - |r| - 1] == c
  {
    assert pieces == pieces[..k] + pieces[k..];
    JoinAppend(pieces[..k], pieces[k..], [c]);
  }

  /** A join of `n` separator-free pieces holds `n - 1` separators. */
  lemma {:induction false} CountJoin<T>(pieces: seq<seq<T>>, c: T)
    requires |pieces| >= 1
    requires forall k :: 0 <= k < |pieces| ==> c !in pieces[k]
    ensures Count(Join(pieces, [c]), c) == |pieces| - 1
    decreases |pieces|
  {
    if |pieces| > 1 {
      var init, last := pieces[..|pieces| - 1], pieces[|pieces| - 1];
      CountJoin(init, c);
      CountAppend(Join(init, [c]) + [c], last, c);
      CountAppend(Join(init, [c]), [c], c);
      assert Count([c], c) == 1 by { assert [c][..0] == []; }
    }
  }

  /** Concatenation of a sequence of sequences. */
  function Flatten<T>(ss: seq<seq<T>>): (r: seq<T>) {
    if |ss| == 0 then [] else Flatten(ss[..|ss| - 1]) + ss[|ss| - 1]
  }

  lemma {:induction false} FlattenAppend<T>(a: seq<seq<T>>, b: seq<seq<T>>)
    ensures Flatten(a + b) == Flatten(a) + Flatten(b)
    decreases |b|
  {
    if |b| == 0 {
      assert a + b == a;
    } else {
      assert (a + b)[..|a + b| - 1] == a + b[..|b| - 1];
      FlattenAppend(a, b[..|b| - 1]);
    }
  }

  /** A needle absent from the tail is found at the junction. */
  lemma {:induction false} LastIndexJunction<T>(a: seq<T>, x: T, b: seq<T>)
    requires x !in b
    ensures LastIndex(a + [x] + b, x) == |a|
    decreases |b|
  {
    var s := a + [x] + b;
    if |b| > 0 {
      assert s[|s| - 1] == b[|b| - 1];
      assert s[..|s| - 1] == a + [x] + b[..|b| - 1];
      LastIndexJunction(a, x, b[..|b| - 1]);
    }
  }
}

=== FILE: fragments.dfy ===
/** The driver's output vocabulary: hypotheses, goals, messages and the two kinds
    of fragment a chunk of input is cut into. */
module Fragments {
  import opened Common

  /** One row of a proof context; `O` is the object type (raw before pretty-printing,
      `string` after). Several names may share one body and type. */
  datatype Hypothesis<O> = Hypothesis(names: seq<string>, body: Option<O>, htype: O)

  datatype Goal<O> = Goal(name: Option<string>, conclusion: O, hypotheses: seq<Hypothesis<O>>)

  datatype Message = Message(contents: string)

  /** `C` is the type of the fragment's text: bytes of the chunk on the SerAPI side,
      characters on the Lean side. */
  datatype Fragment<C> =
    | Text(contents: C)
    | Sentence(contents: C, messages: seq<Message>, goals: seq<Goal<string>>)

  /** The concatenated text of a list of fragments. */
  function Joined<T>(frs: seq<Fragment<seq<T>>>): seq<T> {
    if |frs| == 0 then [] else Joined(frs[..|frs| - 1]) + frs[|frs| - 1].contents
  }

  lemma {:induction false} JoinedAppend<T>(a: seq<Fragment<seq<T>>>, b: seq<Fragment<seq<T>>>)
    ensures Joined(a + b) == Joined(a) + Joined(b)
    decreases |b|
  {
    if |b| == 0 {
      assert a + b == a;
    } else {
      assert (a + b)[..|a + b| - 1] == a + b[..|b| - 1];
      JoinedAppend(a, b[..|b| - 1]);
    }
  }

  /** Every message carried by a list of fragments, in fragment order. */
  function AllMessages<C>(frs: seq<Fragment<C>>): seq<Message> {
    if |frs| == 0 then []
    else AllMessages(frs[..|frs| - 1]) + (if frs[|frs| - 1].Sentence? then frs[|frs| - 1].messages else [])
  }

  lemma {:induction false} AllMessagesAppend<C>(a: seq<Fragment<C>>, b: seq<Fragment<C>>)
    ensures AllMessages(a + b) == AllMessages(a) + AllMessages(b)
    decreases |b|
  {
    if |b| == 0 {
      assert a + b == a;
    } else {
      assert (a + b)[..|a + b| - 1] == a + b[..|b| - 1];
      AllMessagesAppend(a, b[..|b| - 1]);
    }
  }
}

=== FILE: gensym.dfy ===
/** `Gensym`: fresh names made of a stem, a prefix and a hexadecimal counter.
    The class-level table of counters is threaded through explicitly, so that
    several generators for the same stem share their counters. */
module Gensyms {
  import opened Numerals

  /** `GENSYM_COUNTERS`: for each registered stem, the last counter handed out
      for each prefix; a prefix that is absent stands for the default -1. */
  type Counters = map<string, map<string, int>>

  function Counter(t: Counters, stem: string, prefix: string): int
    requires stem in t
  {
    if prefix in t[stem] then t[stem][prefix] else -1
  }

  /** `Gensym(stem)`: `setdefault` registers a new stem with no counters and
      leaves an already registered stem's counters as they are. */
  function Register(t: Counters, stem: string): (t': Counters)
    ensures stem in t' && t'.Keys == t.Keys + {stem}
    ensures stem in t ==> t' == t
    ensures stem !in t ==> forall p :: Counter(t', stem, p) == -1
    ensures forall s :: s in t ==> t'[s] == t[s]
  {
    if stem in t then t else t[stem := map[]]
  }

  /** `Gensym.__call__(prefix)`: bumps the counter of `prefix` and returns
      `stem + prefix + b16(counter)`. */
  function Call(t: Counters, stem: string, prefix: string): (r: (string, Counters))
    requires stem in t
    ensures stem in r.1 && r.1.Keys == t.Keys
    ensures Counter(r.1, stem, prefix) == Counter(t, stem, prefix) + 1
    ensures forall p :: p != prefix ==> Counter(r.1, stem, p) == Counter(t, stem, p)
    ensures forall s :: s in t && s != stem ==> r.1[s] == t[s]
    ensures r.0 == Name(stem, prefix, Counter(t, stem, prefix) + 1)
  {
    var n := Counter(t, stem, prefix) + 1;
    (Name(stem, prefix, n), t[stem := t[stem][prefix := n]])
  }

  /** `n` successive calls with the same prefix. */
  function CallMany(t: Counters, stem: string, prefix: string, n: nat): (r: (seq<string>, Counters))
    requires stem in t
    ensures stem in r.1 && |r.0| == n
    decreases n
  {
    if n == 0 then ([], t)
    else
      var (name, t1) := Call(t, stem, prefix);
      var (names, t2) := CallMany(t1, stem, prefix, n - 1);
      ([name] + names, t2)
  }

  /** The name a generator hands out for counter value `k`. */
  function Name(stem: string, prefix: string, k: int): (name: string)
  {
    stem + prefix + B16(k)
  }

  /** The names for `n` successive counter values starting at `from`. */
  function Names(stem: string, prefix: string, from: int, n: nat): (r: seq<string>)
    ensures |r| == n
    decreases n
  {
    if n == 0 then [] else [Name(stem, prefix, from)] + Names(stem, prefix, from + 1, n - 1)
  }

  lemma {:induction false} NamesAt(stem: string, prefix: string, from: int, n: nat, i: nat)
    requires i < n
    ensures Names(stem, prefix, from, n)[i] == Name(stem, prefix, from + i)
    decreases n
  {
    if i > 0 {
      NamesAt(stem, prefix, from + 1, n - 1, i - 1);
    }
  }

  /** `n` calls hand out the names of the next `n` counter values and advance the
      counter by `n`. */
  lemma {:induction false} CallManyNames(t: Counters, stem: string, prefix: string, n: nat)
    requires stem in t
    ensures CallMany(t, stem, prefix, n).0 == Names(stem, prefix, Counter(t, stem, prefix) + 1, n)
    ensures Counter(CallMany(t, stem, prefix, n).1, stem, prefix) == Counter(t, stem, prefix) + n
    decreases n
  {
    if n > 0 {
      var t1 := Call(t, stem, prefix).1;
      CallManyNames(t1, stem, prefix, n - 1);
    }
  }

  /** Names with the same stem and prefix differ exactly when their counters do. */
  lemma SameCounterSameName(stem: string, prefix: string, a: int, b: int)
    ensures Name(stem, prefix, a) == Name(stem, prefix, b) <==> a == b
  {
    var x, y := Name(stem, prefix, a), Name(stem, prefix, b);
    if x == y {
      assert B16(a) == x[|stem + prefix|..] == y[|stem + prefix|..] == B16(b);
      B16Injective(a, b);
    }
  }

  /** The names of distinct counter values are distinct. */
  lemma NamesDistinct(stem: string, prefix: string, from: int, n: nat)
    ensures var names := Names(stem, prefix, from, n);
      forall i, j :: 0 <= i < j < n ==> names[i] != names[j]
  {
    var names := Names(stem, prefix, from, n);
    forall i, j | 0 <= i < j < n
      ensures names[i] != names[j]
    {
      NamesAt(stem, prefix, from, n, i);
      NamesAt(stem, prefix, from, n, j);
      SameCounterSameName(stem, prefix, from + i, from + j);
    }
  }

  /** No name of the run starting at `from` is the name of a later counter. */
  lemma NamesBefore(stem: string, prefix: string, from: int, n: nat, k: int)
    requires k >= from + n
    ensures var names := Names(stem, prefix, from, n);
      forall i :: 0 <= i < n ==> names[i] != Name(stem, prefix, k)
  {
    var names := Names(stem, prefix, from, n);
    forall i | 0 <= i < n
      ensures names[i] != Name(stem, prefix, k)
    {
      NamesAt(stem, prefix, from, n, i);
      SameCounterSameName(stem, prefix, from + i, k);
    }
  }

  /** Successive calls with the same prefix never repeat a name. */
  lemma CallManyDistinct(t: Counters, stem: string, prefix: string, n: nat)
    requires stem in t
    ensures var names := CallMany(t, stem, prefix, n).0;
      forall i, j :: 0 <= i < j < n ==> names[i] != names[j]
  {
    CallManyNames(t, stem, prefix, n);
    NamesDistinct(stem, prefix, Counter(t, stem, prefix) + 1, n);
  }

  /** A second generator for a registered stem continues its counters: the next
      name differs from every name the first one produced. */
  lemma SharedCounters(t: Counters, stem: string, prefix: string, n: nat)
    requires stem in t
    ensures var r := CallMany(t, stem, prefix, n);
      forall i :: 0 <= i < n ==> r.0[i] != Call(Register(r.1, stem), stem, prefix).0
  {
    var c := Counter(t, stem, prefix);
    CallManyNames(t, stem, prefix, n);
    var t1 := CallMany(t, stem, prefix, n).1;
    assert Register(t1, stem) == t1;
    assert Call(t1, stem, prefix).0 == Name(stem, prefix, c + n + 1);
    NamesBefore(stem, prefix, c + 1, n, c + n + 1);
  }

  /** The first name for a prefix ends in `0`. */
  lemma FirstName(t: Counters, stem: string, prefix: string)
    requires stem !in t
    ensures Call(Register(t, stem), stem, prefix).0 == stem + prefix + "0"
  {
  }

  /** Distinctness holds per prefix only: prefix `"a"` at counter 16 and prefix
      `"a1"` at counter 0 print the same name. */
  lemma CrossPrefixCollision(stem: string)
    ensures stem + "a" + B16(16) == stem + "a1" + B16(0)
  {
    assert B16(16) == "10" by {
      assert NatDigits(16, 16) == NatDigits(1, 16) + [DigitChar(0)];
    }
  }
}

=== FILE: lean_ast.dfy ===
/** The Lean 3 AST that `lean --ast` writes: a flat array of nodes, some of them
    `null`, whose children are indices into the array. The driver walks it
    downwards (`_get_descendants`), adds parent links (`_assign_parenting`) and
    walks them upwards (`_by_in_parents`). */
module LeanAst {
  import opened Common

  /** A `(line, column)` position; the positions of one file compare as pairs. */
  datatype Pos = Pos(line: int, col: int)

  predicate PosLe(a: Pos, b: Pos) {
    a.line < b.line || (a.line == b.line && a.col <= b.col)
  }

  /** One node. `children`, `start` and `end` may be missing; `parent` is the
      key `_assign_parenting` adds. */
  datatype Node = Node(kind: string, children: Option<seq<int>>, start: Option<Pos>, end: Option<Pos>, parent: Option<int>)

  type Ast = seq<Option<Node>>

  /** The slot Python's `ast[i]` reads: a negative index counts from the end. */
  function Slot(i: int, n: nat): int {
    if i < 0 then i + n else i
  }

  /** `ast[i]`, which raises `IndexError` outside the array. */
  function Lookup(ast: Ast, i: int): (r: Result<Option<Node>, Fault>)
    ensures r.Ok? <==> 0 <= Slot(i, |ast|) < |ast|
    ensures r.Ok? ==> r.value == ast[Slot(i, |ast|)]
    ensures r.Fail? ==> r.error == IndexError
    ensures 0 <= i < |ast| ==> r == Ok(ast[i])
    ensures -|ast| <= i < 0 ==> r == Ok(ast[|ast| + i])
    ensures i < -|ast| || |ast| <= i ==> r == Fail(IndexError)
  {
    var k := Slot(i, |ast|);
    if 0 <= k < |ast| then Ok(ast[k]) else Fail(IndexError)
  }

  /** `TACTIC_NODES`. */
  predicate TacticNode(kind: string) {
    kind == "tactic" || kind == "<|>" || kind == ";"
  }

  /** `TACTIC_CONTAINERS`. */
  predicate TacticContainer(kind: string) {
    kind == "begin" || kind == "{"
  }

  /** `DONT_RECURSE_IN`: `by` and the tactic nodes. */
  predicate DontRecurseIn(kind: string) {
    kind == "by" || TacticNode(kind)
  }

  /** `KIND_ENDER`: the keyword that closes a tactic container. */
  function Ender(kind: string): (e: string)
    requires TacticContainer(kind)
    ensures |e| == |kind| - 2 || |e| == |kind|
  {
    if kind == "begin" then "end" else "}"
  }

  // ---------------------------------------------------------------------------
  // `_get_descendants`

  /** The children the walk goes into from index `i`: those of a node that
      exists, has children and is not of a kind in `DONT_RECURSE_IN`. */
  function Below(ast: Ast, i: int): seq<int> {
    match Lookup(ast, i)
    case Ok(Some(n)) => if n.children.Some? && !DontRecurseIn(n.kind) then n.children.value else []
    case _ => []
  }

  /** `_get_descendants(idx)`: the children of the node, then the descendants of
      each child in turn. Python recurses without bound; `fuel` bounds the depth.
      Starting from the number of nodes, running out means the walk has met
      one node twice on its way down, and from there it goes round the same
      loop forever: the `RecursionError` Python ends with. */
  function Descendants(ast: Ast, idx: int, fuel: nat): (r: Result<seq<int>, Fault>)
    decreases fuel, 0
  {
    match Lookup(ast, idx)
    case Fail(f) => Fail(f)
    case Ok(node) =>
      if node.None? || node.value.children.None? || DontRecurseIn(node.value.kind) then Ok([])
      else if fuel == 0 then Fail(RecursionError)
      else
        var cs := node.value.children.value;
        match DescendantsOfAll(ast, cs, fuel - 1)
        case Fail(f) => Fail(f)
        case Ok(ds) => Ok(cs + ds)
  }

  /** The descendants of each of `cs`, in order. */
  function DescendantsOfAll(ast: Ast, cs: seq<int>, fuel: nat): (r: Result<seq<int>, Fault>)
    decreases fuel, 1, |cs|
  {
    if |cs| == 0 then Ok([])
    else
      match Descendants(ast, cs[0], fuel)
      case Fail(f) => Fail(f)
      case Ok(d) =>
        match DescendantsOfAll(ast, cs[1..], fuel)
        case Fail(f) => Fail(f)
        case Ok(e) => Ok(d + e)
  }

  /** The walk never goes below a node of a kind in `DONT_RECURSE_IN`: every
      index it yields is a child of the start or of an index it yielded, and
      that parent is one it walks into. */
  lemma {:induction false} DescendantsAreWalkedChildren(ast: Ast, idx: int, fuel: nat)
    ensures var r := Descendants(ast, idx, fuel);
      r.Ok? ==> forall x :: x in r.value ==> exists p :: (p == idx || p in r.value) && x in Below(ast, p)
    decreases fuel, 0
  {
    var r := Descendants(ast, idx, fuel);
    if r.Ok? && r.value != [] {
      var cs := Lookup(ast, idx).value.value.children.value;
      var ds := DescendantsOfAll(ast, cs, fuel - 1).value;
      assert Below(ast, idx) == cs;
      DescendantsOfAllAreWalkedChildren(ast, cs, fuel - 1);
      forall x | x in r.value
        ensures exists p :: (p == idx || p in r.value) && x in Below(ast, p)
      {
        if x !in cs {
          var p :| (p in cs || p in ds) && x in Below(ast, p);
          assert p in r.value;
        }
      }
    }
  }

  lemma {:induction false} DescendantsOfAllAreWalkedChildren(ast: Ast, cs: seq<int>, fuel: nat)
    ensures var r := DescendantsOfAll(ast, cs, fuel);
      r.Ok? ==> forall x :: x in r.value ==> exists p :: (p in cs || p in r.value) && x in Below(ast, p)
    decreases fuel, 1, |cs|
  {
    var r := DescendantsOfAll(ast, cs, fuel);
    if r.Ok? && |cs| > 0 {
      var d := Descendants(ast, cs[0], fuel).value;
      var e := DescendantsOfAll(ast, cs[1..], fuel).value;
      DescendantsAreWalkedChildren(ast, cs[0], fuel);
      DescendantsOfAllAreWalkedChildren(ast, cs[1..], fuel);
      forall x | x in r.value
        ensures exists p :: (p in cs || p in r.value) && x in Below(ast, p)
      {
        if x in d {
          var p :| (p == cs[0] || p in d) && x in Below(ast, p);
          assert p in cs || p in r.value;
        } else {
          var p :| (p in cs[1..] || p in e) && x in Below(ast, p);
          assert p in cs || p in r.value;
        }
      }
    }
  }

  /** The walk misses nothing: the children of the start, and of every index it
      yields, are among the indices it yields, unless the walk stops there. */
  lemma {:induction false} DescendantsClosed(ast: Ast, idx: int, fuel: nat)
    ensures var r := Descendants(ast, idx, fuel);
      r.Ok? ==> forall p, c :: (p == idx || p in r.value) && c in Below(ast, p) ==> c in r.value
    decreases fuel, 0
  {
    var r := Descendants(ast, idx, fuel);
    if r.Ok? && r.value != [] {
      var cs := Lookup(ast, idx).value.value.children.value;
      assert Below(ast, idx) == cs;
      DescendantsOfAllClosed(ast, cs, fuel - 1);
    }
  }

  lemma {:induction false} DescendantsOfAllClosed(ast: Ast, cs: seq<int>, fuel: nat)
    ensures var r := DescendantsOfAll(ast, cs, fuel);
      r.Ok? ==> forall p, c :: (p in cs || p in r.value) && c in Below(ast, p) ==> c in r.value
    decreases fuel, 1, |cs|
  {
    var r := DescendantsOfAll(ast, cs, fuel);
    if r.Ok? && |cs| > 0 {
      DescendantsClosed(ast, cs[0], fuel);
      DescendantsOfAllClosed(ast, cs[1..], fuel);
      forall p, c | (p in cs || p in r.value) && c in Below(ast, p)
        ensures c in r.value
      {
        if p != cs[0] && p !in Descendants(ast, cs[0], fuel).value {
          assert p in cs[1..] || p in DescendantsOfAll(ast, cs[1..], fuel).value;
        }
      }
    }
  }

  // ---------------------------------------------------------------------------
  // `_assign_parenting`

  /** A node without its parent link. */
  function Unlinked(o: Option<Node>): Option<Node> {
    if o.None? then None else Some(o.value.(parent := None))
  }

  /** The same nodes, parent links aside. */
  predicate SameShape(a: Ast, b: Ast) {
    |a| == |b| && forall i :: 0 <= i < |a| ==> Unlinked(a[i]) == Unlinked(b[i])
  }

  /** Parent links already present are still there. */
  predicate LinksKept(a: Ast, b: Ast)
    requires |a| == |b|
  {
    forall i :: 0 <= i < |a| && a[i].Some? && a[i].value.parent.Some? ==> b[i].Some? && b[i].value.parent == a[i].value.parent
  }

  /** Every child of `cs` that is a node links to `p`. */
  predicate LinkedTo(ast: Ast, cs: seq<int>, p: int) {
    forall c :: c in cs && 0 <= Slot(c, |ast|) < |ast| && ast[Slot(c, |ast|)].Some? ==>
      ast[Slot(c, |ast|)].value.parent == Some(p)
  }

  /** The inner loop for the node at `p`: each child that is not `null` gets
      `parent = p`, after asserting that it has no other parent. */
  function SetParents(ast: Ast, cs: seq<int>, p: int): (r: Result<Ast, Fault>)
    ensures r.Ok? ==> |r.value| == |ast|
    decreases |cs|
  {
    if |cs| == 0 then Ok(ast)
    else
      match Lookup(ast, cs[0])
      case Fail(f) => Fail(f)
      case Ok(None) => SetParents(ast, cs[1..], p)
      case Ok(Some(m)) =>
        if m.parent.Some? && m.parent.value != p then Fail(AssertionError)
        else SetParents(ast[Slot(cs[0], |ast|) := Some(m.(parent := Some(p)))], cs[1..], p)
  }

  /** The outer loop, from the node at `idx` on. */
  function AssignFrom(ast: Ast, idx: nat): (r: Result<Ast, Fault>)
    ensures r.Ok? ==> |r.value| == |ast|
    decreases |ast| - idx
  {
    if idx >= |ast| then Ok(ast)
    else
      match ast[idx]
      case None => AssignFrom(ast, idx + 1)
      case Some(n) =>
        if n.children.None? then AssignFrom(ast, idx + 1)
        else
          match SetParents(ast, n.children.value, idx)
          case Fail(f) => Fail(f)
          case Ok(next) => AssignFrom(next, idx + 1)
  }

  /** `_assign_parenting`. */
  function AssignParenting(ast: Ast): (r: Result<Ast, Fault>) {
    AssignFrom(ast, 0)
  }

  lemma {:induction false} SetParentsSpec(ast: Ast, cs: seq<int>, p: int)
    ensures var r := SetParents(ast, cs, p);
      r.Ok? ==> SameShape(ast, r.value) && LinksKept(ast, r.value) && LinkedTo(r.value, cs, p)
    decreases |cs|
  {
    var r := SetParents(ast, cs, p);
    if r.Ok? && |cs| > 0 {
      var k := Slot(cs[0], |ast|);
      var rest := cs[1..];
      match ast[k]
      case None =>
        SetParentsSpec(ast, rest, p);
      case Some(m) =>
        var next := ast[k := Some(m.(parent := Some(p)))];
        SetParentsSpec(next, rest, p);
        assert SameShape(ast, next);
        assert LinksKept(ast, next);
        assert next[k].value.parent == Some(p);
    }
  }

  /** The children of every node from `idx` on that lists some link to it. */
  predicate ChildrenLinkedFrom(ast: Ast, r: Ast, idx: nat) {
    forall p :: idx <= p < |ast| && ast[p].Some? && ast[p].value.children.Some? ==>
      LinkedTo(r, ast[p].value.children.value, p)
  }

  /** Every node parented so far keeps its link and nothing else changes. */
  lemma {:induction false} AssignFromSpec(ast: Ast, idx: nat)
    ensures var r := AssignFrom(ast, idx);
      r.Ok? ==> SameShape(ast, r.value) && LinksKept(ast, r.value) && ChildrenLinkedFrom(ast, r.value, idx)
    decreases |ast| - idx
  {
    var r := AssignFrom(ast, idx);
    if r.Ok? && idx < |ast| {
      if ast[idx].None? || ast[idx].value.children.None? {
        assert r == AssignFrom(ast, idx + 1);
        AssignFromSpec(ast, idx + 1);
      } else {
        var cs := ast[idx].value.children.value;
        var next := SetParents(ast, cs, idx).value;
        assert r == AssignFrom(next, idx + 1);
        SetParentsSpec(ast, cs, idx);
        AssignFromSpec(next, idx + 1);
        AssignStep(ast, next, r.value, idx);
      }
    }
  }

  /** One node's children linked, then the later nodes': all are linked. */
  lemma AssignStep(ast: Ast, next: Ast, r: Ast, idx: nat)
    requires idx < |ast| && ast[idx].Some? && ast[idx].value.children.Some?
    requires SameShape(ast, next) && LinksKept(ast, next) && LinkedTo(next, ast[idx].value.children.value, idx)
    requires SameShape(next, r) && LinksKept(next, r) && ChildrenLinkedFrom(next, r, idx + 1)
    ensures SameShape(ast, r) && LinksKept(ast, r) && ChildrenLinkedFrom(ast, r, idx)
  {
    LinkedAfter(ast, next, r, ast[idx].value.children.value, idx);
    forall p | idx < p < |ast| && ast[p].Some? && ast[p].value.children.Some?
      ensures LinkedTo(r, ast[p].value.children.value, p)
    {
      assert Unlinked(ast[p]) == Unlinked(next[p]);
    }
  }

  /** Links made by one step survive the later ones, which keep the shape. */
  lemma LinkedAfter(a: Ast, b: Ast, c: Ast, cs: seq<int>, p: int)
    requires SameShape(a, b) && LinksKept(a, b) && SameShape(b, c) && LinksKept(b, c)
    requires LinkedTo(b, cs, p)
    ensures SameShape(a, c) && LinksKept(a, c) && LinkedTo(c, cs, p)
  {
    assert forall i :: 0 <= i < |a| ==> Unlinked(a[i]) == Unlinked(b[i]) == Unlinked(c[i]);
  }

  /** After `_assign_parenting`, each node keeps its kind, children and
      positions, and every child that is a node has as parent the node that
      lists it. */
  lemma AssignParentingLinksChildren(ast: Ast)
    ensures var r := AssignParenting(ast);
      r.Ok? ==>
        && SameShape(ast, r.value) && LinksKept(ast, r.value)
        && forall p, c ::
             (&& 0 <= p < |ast| && ast[p].Some? && ast[p].value.children.Some?
              && c in ast[p].value.children.value && 0 <= Slot(c, |ast|) < |ast| && ast[Slot(c, |ast|)].Some?)
             ==> r.value[Slot(c, |ast|)].value.parent == Some(p)
  {
    AssignFromSpec(ast, 0);
    var r := AssignParenting(ast);
    if r.Ok? {
      forall p, c | 0 <= p < |ast| && ast[p].Some? && ast[p].value.children.Some?
        && c in ast[p].value.children.value && 0 <= Slot(c, |ast|) < |ast| && ast[Slot(c, |ast|)].Some?
        ensures r.value[Slot(c, |ast|)].value.parent == Some(p)
      {
        assert ChildrenLinkedFrom(ast, r.value, 0);
        assert LinkedTo(r.value, ast[p].value.children.value, p);
        assert Unlinked(ast[Slot(c, |ast|)]) == Unlinked(r.value[Slot(c, |ast|)]);
      }
    }
  }

  /** Two nodes that list the same child make `_assign_parenting` fail. */
  lemma SharedChildExample()
    ensures var leaf := Node("ident", None, None, None, None);
      var ast := [Some(Node(";", Some([2]), None, None, None)), Some(Node(";", Some([2]), None, None, None)), Some(leaf)];
      AssignParenting(ast) == Fail(AssertionError)
  {
    var leaf := Node("ident", None, None, None, None);
    var ast := [Some(Node(";", Some([2]), None, None, None)), Some(Node(";", Some([2]), None, None, None)), Some(leaf)];
    var once := ast[2 := Some(leaf.(parent := Some(0)))];
    assert SetParents(ast, [2], 0) == Ok(once);
    assert AssignFrom(ast, 0) == AssignFrom(once, 1);
  }

  // ---------------------------------------------------------------------------
  // `_by_in_parents`

  /** The `k`-th node up the parent links, the node itself being the 0th. */
  function Ancestor(ast: Ast, node: Node, k: nat): Option<Node>
    decreases k
  {
    if k == 0 then Some(node)
    else if node.parent.None? then None
    else
      match Lookup(ast, node.parent.value)
      case Ok(Some(pn)) => Ancestor(ast, pn, k - 1)
      case _ => None
  }

  /** `_by_in_parents(node)`: the node is a `by` or its parent is (recursively).
      A `null` parent raises `TypeError`; `fuel` bounds the climb as in
      `Descendants`. */
  function ByInParents(ast: Ast, node: Node, fuel: nat): (r: Result<bool, Fault>)
    decreases fuel
  {
    if node.kind == "by" then Ok(true)
    else if node.parent.None? then Ok(false)
    else if fuel == 0 then Fail(RecursionError)
    else
      match Lookup(ast, node.parent.value)
      case Fail(f) => Fail(f)
      case Ok(None) => Fail(TypeError)
      case Ok(Some(pn)) => ByInParents(ast, pn, fuel - 1)
  }

  /** The `k`-th node up the parent links is a `by`. */
  predicate ByAt(ast: Ast, node: Node, k: nat) {
    var a := Ancestor(ast, node, k);
    a.Some? && a.value.kind == "by"
  }

  /** When it answers, `_by_in_parents` says whether some node up the parent
      links, the node included, is a `by`. */
  lemma {:induction false} ByInParentsFindsBy(ast: Ast, node: Node, fuel: nat)
    ensures var r := ByInParents(ast, node, fuel);
      r.Ok? ==> (r.value <==> exists k :: 0 <= k <= fuel && ByAt(ast, node, k))
    decreases fuel
  {
    var r := ByInParents(ast, node, fuel);
    if r.Ok? {
      if node.kind == "by" {
        assert ByAt(ast, node, 0);
      } else if node.parent.None? {
        forall k | 0 <= k <= fuel
          ensures !ByAt(ast, node, k)
        {
          if k > 0 {
            assert Ancestor(ast, node, k).None?;
          }
        }
      } else {
        var pn := Lookup(ast, node.parent.value).value.value;
        ByInParentsFindsBy(ast, pn, fuel - 1);
        assert r == ByInParents(ast, pn, fuel - 1);
        forall k | 1 <= k <= fuel
          ensures ByAt(ast, node, k) == ByAt(ast, pn, k - 1)
        {
          assert Ancestor(ast, node, k) == Ancestor(ast, pn, k - 1);
        }
        if r.value {
          var k :| 0 <= k <= fuel - 1 && ByAt(ast, pn, k);
          assert ByAt(ast, node, k + 1);
        } else {
          forall k | 0 <= k <= fuel
            ensures !ByAt(ast, node, k)
          {
            if k > 0 {
              assert !ByAt(ast, pn, k - 1);
            }
          }
        }
      }
    }
  }
}

=== FILE: lean_messages.dfy ===
/** Attaching the Lean server's messages to the fragments of a document.
    `_collect_message_span` turns each message into a span of offsets,
    `_add_messages` sorts the spans and walks them along the fragments. A text
    fragment that a message overlaps is cut into the text before it, a
    sentence carrying it and the text after it. */
module LeanMessages {
  import opened Common
  import opened Sorting
  import opened Fragments
  import opened LeanAst

  /** A message of an `all_messages` answer. `endPos` is present when both
      `end_pos_line` and `end_pos_col` are; `rest` stands for the fields the
      driver does not read (severity, caption, file name), which still count
      when two messages are compared. */
  datatype LeanMessage = LeanMessage(pos: Pos, endPos: Option<Pos>, text: string, rest: string)

  /** The document the fragments come from: its text and `pos2offset`. */
  datatype Doc = Doc(contents: string, offset: Pos -> int)

  /** A message with the offsets it covers. */
  datatype MsgSpan = MsgSpan(beg: int, end: int, msg: LeanMessage)

  // ---------------------------------------------------------------------------
  // `_collect_message_span`

  /** The first index from `i` on that holds no whitespace, or the end. */
  function SkipSpace(s: string, i: nat): (j: nat)
    requires i <= |s|
    ensures i <= j <= |s|
    decreases |s| - i
  {
    if i == |s| || !IsSpace(s[i]) then i else SkipSpace(s, i + 1)
  }

  /** The first index from `i` on that holds whitespace, or the end. */
  function SkipWord(s: string, i: nat): (j: nat)
    requires i <= |s|
    ensures i <= j <= |s|
    decreases |s| - i
  {
    if i == |s| || IsSpace(s[i]) then i else SkipWord(s, i + 1)
  }

  lemma {:induction false} SkipSpaceSpec(s: string, i: nat)
    requires i <= |s|
    ensures var j := SkipSpace(s, i);
      (forall k :: i <= k < j ==> IsSpace(s[k])) && (j == |s| || !IsSpace(s[j]))
    decreases |s| - i
  {
    if i < |s| && IsSpace(s[i]) {
      SkipSpaceSpec(s, i + 1);
    }
  }

  lemma {:induction false} SkipWordSpec(s: string, i: nat)
    requires i <= |s|
    ensures var j := SkipWord(s, i);
      (forall k :: i <= k < j ==> !IsSpace(s[k])) && (j == |s| || IsSpace(s[j]))
    decreases |s| - i
  {
    if i < |s| && !IsSpace(s[i]) {
      SkipWordSpec(s, i + 1);
    }
  }

  /** `NON_WHITESPACE_RE.search(s, pos).end()`, or `None` without a match;
      `search` moves a start outside the string to its nearer end. */
  function CommandEnd(s: string, pos: int): (r: Option<int>) {
    var from := if pos < 0 then 0 else if pos > |s| then |s| else pos;
    var i := SkipSpace(s, from);
    if i == |s| then None else Some(SkipWord(s, i))
  }

  /** `s[i..e]` is a run of non-whitespace that begins after only whitespace
      from `from` on and cannot be extended to the right. */
  predicate WordFrom(s: string, from: int, i: int, e: int) {
    && 0 <= from <= i < e <= |s|
    && (forall k :: from <= k < i ==> IsSpace(s[k]))
    && (forall k :: i <= k < e ==> !IsSpace(s[k]))
    && (e == |s| || IsSpace(s[e]))
  }

  /** The match is the first run of non-whitespace at or after the start,
      taken whole; there is none when only whitespace follows the start. */
  lemma CommandEndSpec(s: string, pos: int)
    ensures var from := if pos < 0 then 0 else if pos > |s| then |s| else pos;
      var r := CommandEnd(s, pos);
      && (r.None? <==> forall k :: from <= k < |s| ==> IsSpace(s[k]))
      && (r.Some? ==> exists i :: WordFrom(s, from, i, r.value))
  {
    var from := if pos < 0 then 0 else if pos > |s| then |s| else pos;
    var i := SkipSpace(s, from);
    SkipSpaceSpec(s, from);
    if i < |s| {
      SkipWordSpec(s, i);
      assert WordFrom(s, from, i, SkipWord(s, i));
    }
  }

  /** `_collect_message_span`: the message's span from its two positions, or
      from its start to the end of the word found there; `None` when only
      whitespace follows. `_pos` asserts each column is not negative. */
  function MessageSpan(m: LeanMessage, doc: Doc): (r: Result<Option<MsgSpan>, Fault>) {
    if m.endPos.Some? then
      if m.pos.col < 0 || m.endPos.value.col < 0 then Fail(AssertionError)
      else Ok(Some(MsgSpan(doc.offset(m.pos), doc.offset(m.endPos.value), m)))
    else if m.pos.col < 0 then Fail(AssertionError)
    else
      var loc := doc.offset(m.pos);
      match CommandEnd(doc.contents, loc)
      case None => Ok(None)
      case Some(e) => Ok(Some(MsgSpan(loc, e, m)))
  }

  /** A message without an end runs from its start over the word there. */
  lemma MessageSpanOfWord(m: LeanMessage, doc: Doc)
    requires m.endPos.None? && m.pos.col >= 0
    requires 0 <= doc.offset(m.pos) < |doc.contents| && !IsSpace(doc.contents[doc.offset(m.pos)])
    ensures var r := MessageSpan(m, doc);
      && r.Ok? && r.value.Some? && r.value.value.beg == doc.offset(m.pos)
      && r.value.value.beg < r.value.value.end <= |doc.contents|
      && (forall k :: r.value.value.beg <= k < r.value.value.end ==> !IsSpace(doc.contents[k]))
      && (r.value.value.end == |doc.contents| || IsSpace(doc.contents[r.value.value.end]))
  {
    var loc := doc.offset(m.pos);
    assert SkipSpace(doc.contents, loc) == loc;
    SkipWordSpec(doc.contents, loc);
  }

  /** `filter(None, map(_collect_message_span, messages))`. */
  function MessageSpans(ms: seq<LeanMessage>, doc: Doc): (r: Result<seq<MsgSpan>, Fault>)
    ensures r.Ok? ==> |r.value| <= |ms|
  {
    if |ms| == 0 then Ok([])
    else
      match MessageSpan(ms[0], doc)
      case Fail(f) => Fail(f)
      case Ok(first) =>
        match MessageSpans(ms[1..], doc)
        case Fail(f) => Fail(f)
        case Ok(rest) => Ok((if first.Some? then [first.value] else []) + rest)
  }

  // ---------------------------------------------------------------------------
  // Sorting the spans

  /** A span's place: its beginning, then its end. */
  function SpanKey(m: MsgSpan): seq<int> {
    [m.beg, m.end]
  }

  /** Two different messages on the same span. */
  predicate SpanTie(ms: seq<MsgSpan>) {
    exists i, j :: 0 <= i < |ms| && 0 <= j < |ms| && SpanKey(ms[i]) == SpanKey(ms[j]) && ms[i].msg != ms[j].msg
  }

  /** `sorted` of the `(beg, end, msg)` tuples, as written. Two tuples with the
      same `beg` and `end` are ordered by their messages, dictionaries, which
      Python 3 cannot order: `TypeError`. A comparison sort compares each
      pair of neighbours in its result, and among the tuples of one span some
      neighbours differ as soon as two of them do, so the sort raises exactly
      when two different messages share a span. Otherwise tuples with equal
      spans are equal and the sorted list is `SortBy`'s. */
  function SortMessagesAsWritten(ms: seq<MsgSpan>): (r: Result<seq<MsgSpan>, Fault>) {
    if SpanTie(ms) then Fail(TypeError) else Ok(SortBy(ms, SpanKey))
  }

  /** Two messages Lean reports at one place, an error and the warning after
      it, make the sort raise. */
  lemma SortMessagesAsWrittenTie()
    ensures var a := MsgSpan(4, 9, LeanMessage(Pos(1, 4), None, "type mismatch", "error"));
      var b := MsgSpan(4, 9, LeanMessage(Pos(1, 4), None, "unused variable", "warning"));
      SortMessagesAsWritten([a, b]) == Fail(TypeError)
  {
    var a := MsgSpan(4, 9, LeanMessage(Pos(1, 4), None, "type mismatch", "error"));
    var b := MsgSpan(4, 9, LeanMessage(Pos(1, 4), None, "unused variable", "warning"));
    assert [a, b][0].msg != [a, b][1].msg;
  }

  /** Without such a tie, the sort as written returns the sorted list. */
  lemma SortMessagesAsWrittenWithoutTie(ms: seq<MsgSpan>, t: seq<MsgSpan>)
    requires !SpanTie(ms)
    ensures SortMessagesAsWritten(ms) == Ok(SortMessages(ms))
    ensures SortedBy(t, SpanKey) && multiset(t) == multiset(ms) ==> t == SortMessages(ms)
  {
    if SortedBy(t, SpanKey) && multiset(t) == multiset(ms) {
      forall i, j | 0 <= i < |ms| && 0 <= j < |ms| && SpanKey(ms[i]) == SpanKey(ms[j])
        ensures ms[i] == ms[j]
      {
        assert SpanKey(ms[i])[0] == SpanKey(ms[j])[0] && SpanKey(ms[i])[1] == SpanKey(ms[j])[1];
      }
      SortByIsTheSortedPermutation(ms, t, SpanKey);
    }
  }

  /** The sort `_add_messages` needs: by span only, keeping the order in which
      the server sent messages that share a span. */
  function SortMessages(ms: seq<MsgSpan>): (r: seq<MsgSpan>) {
    SortBy(ms, SpanKey)
  }

  /** The spans in order, each message kept once, and messages on one span in
      the order they came. */
  lemma SortMessagesSpec(ms: seq<MsgSpan>, k: seq<int>)
    ensures SortedBy(SortMessages(ms), SpanKey)
    ensures multiset(SortMessages(ms)) == multiset(ms)
    ensures WithKey(SortMessages(ms), SpanKey, k) == WithKey(ms, SpanKey, k)
  {
    SortBySorted(ms, SpanKey);
    SortByStable(ms, SpanKey, k);
  }

  // ---------------------------------------------------------------------------
  // `_add_messages`

  /** A fragment with its offsets in the document (`Positioned`). */
  datatype Segment = Segment(beg: int, end: int, fr: Fragment<string>)

  function Frs(segs: seq<Segment>): (frs: seq<Fragment<string>>)
    ensures |frs| == |segs|
  {
    seq(|segs|, i requires 0 <= i < |segs| => segs[i].fr)
  }

  /** The message a span attaches. */
  function Attached(m: MsgSpan): Message {
    Message(m.msg.text)
  }

  /** The end of the part of `cur` a message covers. */
  function CutEnd(cur: Segment, m: MsgSpan): int {
    Min(m.end, cur.end)
  }

  /** The text of `cur` from the message's start on. */
  function FromStart(cur: Segment, m: MsgSpan): string {
    var c := cur.fr.contents;
    if cur.beg < m.beg then Slice(c, m.beg - cur.beg, |c|) else c
  }

  /** The text before the message, as a fragment when there is any. */
  function Before(cur: Segment, m: MsgSpan): seq<Fragment<string>> {
    if cur.beg < m.beg then [Text(Slice(cur.fr.contents, 0, m.beg - cur.beg))] else []
  }

  /** The covered text, as a sentence carrying the message. */
  function Middle(cur: Segment, m: MsgSpan): Segment {
    var c1 := FromStart(cur, m);
    var end := CutEnd(cur, m);
    Segment(m.beg, end, Sentence(if end < cur.end then Slice(c1, 0, end - m.beg) else c1, [Attached(m)], []))
  }

  /** The text after the message, when there is any, to be put back at the
      head of the queue. */
  function After(cur: Segment, m: MsgSpan): seq<Segment> {
    var c1 := FromStart(cur, m);
    var end := CutEnd(cur, m);
    if end < cur.end then [Segment(end, cur.end, Text(Slice(c1, end - m.beg, |c1|)))] else []
  }

  /** The loop of `_add_messages`, with `cur` the current fragment and `segs`
      the queue after it. The first message must start inside or after the
      current fragment. If it starts inside, a text fragment is cut around
      it and its middle becomes a sentence; the message goes to that
      sentence, or to the current sentence, which keeps all its text.
      Otherwise the current fragment is done; if no fragment is left, popping
      the queue raises `IndexError`. */
  function Merge(cur: Segment, segs: seq<Segment>, ms: seq<MsgSpan>): (r: Result<seq<Fragment<string>>, Fault>)
    decreases |ms|, |segs|
  {
    if |ms| == 0 then Ok([cur.fr] + Frs(segs))
    else
      var m := ms[0];
      if !(cur.beg <= m.beg <= m.end) then Fail(AssertionError)
      else if m.beg < cur.end then
        if cur.fr.Text? then
          match Merge(Middle(cur, m), After(cur, m) + segs, ms[1..])
          case Fail(f) => Fail(f)
          case Ok(rest) => Ok(Before(cur, m) + rest)
        else
          Merge(cur.(fr := cur.fr.(messages := cur.fr.messages + [Attached(m)])), segs, ms[1..])
      else if |segs| == 0 then Fail(IndexError)
      else
        match Merge(segs[0], segs[1..], ms)
        case Fail(f) => Fail(f)
        case Ok(rest) => Ok([cur.fr] + rest)
  }

  /** `_add_messages`: the spans of the messages, sorted by span, merged into
      the fragments; no fragments, no output. */
  function AddMessages(segs: seq<Segment>, msgs: seq<LeanMessage>, doc: Doc): (r: Result<seq<Fragment<string>>, Fault>) {
    match MessageSpans(msgs, doc)
    case Fail(f) => Fail(f)
    case Ok(spans) =>
      if |segs| == 0 then Ok([]) else Merge(segs[0], segs[1..], SortMessages(spans))
  }

  /** `_add_messages` as written: the sort of the tuples comes first, so two
      different messages on one span raise `TypeError`, fragments or not. */
  function AddMessagesAsWritten(segs: seq<Segment>, msgs: seq<LeanMessage>, doc: Doc): (r: Result<seq<Fragment<string>>, Fault>) {
    match MessageSpans(msgs, doc)
    case Fail(f) => Fail(f)
    case Ok(spans) =>
      match SortMessagesAsWritten(spans)
      case Fail(f) => Fail(f)
      case Ok(sorted) => if |segs| == 0 then Ok([]) else Merge(segs[0], segs[1..], sorted)
  }

  /** The code as written raises `TypeError` exactly when two different
      messages share a span; in every other case it agrees with
      `AddMessages`, which the rest of the model uses. */
  lemma AddMessagesAsWrittenAgrees(segs: seq<Segment>, msgs: seq<LeanMessage>, doc: Doc)
    ensures var spans := MessageSpans(msgs, doc);
      spans.Ok? && SpanTie(spans.value) ==> AddMessagesAsWritten(segs, msgs, doc) == Fail(TypeError)
    ensures var spans := MessageSpans(msgs, doc);
      !(spans.Ok? && SpanTie(spans.value)) ==> AddMessagesAsWritten(segs, msgs, doc) == AddMessages(segs, msgs, doc)
  {
  }

  /** An error and a warning Lean reports on the same span: as written, the
      sort raises before anything is merged; with the corrected sort, the
      document without fragments gets no output. */
  lemma AddMessagesAsWrittenTieExample()
    ensures var doc := Doc("have h : p := q", (p: Pos) => p.col);
      var e := LeanMessage(Pos(1, 4), Some(Pos(1, 9)), "type mismatch", "error");
      var w := LeanMessage(Pos(1, 4), Some(Pos(1, 9)), "unused variable", "warning");
      && AddMessagesAsWritten([], [e, w], doc) == Fail(TypeError)
      && AddMessages([], [e, w], doc) == Ok([])
  {
    var doc := Doc("have h : p := q", (p: Pos) => p.col);
    var e := LeanMessage(Pos(1, 4), Some(Pos(1, 9)), "type mismatch", "error");
    var w := LeanMessage(Pos(1, 4), Some(Pos(1, 9)), "unused variable", "warning");
    var spans := [MsgSpan(4, 9, e), MsgSpan(4, 9, w)];
    assert doc.offset(Pos(1, 4)) == 4 && doc.offset(Pos(1, 9)) == 9;
    assert MessageSpan(e, doc) == Ok(Some(spans[0]));
    assert MessageSpan(w, doc) == Ok(Some(spans[1]));
    assert MessageSpans([w], doc) == Ok([spans[1]]) by {
      assert [w][1..] == [];
      assert [spans[1]] + [] == [spans[1]];
    }
    assert MessageSpans([e, w], doc) == Ok(spans) by {
      assert [e, w][0] == e && [e, w][1..] == [w];
      assert [spans[0]] + [spans[1]] == spans;
    }
    assert SpanKey(spans[0]) == SpanKey(spans[1]) && spans[0].msg != spans[1].msg;
  }

  /** A segment's offsets are as far apart as its text is long (what
      `Document.with_boundaries` gives). */
  predicate Fits(s: Segment) {
    s.end - s.beg == |s.fr.contents|
  }

  predicate AllFit(segs: seq<Segment>) {
    forall i :: 0 <= i < |segs| ==> Fits(segs[i])
  }

  /** No fragment of the queue carries a message yet. */
  predicate Bare(segs: seq<Segment>) {
    forall i :: 0 <= i < |segs| ==> segs[i].fr.Text? || segs[i].fr.messages == []
  }

  lemma FrsAppend(a: seq<Segment>, b: seq<Segment>)
    ensures Frs(a + b) == Frs(a) + Frs(b)
  {
  }

  lemma FrsJoinedCons(segs: seq<Segment>)
    requires |segs| > 0
    ensures Joined(Frs(segs)) == segs[0].fr.contents + Joined(Frs(segs[1..]))
  {
    assert [segs[0]] + segs[1..] == segs;
    FrsAppend([segs[0]], segs[1..]);
    assert Frs([segs[0]]) == [segs[0].fr];
    JoinedAppend([segs[0].fr], Frs(segs[1..]));
    OneJoined(segs[0].fr);
  }

  lemma OneJoined(f: Fragment<string>)
    ensures Joined([f]) == f.contents
  {
    assert [f][..0] == [];
  }

  lemma OneMessages(f: Fragment<string>)
    ensures AllMessages([f]) == if f.Sentence? then f.messages else []
  {
    assert [f][..0] == [];
  }

  /** The pieces of a text fragment cut around a message, as slices. */
  lemma CutSlices(cur: Segment, m: MsgSpan)
    requires Fits(cur) && cur.beg <= m.beg <= m.end && m.beg < cur.end
    ensures var c := cur.fr.contents;
      var k1 := m.beg - cur.beg;
      var k := CutEnd(cur, m) - m.beg;
      && 0 <= k1 < |c| && 0 <= k <= |c| - k1
      && FromStart(cur, m) == c[k1..]
      && Middle(cur, m).fr.contents == c[k1..][..k]
      && (CutEnd(cur, m) < cur.end ==> After(cur, m) == [Segment(CutEnd(cur, m), cur.end, Text(c[k1..][k..]))])
      && (CutEnd(cur, m) == cur.end ==> After(cur, m) == [] && k == |c| - k1)
  {
    var c1 := FromStart(cur, m);
    var k := CutEnd(cur, m) - m.beg;
    assert c1 == cur.fr.contents[m.beg - cur.beg..];
    assert Slice(c1, k, |c1|) == c1[k..];
  }

  lemma BeforeJoined(cur: Segment, m: MsgSpan)
    requires Fits(cur) && cur.beg <= m.beg < cur.end
    ensures Joined(Before(cur, m)) == cur.fr.contents[..m.beg - cur.beg]
  {
    if cur.beg < m.beg {
      OneJoined(Before(cur, m)[0]);
    }
  }

  lemma AfterJoined(cur: Segment, m: MsgSpan)
    requires Fits(cur) && cur.beg <= m.beg <= m.end && m.beg < cur.end
    ensures AllFit(After(cur, m))
    ensures Joined(Frs(After(cur, m))) == cur.fr.contents[m.beg - cur.beg..][CutEnd(cur, m) - m.beg..]
  {
    var c1 := cur.fr.contents[m.beg - cur.beg..];
    var k := CutEnd(cur, m) - m.beg;
    CutSlices(cur, m);
    if CutEnd(cur, m) < cur.end {
      assert Frs(After(cur, m)) == [Text(c1[k..])];
      OneJoined(Text(c1[k..]));
    } else {
      assert Frs(After(cur, m)) == [];
    }
  }

  /** Slicing a slice. */
  lemma NestedSlices<T>(c: seq<T>, k1: int, k: int)
    requires 0 <= k1 <= |c| && 0 <= k <= |c| - k1
    ensures c[k1..][..k] == c[k1..k1 + k] && c[k1..][k..] == c[k1 + k..]
    ensures c[..k1] + (c[k1..][..k] + c[k1..][k..]) == c
  {
    assert c[k1..][..k] + c[k1..][k..] == c[k1..];
    assert c[..k1] + c[k1..] == c;
  }

  /** Cutting a fitting text fragment around a message loses no text, and
      the pieces fit their offsets. */
  lemma CutPieces(cur: Segment, m: MsgSpan)
    requires Fits(cur) && cur.fr.Text? && cur.beg <= m.beg <= m.end && m.beg < cur.end
    ensures Fits(Middle(cur, m)) && AllFit(After(cur, m))
    ensures Joined(Before(cur, m)) + Middle(cur, m).fr.contents + Joined(Frs(After(cur, m))) == cur.fr.contents
  {
    var c := cur.fr.contents;
    var k1 := m.beg - cur.beg;
    var k := CutEnd(cur, m) - m.beg;
    CutSlices(cur, m);
    BeforeJoined(cur, m);
    AfterJoined(cur, m);
    NestedSlices(c, k1, k);
    AppendAssoc(Joined(Before(cur, m)), Middle(cur, m).fr.contents, Joined(Frs(After(cur, m))));
  }

  /** Merging loses and adds no text: the fragments put back together are
      the current fragment followed by the queue. */
  lemma {:induction false} MergeJoined(cur: Segment, segs: seq<Segment>, ms: seq<MsgSpan>)
    requires Fits(cur) && AllFit(segs)
    ensures var r := Merge(cur, segs, ms);
      r.Ok? ==> Joined(r.value) == cur.fr.contents + Joined(Frs(segs))
    decreases |ms|, |segs|, 1
  {
    var r := Merge(cur, segs, ms);
    if r.Ok? {
      if |ms| == 0 {
        JoinedAppend([cur.fr], Frs(segs));
        OneJoined(cur.fr);
      } else if ms[0].beg < cur.end {
        if cur.fr.Text? {
          MergeCutJoined(cur, segs, ms);
        } else {
          MergeJoined(cur.(fr := cur.fr.(messages := cur.fr.messages + [Attached(ms[0])])), segs, ms[1..]);
        }
      } else {
        MergeNextJoined(cur, segs, ms);
      }
    }
  }

  /** `MergeJoined` when the current fragment is done. */
  lemma {:induction false} MergeNextJoined(cur: Segment, segs: seq<Segment>, ms: seq<MsgSpan>)
    requires Fits(cur) && AllFit(segs) && |segs| > 0
    requires Merge(cur, segs, ms).Ok? && Merge(cur, segs, ms) == (
      match Merge(segs[0], segs[1..], ms) case Fail(f) => Fail(f) case Ok(rest) => Ok([cur.fr] + rest))
    ensures Joined(Merge(cur, segs, ms).value) == cur.fr.contents + Joined(Frs(segs))
    decreases |ms|, |segs|, 0
  {
    MergeJoined(segs[0], segs[1..], ms);
    var rest := Merge(segs[0], segs[1..], ms).value;
    JoinedAppend([cur.fr], rest);
    OneJoined(cur.fr);
    FrsJoinedCons(segs);
    assert Joined(rest) == Joined(Frs(segs));
    assert Joined(Merge(cur, segs, ms).value) == cur.fr.contents + Joined(rest);
  }

  /** `MergeJoined` for a text fragment that the first message cuts. */
  lemma {:induction false} MergeCutJoined(cur: Segment, segs: seq<Segment>, ms: seq<MsgSpan>)
    requires Fits(cur) && AllFit(segs) && |ms| > 0 && cur.fr.Text?
    requires cur.beg <= ms[0].beg <= ms[0].end && ms[0].beg < cur.end
    ensures var r := Merge(cur, segs, ms);
      r.Ok? ==> Joined(r.value) == cur.fr.contents + Joined(Frs(segs))
    decreases |ms|, |segs|, 0
  {
    var m := ms[0];
    var next := Middle(cur, m);
    var post := After(cur, m);
    CutPieces(cur, m);
    assert AllFit(post + segs);
    var r := Merge(next, post + segs, ms[1..]);
    if r.Ok? {
      var out := Merge(cur, segs, ms).value;
      assert out == Before(cur, m) + r.value;
      MergeJoined(next, post + segs, ms[1..]);
      JoinedAppend(Before(cur, m), r.value);
      FrsAppend(post, segs);
      JoinedAppend(Frs(post), Frs(segs));
      var pre := Joined(Before(cur, m));
      var tail := Joined(Frs(post));
      assert Joined(out) == pre + (next.fr.contents + (tail + Joined(Frs(segs))));
      AppendAssoc(next.fr.contents, tail, Joined(Frs(segs)));
      AppendAssoc(pre, next.fr.contents + tail, Joined(Frs(segs)));
      AppendAssoc(pre, next.fr.contents, tail);
    }
  }

  function AttachedAll(ms: seq<MsgSpan>): (out: seq<Message>)
    ensures |out| == |ms|
  {
    seq(|ms|, i requires 0 <= i < |ms| => Attached(ms[i]))
  }

  lemma AttachedAllCons(ms: seq<MsgSpan>)
    requires |ms| > 0
    ensures AttachedAll(ms) == [Attached(ms[0])] + AttachedAll(ms[1..])
  {
  }

  /** Text fragments and sentences without messages carry none. */
  lemma {:induction false} BareHasNone(frs: seq<Fragment<string>>)
    requires forall i :: 0 <= i < |frs| ==> frs[i].Text? || frs[i].messages == []
    ensures AllMessages(frs) == []
    decreases |frs|
  {
    if |frs| > 0 {
      BareHasNone(frs[..|frs| - 1]);
    }
  }

  /** Every message is attached once, in the order of the sorted spans: with
      a queue that carries none yet, the messages of the fragments are those
      of the current fragment, then one per span. */
  lemma {:induction false} MergeAttachesEach(cur: Segment, segs: seq<Segment>, ms: seq<MsgSpan>)
    requires Bare(segs)
    ensures var r := Merge(cur, segs, ms);
      r.Ok? ==> AllMessages(r.value) == AllMessages([cur.fr]) + AttachedAll(ms)
    decreases |ms|, |segs|, 1
  {
    var r := Merge(cur, segs, ms);
    if r.Ok? {
      if |ms| == 0 {
        AllMessagesAppend([cur.fr], Frs(segs));
        BareHasNone(Frs(segs));
      } else if ms[0].beg < cur.end {
        AttachedAllCons(ms);
        if cur.fr.Text? {
          MergeCutAttaches(cur, segs, ms);
        } else {
          MergeSentenceAttaches(cur, segs, ms);
        }
      } else {
        MergeNextAttaches(cur, segs, ms);
      }
    }
  }

  /** `MergeAttachesEach` when the current fragment is done. */
  lemma {:induction false} MergeNextAttaches(cur: Segment, segs: seq<Segment>, ms: seq<MsgSpan>)
    requires Bare(segs) && |segs| > 0
    requires Merge(cur, segs, ms).Ok? && Merge(cur, segs, ms) == (
      match Merge(segs[0], segs[1..], ms) case Fail(f) => Fail(f) case Ok(rest) => Ok([cur.fr] + rest))
    ensures AllMessages(Merge(cur, segs, ms).value) == AllMessages([cur.fr]) + AttachedAll(ms)
    decreases |ms|, |segs|, 0
  {
    MergeAttachesEach(segs[0], segs[1..], ms);
    AllMessagesAppend([cur.fr], Merge(segs[0], segs[1..], ms).value);
    OneMessages(segs[0].fr);
    assert segs[0].fr.Text? || segs[0].fr.messages == [];
  }

  /** `MergeAttachesEach` for a sentence that the first message falls on. */
  lemma {:induction false} MergeSentenceAttaches(cur: Segment, segs: seq<Segment>, ms: seq<MsgSpan>)
    requires Bare(segs) && |ms| > 0 && cur.fr.Sentence?
    requires cur.beg <= ms[0].beg <= ms[0].end && ms[0].beg < cur.end
    requires AttachedAll(ms) == [Attached(ms[0])] + AttachedAll(ms[1..])
    ensures var r := Merge(cur, segs, ms);
      r.Ok? ==> AllMessages(r.value) == AllMessages([cur.fr]) + AttachedAll(ms)
    decreases |ms|, |segs|, 0
  {
    var cur' := cur.(fr := cur.fr.(messages := cur.fr.messages + [Attached(ms[0])]));
    assert Merge(cur, segs, ms) == Merge(cur', segs, ms[1..]);
    MergeAttachesEach(cur', segs, ms[1..]);
    OneMessages(cur.fr);
    OneMessages(cur'.fr);
    AppendAssoc(cur.fr.messages, [Attached(ms[0])], AttachedAll(ms[1..]));
  }

  /** `MergeAttachesEach` for a text fragment that the first message cuts. */
  lemma {:induction false} MergeCutAttaches(cur: Segment, segs: seq<Segment>, ms: seq<MsgSpan>)
    requires Bare(segs) && |ms| > 0 && cur.fr.Text?
    requires cur.beg <= ms[0].beg <= ms[0].end && ms[0].beg < cur.end
    requires AttachedAll(ms) == [Attached(ms[0])] + AttachedAll(ms[1..])
    ensures var r := Merge(cur, segs, ms);
      r.Ok? ==> AllMessages(r.value) == AllMessages([cur.fr]) + AttachedAll(ms)
    decreases |ms|, |segs|, 0
  {
    var m := ms[0];
    var next := Middle(cur, m);
    var post := After(cur, m);
    assert Bare(post + segs);
    var r := Merge(next, post + segs, ms[1..]);
    if r.Ok? {
      MergeAttachesEach(next, post + segs, ms[1..]);
      AllMessagesAppend(Before(cur, m), r.value);
      BareHasNone(Before(cur, m));
      OneMessages(next.fr);
      OneMessages(cur.fr);
    }
  }

  /** The last message cutting a text fragment at the end of the queue. */
  lemma MergeLastCut(cur: Segment, m: MsgSpan)
    requires cur.fr.Text? && cur.beg <= m.beg <= m.end && m.beg < cur.end
    ensures Merge(cur, [], [m]) == Ok(Before(cur, m) + ([Middle(cur, m).fr] + Frs(After(cur, m))))
  {
    assert [m][1..] == [];
    assert After(cur, m) + [] == After(cur, m);
    assert Merge(Middle(cur, m), After(cur, m), []) == Ok([Middle(cur, m).fr] + Frs(After(cur, m)));
  }

  /** A text fragment that a message overlaps becomes the text before the
      message, a sentence carrying the message, and the text after it; an
      empty piece before or after is left out. */
  lemma MergeCutsText(b: int, c: string, m: MsgSpan)
    requires b <= m.beg < b + |c| && m.beg <= m.end
    ensures var e := b + |c|;
      var end := Min(m.end, e);
      Merge(Segment(b, e, Text(c)), [], [m])
        == Ok((if b < m.beg then [Text(c[..m.beg - b])] else [])
              + [Sentence(c[m.beg - b..end - b], [Message(m.msg.text)], [])]
              + (if end < e then [Text(c[end - b..])] else []))
  {
    var cur := Segment(b, b + |c|, Text(c));
    var end := Min(m.end, b + |c|);
    var k1 := m.beg - b;
    var k := end - m.beg;
    CutSlices(cur, m);
    NestedSlices(c, k1, k);
    MergeLastCut(cur, m);
    var mid := Middle(cur, m).fr;
    assert mid == Sentence(c[m.beg - b..end - b], [Message(m.msg.text)], []);
    var pre := if b < m.beg then [Text(c[..m.beg - b])] else [];
    var suf := if end < b + |c| then [Text(c[end - b..])] else [];
    assert Before(cur, m) == pre;
    assert Frs(After(cur, m)) == suf;
    AppendAssoc(pre, [mid], suf);
  }

  /** A message on a sentence is appended to it; the sentence keeps its text,
      even when the message reaches past its end. */
  lemma MergeKeepsSentence(b: int, e: int, s: Fragment<string>, m: MsgSpan)
    requires s.Sentence? && b <= m.beg < e && m.beg <= m.end
    ensures Merge(Segment(b, e, s), [], [m]) == Ok([s.(messages := s.messages + [Message(m.msg.text)])])
  {
    var s' := s.(messages := s.messages + [Message(m.msg.text)]);
    assert [m][1..] == [];
    var cur := Segment(b, e, s);
    assert cur.(fr := cur.fr.(messages := cur.fr.messages + [Attached(m)])) == Segment(b, e, s');
    assert Merge(Segment(b, e, s), [], [m]) == Merge(Segment(b, e, s'), [], []);
    assert Frs([]) == [];
    assert Merge(Segment(b, e, s'), [], []) == Ok([s'] + Frs([]));
    assert [s'] + Frs([]) == [s'];
    assert Merge(Segment(b, e, s), [], [m]) == Ok([s']);
  }

  /** The number of leading messages that start before offset `e`. */
  function StartingBefore(ms: seq<MsgSpan>, e: int): (k: nat)
    ensures k <= |ms|
    ensures forall i :: 0 <= i < k ==> ms[i].beg < e
    ensures k < |ms| ==> ms[k].beg >= e
  {
    if |ms| == 0 || ms[0].beg >= e then 0 else 1 + StartingBefore(ms[1..], e)
  }

  /** `cur` and the pieces `rest` queued after it are what is left of a
      segment from `b` to `e`: each lies inside it, and the last one ends at
      `e`. */
  predicate Within(cur: Segment, rest: seq<Segment>, b: int, e: int) {
    && b <= cur.beg && cur.end <= e
    && (forall i :: 0 <= i < |rest| ==> b <= rest[i].beg && rest[i].end <= e)
    && (if |rest| == 0 then cur.end == e else rest[|rest| - 1].end == e)
  }

  /** `out` is the merge of `cur` and `rest` with the first `k` messages,
      followed by the merge of the queue `segs` with the others; without a
      queue, there are no others. */
  predicate SplitsAt(cur: Segment, rest: seq<Segment>, segs: seq<Segment>, ms: seq<MsgSpan>, k: nat, out: seq<Fragment<string>>)
    requires k <= |ms|
  {
    && Merge(cur, rest, ms[..k]).Ok?
    && (|segs| == 0 ==> k == |ms| && out == Merge(cur, rest, ms[..k]).value)
    && (|segs| > 0 ==>
          && Merge(segs[0], segs[1..], ms[k..]).Ok?
          && out == Merge(cur, rest, ms[..k]).value + Merge(segs[0], segs[1..], ms[k..]).value)
  }

  /** The induction behind `MergeBySegment`, over what is left of the current
      segment (`cur` and the pieces `rest` cut from it) before the queue `segs`. */
  lemma {:induction false} MergeSplitsWithin(cur: Segment, rest: seq<Segment>, segs: seq<Segment>, ms: seq<MsgSpan>, b: int, e: int)
    requires Within(cur, rest, b, e)
    ensures Merge(cur, rest + segs, ms).Ok? ==>
      SplitsAt(cur, rest, segs, ms, StartingBefore(ms, e), Merge(cur, rest + segs, ms).value)
    ensures Merge(cur, rest + segs, ms).Ok? ==> forall i :: 0 <= i < StartingBefore(ms, e) ==> b <= ms[i].beg
    decreases |ms|, |rest| + |segs|
  {
    var r := Merge(cur, rest + segs, ms);
    var k := StartingBefore(ms, e);
    if r.Ok? {
      if |ms| == 0 {
        assert ms[..k] == [];
        FrsAppend(rest, segs);
        if |segs| > 0 {
          assert segs == [segs[0]] + segs[1..];
          FrsAppend([segs[0]], segs[1..]);
          AppendAssoc([cur.fr], Frs(rest), Frs(segs));
        }
      } else if ms[0].beg < cur.end {
        MergeSplitsInside(cur, rest, segs, ms, b, e);
      } else if |rest| > 0 {
        MergeSplitsNext(cur, rest, segs, ms, b, e);
      } else {
        assert rest + segs == segs && |segs| > 0;
        assert ms[..k] == [] && ms[k..] == ms;
        assert Merge(cur, [], []) == Ok([cur.fr] + Frs([]));
        assert r == (match Merge(segs[0], segs[1..], ms) case Fail(f) => Fail(f) case Ok(x) => Ok([cur.fr] + x));
      }
    }
  }

  /** `MergeSplitsWithin` when the first message starts inside `cur`. */
  lemma {:induction false} MergeSplitsInside(cur: Segment, rest: seq<Segment>, segs: seq<Segment>, ms: seq<MsgSpan>, b: int, e: int)
    requires Within(cur, rest, b, e) && |ms| > 0 && ms[0].beg < cur.end
    requires Merge(cur, rest + segs, ms).Ok?
    ensures SplitsAt(cur, rest, segs, ms, StartingBefore(ms, e), Merge(cur, rest + segs, ms).value)
    ensures forall i :: 0 <= i < StartingBefore(ms, e) ==> b <= ms[i].beg
    decreases |ms|, |rest| + |segs|, 1
  {
    var k := StartingBefore(ms, e);
    assert k == 1 + StartingBefore(ms[1..], e);
    assert ms[..k][1..] == ms[1..][..k - 1];
    assert ms[1..][k - 1..] == ms[k..];
    if cur.fr.Text? {
      MergeSplitsCut(cur, rest, segs, ms, b, e);
    } else {
      var next := cur.(fr := cur.fr.(messages := cur.fr.messages + [Attached(ms[0])]));
      MergeSplitsWithin(next, rest, segs, ms[1..], b, e);
      assert Merge(cur, rest, ms[..k]) == Merge(next, rest, ms[..k][1..]);
    }
  }

  /** `MergeSplitsInside` for a text fragment that the first message cuts. */
  lemma {:induction false} MergeSplitsCut(cur: Segment, rest: seq<Segment>, segs: seq<Segment>, ms: seq<MsgSpan>, b: int, e: int)
    requires Within(cur, rest, b, e) && |ms| > 0 && ms[0].beg < cur.end && cur.fr.Text?
    requires Merge(cur, rest + segs, ms).Ok?
    ensures SplitsAt(cur, rest, segs, ms, StartingBefore(ms, e), Merge(cur, rest + segs, ms).value)
    ensures forall i :: 0 <= i < StartingBefore(ms, e) ==> b <= ms[i].beg
    decreases |ms|, |rest| + |segs|, 0
  {
    var m := ms[0];
    StartingBeforeCons(ms, e);
    var next, post := Middle(cur, m), After(cur, m);
    MergeCutStep(cur, rest + segs, ms);
    assert post + (rest + segs) == (post + rest) + segs;
    CutWithin(cur, rest, m, b, e);
    MergeSplitsWithin(next, post + rest, segs, ms[1..], b, e);
    SplitsAtCut(cur, rest, segs, ms, StartingBefore(ms, e), Merge(next, (post + rest) + segs, ms[1..]).value);
  }

  /** A split of the merge after the first cut gives a split of the merge
      before it, with the text before the message in front. */
  lemma SplitsAtCut(cur: Segment, rest: seq<Segment>, segs: seq<Segment>, ms: seq<MsgSpan>, k: nat, out: seq<Fragment<string>>)
    requires |ms| > 0 && cur.fr.Text? && cur.beg <= ms[0].beg <= ms[0].end && ms[0].beg < cur.end
    requires 1 <= k <= |ms|
    requires SplitsAt(Middle(cur, ms[0]), After(cur, ms[0]) + rest, segs, ms[1..], k - 1, out)
    ensures SplitsAt(cur, rest, segs, ms, k, Before(cur, ms[0]) + out)
  {
    var m := ms[0];
    assert ms[..k][0] == m && ms[..k][1..] == ms[1..][..k - 1];
    assert ms[1..][k - 1..] == ms[k..];
    MergeCutStep(cur, rest, ms[..k]);
    var x := Merge(Middle(cur, m), After(cur, m) + rest, ms[1..][..k - 1]).value;
    if |segs| > 0 {
      AppendAssoc(Before(cur, m), x, Merge(segs[0], segs[1..], ms[k..]).value);
    }
  }

  /** One turn of the loop of `_add_messages` that cuts a text fragment. */
  lemma MergeCutStep(cur: Segment, segs: seq<Segment>, ms: seq<MsgSpan>)
    requires |ms| > 0 && cur.fr.Text? && ms[0].beg < cur.end
    ensures Merge(cur, segs, ms).Ok? ==> cur.beg <= ms[0].beg <= ms[0].end
    ensures cur.beg <= ms[0].beg <= ms[0].end ==>
      (Merge(cur, segs, ms).Ok? <==> Merge(Middle(cur, ms[0]), After(cur, ms[0]) + segs, ms[1..]).Ok?)
    ensures Merge(cur, segs, ms).Ok? ==>
      Merge(cur, segs, ms).value == Before(cur, ms[0]) + Merge(Middle(cur, ms[0]), After(cur, ms[0]) + segs, ms[1..]).value
  {
  }

  /** The pieces `_add_messages` puts back after cutting a text fragment stay
      within the bounds of the fragment they came from. */
  lemma CutWithin(cur: Segment, rest: seq<Segment>, m: MsgSpan, b: int, e: int)
    requires Within(cur, rest, b, e) && cur.beg <= m.beg <= m.end && m.beg < cur.end
    ensures Within(Middle(cur, m), After(cur, m) + rest, b, e)
  {
  }

  /** A first message that starts before `e` is counted, and the rest are
      counted among the others. */
  lemma StartingBeforeCons(ms: seq<MsgSpan>, e: int)
    requires |ms| > 0 && ms[0].beg < e
    ensures StartingBefore(ms, e) == 1 + StartingBefore(ms[1..], e)
    ensures ms[..StartingBefore(ms, e)][1..] == ms[1..][..StartingBefore(ms, e) - 1]
    ensures ms[1..][StartingBefore(ms, e) - 1..] == ms[StartingBefore(ms, e)..]
  {
  }

  /** `MergeSplitsWithin` when the first message starts past `cur` and a
      piece of the segment is left. */
  lemma {:induction false} MergeSplitsNext(cur: Segment, rest: seq<Segment>, segs: seq<Segment>, ms: seq<MsgSpan>, b: int, e: int)
    requires Within(cur, rest, b, e) && |ms| > 0 && ms[0].beg >= cur.end && |rest| > 0
    requires Merge(cur, rest + segs, ms).Ok?
    ensures SplitsAt(cur, rest, segs, ms, StartingBefore(ms, e), Merge(cur, rest + segs, ms).value)
    ensures forall i :: 0 <= i < StartingBefore(ms, e) ==> b <= ms[i].beg
    decreases |ms|, |rest| + |segs|, 0
  {
    var k := StartingBefore(ms, e);
    assert (rest + segs)[0] == rest[0] && (rest + segs)[1..] == rest[1..] + segs;
    assert Within(rest[0], rest[1..], b, e);
    MergeSplitsWithin(rest[0], rest[1..], segs, ms, b, e);
    var x := Merge(rest[0], rest[1..], ms[..k]).value;
    if k == 0 {
      assert ms[..k] == [];
      assert rest == [rest[0]] + rest[1..];
      FrsAppend([rest[0]], rest[1..]);
      assert Frs([rest[0]]) == [rest[0].fr];
      assert x == [rest[0].fr] + Frs(rest[1..]);
      AppendAssoc([cur.fr], [rest[0].fr], Frs(rest[1..]));
      assert Merge(cur, rest, ms[..k]) == Ok([cur.fr] + x);
    } else {
      assert ms[..k][0] == ms[0];
      assert Merge(cur, rest, ms[..k]) == Ok([cur.fr] + x);
    }
    if |segs| > 0 {
      AppendAssoc([cur.fr], x, Merge(segs[0], segs[1..], ms[k..]).value);
    }
  }

  /** Messages land on the fragments of the segment they start in. The
      fragments of a merge are those of the current segment merged alone with
      the leading messages that start before its end, all of which start
      inside it, followed by those of the queue merged with the other
      messages. Without a queue, every message starts inside the current
      segment. */
  lemma MergeBySegment(cur: Segment, segs: seq<Segment>, ms: seq<MsgSpan>)
    ensures Merge(cur, segs, ms).Ok? ==>
      forall i :: 0 <= i < StartingBefore(ms, cur.end) ==> cur.beg <= ms[i].beg < cur.end
    ensures Merge(cur, segs, ms).Ok? ==>
      SplitsAt(cur, [], segs, ms, StartingBefore(ms, cur.end), Merge(cur, segs, ms).value)
  {
    assert [] + segs == segs;
    MergeSplitsWithin(cur, [], segs, ms, cur.beg, cur.end);
  }

  /** Every message is well formed: it does not end before it starts. */
  predicate Ordered(ms: seq<MsgSpan>) {
    forall i :: 0 <= i < |ms| ==> ms[i].beg <= ms[i].end
  }

  /** Messages that start inside a sentence are all appended to it, in order,
      and the sentence keeps its text; a message that ends before it starts
      fails the assertion. */
  lemma {:induction false} MergeIntoSentence(cur: Segment, ms: seq<MsgSpan>)
    requires cur.fr.Sentence?
    requires forall i :: 0 <= i < |ms| ==> cur.beg <= ms[i].beg < cur.end
    ensures Merge(cur, [], ms)
      == if Ordered(ms) then Ok([cur.fr.(messages := cur.fr.messages + AttachedAll(ms))]) else Fail(AssertionError)
    decreases |ms|
  {
    if |ms| == 0 {
      assert AttachedAll(ms) == [];
      assert cur.fr.messages + AttachedAll(ms) == cur.fr.messages;
      assert cur.fr.(messages := cur.fr.messages) == cur.fr;
      var segs: seq<Segment> := [];
      assert Frs(segs) == [];
      assert Merge(cur, segs, ms) == Ok([cur.fr] + Frs(segs));
      assert [cur.fr] + Frs(segs) == [cur.fr.(messages := cur.fr.messages + AttachedAll(ms))];
      assert Ordered(ms);
    } else {
      var next := cur.(fr := cur.fr.(messages := cur.fr.messages + [Attached(ms[0])]));
      MergeIntoSentence(next, ms[1..]);
      AttachedAllCons(ms);
      AppendAssoc(cur.fr.messages, [Attached(ms[0])], AttachedAll(ms[1..]));
      assert Ordered(ms) <==> ms[0].beg <= ms[0].end && Ordered(ms[1..]);
    }
  }

  /** Where the messages land when the current fragment is a sentence: the
      leading messages that start before its end are appended to it, in
      order, and the others are merged into the fragments after it. */
  lemma MergeSentencePlacement(cur: Segment, segs: seq<Segment>, ms: seq<MsgSpan>)
    requires cur.fr.Sentence?
    ensures Merge(cur, segs, ms).Ok? && |segs| > 0 ==> Merge(segs[0], segs[1..], ms[StartingBefore(ms, cur.end)..]).Ok?
    ensures Merge(cur, segs, ms).Ok? ==>
      Merge(cur, segs, ms).value
        == [cur.fr.(messages := cur.fr.messages + AttachedAll(ms[..StartingBefore(ms, cur.end)]))]
           + (if |segs| == 0 then [] else Merge(segs[0], segs[1..], ms[StartingBefore(ms, cur.end)..]).value)
  {
    var k := StartingBefore(ms, cur.end);
    if Merge(cur, segs, ms).Ok? {
      MergeBySegment(cur, segs, ms);
      MergeIntoSentence(cur, ms[..k]);
      if |segs| == 0 {
        assert [cur.fr.(messages := cur.fr.messages + AttachedAll(ms[..k]))] + [] == [cur.fr.(messages := cur.fr.messages + AttachedAll(ms[..k]))];
      }
    }
  }

  /** `_add_messages` on the fragments of a document, which carry no messages
      yet: it returns the same text, and every message the server sent that
      has a span, once, in the order of the sorted spans. Without fragments
      there is nothing to attach messages to, and they are dropped. */
  lemma AddMessagesSpec(segs: seq<Segment>, msgs: seq<LeanMessage>, doc: Doc)
    requires AllFit(segs) && Bare(segs)
    ensures var r := AddMessages(segs, msgs, doc);
      r.Ok? ==>
        && MessageSpans(msgs, doc).Ok?
        && Joined(r.value) == Joined(Frs(segs))
        && AllMessages(r.value) == (if |segs| == 0 then [] else AttachedAll(SortMessages(MessageSpans(msgs, doc).value)))
  {
    var r := AddMessages(segs, msgs, doc);
    if r.Ok? && |segs| > 0 {
      var sorted := SortMessages(MessageSpans(msgs, doc).value);
      assert r == Merge(segs[0], segs[1..], sorted);
      MergeJoined(segs[0], segs[1..], sorted);
      MergeAttachesEach(segs[0], segs[1..], sorted);
      OneMessages(segs[0].fr);
      assert segs[0].fr.Text? || segs[0].fr.messages == [];
      assert AllMessages(r.value) == AttachedAll(sorted);
      FrsJoinedCons(segs);
    }
  }
}

=== FILE: lean_sentences.dfy ===
/** The sentences of a Lean 3 file. `_find_sentence_ranges` reads ranges off
    the AST: one per tactic, and for each `begin … end` or `{ … }` block one
    for the opening and one for the closing keyword, marked +1 and -1.
    `_collect_sentences_and_states` sorts them, keeps a running depth, drops
    the ranges that end no later than the last one kept, and pairs each kept
    range with the proof state at the start of the next. */
module LeanSentences {
  import opened Common
  import opened Sorting
  import opened LeanAst

  /** `(start, end, stack_mod)`. */
  datatype SRange = SRange(start: Pos, end: Pos, stackMod: int)

  // ---------------------------------------------------------------------------
  // `_find_sentence_ranges`

  /** The ranges of the node at `idx`: none for a `null` node, one without
      `start` or `end`, or one with a `by` up its parent links; otherwise one
      for a tactic and two for a tactic container. `_pos` asserts that each
      column is not negative. */
  function NodeRanges(ast: Ast, idx: int): (r: Result<seq<SRange>, Fault>) {
    match Lookup(ast, idx)
    case Fail(f) => Fail(f)
    case Ok(None) => Ok([])
    case Ok(Some(n)) =>
      if n.start.None? || n.end.None? then Ok([])
      else
        match ByInParents(ast, n, |ast|)
        case Fail(f) => Fail(f)
        case Ok(true) => Ok([])
        case Ok(false) =>
          var s, e := n.start.value, n.end.value;
          if s.col < 0 || e.col < 0 then Fail(AssertionError)
          else if TacticNode(n.kind) then Ok([SRange(s, e, 0)])
          else if TacticContainer(n.kind) then
            var closing := e.col - |Ender(n.kind)|;
            if closing < 0 then Fail(AssertionError)
            else Ok([SRange(s, Pos(s.line, s.col + |n.kind|), 1), SRange(Pos(e.line, closing), e, -1)])
          else Ok([])
  }

  /** The sum of the stack changes. */
  function ModSum(rs: seq<SRange>): int {
    if |rs| == 0 then 0 else rs[0].stackMod + ModSum(rs[1..])
  }

  lemma {:induction false} ModSumAppend(a: seq<SRange>, b: seq<SRange>)
    ensures ModSum(a + b) == ModSum(a) + ModSum(b)
    decreases |a|
  {
    if |a| == 0 {
      assert a + b == b;
    } else {
      assert (a + b)[1..] == a[1..] + b;
      ModSumAppend(a[1..], b);
    }
  }

  /** Both columns of every range are not negative. */
  predicate Placed(rs: seq<SRange>) {
    forall i :: 0 <= i < |rs| ==> rs[i].start.col >= 0 && rs[i].end.col >= 0
  }

  /** A node yields ranges only when it has both positions and no `by` up its
      parent links. A tactic yields its own range with stack change 0. A
      container yields its opening keyword, from its start and as wide as the
      keyword, with +1, then its closing keyword, up to its end and as wide as
      that keyword, with -1. */
  lemma NodeRangesSpec(ast: Ast, idx: int)
    ensures var r := NodeRanges(ast, idx);
      r.Ok? ==>
        && ModSum(r.value) == 0 && Placed(r.value)
        && (r.value != [] ==>
              && Lookup(ast, idx).Ok? && Lookup(ast, idx).value.Some?
              && var n := Lookup(ast, idx).value.value;
              && n.start.Some? && n.end.Some?
              && (forall k :: 0 <= k <= |ast| ==> !ByAt(ast, n, k))
              && (TacticNode(n.kind) ==> r.value == [SRange(n.start.value, n.end.value, 0)])
              && (!TacticNode(n.kind) ==>
                    && TacticContainer(n.kind) && |r.value| == 2
                    && r.value[0].start == n.start.value && r.value[0].stackMod == 1
                    && r.value[0].end == Pos(n.start.value.line, n.start.value.col + |n.kind|)
                    && r.value[1].end == n.end.value && r.value[1].stackMod == -1
                    && r.value[1].start == Pos(n.end.value.line, n.end.value.col - |Ender(n.kind)|)))
  {
    var r := NodeRanges(ast, idx);
    if r.Ok? && r.value != [] {
      var n := Lookup(ast, idx).value.value;
      ByInParentsFindsBy(ast, n, |ast|);
      if |r.value| == 2 {
        var tail := r.value[1..];
        assert tail[1..] == [] && tail[0] == r.value[1];
        assert ModSum(tail) == -1;
      } else {
        assert r.value[1..] == [];
      }
    }
  }

  /** The indices `_get_descendants` yields from every node in turn. */
  function AllDescendants(ast: Ast, n: nat): (r: Result<seq<int>, Fault>)
    decreases |ast| - n
  {
    if n >= |ast| then Ok([])
    else
      match Descendants(ast, n, |ast|)
      case Fail(f) => Fail(f)
      case Ok(d) =>
        match AllDescendants(ast, n + 1)
        case Fail(f) => Fail(f)
        case Ok(e) => Ok(d + e)
  }

  /** The ranges of the indices in `ids`, from index `k` up. */
  function RangesFrom(ast: Ast, ids: set<int>, k: int): (r: Result<seq<SRange>, Fault>)
    decreases |ast| - k
  {
    if k >= |ast| then Ok([])
    else if k !in ids then RangesFrom(ast, ids, k + 1)
    else
      match NodeRanges(ast, k)
      case Fail(f) => Fail(f)
      case Ok(a) =>
        match RangesFrom(ast, ids, k + 1)
        case Fail(f) => Fail(f)
        case Ok(b) => Ok(a + b)
  }

  /** `_find_sentence_ranges`: the ranges of every index some node has as a
      descendant. Python visits that set in its own order; every index in it
      names a slot of the array, so the model visits them in increasing order.
      The order changes which exception is raised when several nodes are
      faulty, and nothing else, since the ranges are sorted next. */
  function FindSentenceRanges(ast: Ast): (r: Result<seq<SRange>, Fault>) {
    match AllDescendants(ast, 0)
    case Fail(f) => Fail(f)
    case Ok(ids) => RangesFrom(ast, set x | x in ids, -|ast|)
  }

  lemma {:induction false} RangesFromSpec(ast: Ast, ids: set<int>, k: int)
    ensures var r := RangesFrom(ast, ids, k);
      r.Ok? ==> ModSum(r.value) == 0 && Placed(r.value)
    decreases |ast| - k
  {
    var r := RangesFrom(ast, ids, k);
    if r.Ok? && k < |ast| {
      RangesFromSpec(ast, ids, k + 1);
      if k in ids {
        var a := NodeRanges(ast, k).value;
        var b := RangesFrom(ast, ids, k + 1).value;
        NodeRangesSpec(ast, k);
        ModSumAppend(a, b);
        assert forall i :: 0 <= i < |a + b| ==> (a + b)[i] == if i < |a| then a[i] else b[i - |a|];
      }
    }
  }

  /** The ranges of a file have non-negative columns, and the blocks' opening
      and closing keywords pair up: the stack changes add up to 0. */
  lemma FindSentenceRangesBalanced(ast: Ast)
    ensures var r := FindSentenceRanges(ast);
      r.Ok? ==> ModSum(r.value) == 0 && Placed(r.value)
  {
    if AllDescendants(ast, 0).Ok? {
      RangesFromSpec(ast, set x | x in AllDescendants(ast, 0).value, -|ast|);
    }
  }

  // ---------------------------------------------------------------------------
  // Sorting the ranges

  /** The fields of `(start, end, stack_mod)` as Python compares them (the file
      path, the same for all, aside). */
  function RangeKey(r: SRange): seq<int> {
    [r.start.line, r.start.col, r.end.line, r.end.col, r.stackMod]
  }

  lemma RangeKeyDetermines(rs: seq<SRange>)
    ensures KeyDetermines(rs, RangeKey)
  {
    forall i, j | 0 <= i < |rs| && 0 <= j < |rs| && RangeKey(rs[i]) == RangeKey(rs[j])
      ensures rs[i] == rs[j]
    {
      var a, b := RangeKey(rs[i]), RangeKey(rs[j]);
      assert a[0] == b[0] && a[1] == b[1] && a[2] == b[2] && a[3] == b[3] && a[4] == b[4];
    }
  }

  /** `sorted(ranges)`. */
  function SortRanges(rs: seq<SRange>): (r: seq<SRange>) {
    SortBy(rs, RangeKey)
  }

  /** The ranges in order; and since equal keys mean equal ranges, no other
      order is sorted, so this is what Python's `sorted` returns. */
  lemma SortRangesSpec(rs: seq<SRange>, t: seq<SRange>)
    ensures SortedBy(SortRanges(rs), RangeKey) && multiset(SortRanges(rs)) == multiset(rs)
    ensures SortedBy(t, RangeKey) && multiset(t) == multiset(rs) ==> t == SortRanges(rs)
  {
    SortBySorted(rs, RangeKey);
    if SortedBy(t, RangeKey) && multiset(t) == multiset(rs) {
      RangeKeyDetermines(rs);
      SortByIsTheSortedPermutation(rs, t, RangeKey);
    }
  }

  // ---------------------------------------------------------------------------
  // `_collect_sentences_and_states`

  /** A sentence: its span as offsets into the document and the proof state
      after it, if any. */
  datatype Stated = Stated(beg: int, end: int, state: Option<string>)

  /** The loop of `_collect_sentences_and_states` over `rs`, from the depth
      `stack`, the end `prev` of the last range kept, that range `last` and
      whether it closed a depth-0 block. `offset` is `Document.pos2offset`
      and `stateAt` the `info` query, both given. */
  function Collect(rs: seq<SRange>, stack: int, prev: Pos, last: Option<SRange>, lastEnder: bool,
                   offset: Pos -> int, stateAt: Pos -> Option<string>): (r: Result<seq<Stated>, Fault>)
    decreases |rs|
  {
    if |rs| == 0 then
      Ok(if last.Some? then [Stated(offset(last.value.start), offset(last.value.end), None)] else [])
    else
      var r := rs[0];
      var depth := stack + r.stackMod;
      if depth < 0 then Fail(AssertionError)
      else if PosLe(r.end, prev) then Collect(rs[1..], depth, prev, last, lastEnder, offset, stateAt)
      else
        var ender := depth == 0 && r.stackMod == -1;
        var out := if last.None? then []
          else [Stated(offset(last.value.start), offset(last.value.end), if ender || lastEnder then None else stateAt(r.start))];
        match Collect(rs[1..], depth, r.end, Some(r), ender, offset, stateAt)
        case Fail(f) => Fail(f)
        case Ok(more) => Ok(out + more)
  }

  /** `_collect_sentences_and_states`. */
  function CollectSentencesAndStates(ast: Ast, offset: Pos -> int, stateAt: Pos -> Option<string>)
    : (r: Result<seq<Stated>, Fault>)
  {
    match FindSentenceRanges(ast)
    case Fail(f) => Fail(f)
    case Ok(rs) => Collect(SortRanges(rs), 0, Pos(0, 0), None, false, offset, stateAt)
  }

  /** A range kept, and whether it closes a block at depth 0. */
  datatype Kept = Kept(range: SRange, ender: bool)

  /** The ranges the loop keeps: each one that ends after every range kept
      before it (and after `prev`). */
  function Accepted(rs: seq<SRange>, stack: int, prev: Pos): (ks: seq<Kept>)
    decreases |rs|
  {
    if |rs| == 0 then []
    else
      var depth := stack + rs[0].stackMod;
      if PosLe(rs[0].end, prev) then Accepted(rs[1..], depth, prev)
      else [Kept(rs[0], depth == 0 && rs[0].stackMod == -1)] + Accepted(rs[1..], depth, rs[0].end)
  }

  /** The ends of the kept ranges strictly increase, from after `prev`. */
  lemma {:induction false} AcceptedEndsIncrease(rs: seq<SRange>, stack: int, prev: Pos)
    ensures var ks := Accepted(rs, stack, prev);
      && (forall i :: 0 <= i < |ks| ==> !PosLe(ks[i].range.end, prev))
      && (forall i :: 0 <= i < |ks| - 1 ==> !PosLe(ks[i + 1].range.end, ks[i].range.end))
    decreases |rs|
  {
    if |rs| > 0 {
      var depth := stack + rs[0].stackMod;
      if PosLe(rs[0].end, prev) {
        AcceptedEndsIncrease(rs[1..], depth, prev);
        assert Accepted(rs, stack, prev) == Accepted(rs[1..], depth, prev);
      } else {
        AcceptedEndsIncrease(rs[1..], depth, rs[0].end);
        var ks := Accepted(rs, stack, prev);
        assert forall i :: 1 <= i < |ks| ==> ks[i] == Accepted(rs[1..], depth, rs[0].end)[i - 1];
      }
    }
  }

  /** The kept ranges as sentences: each gets the state at the start of the
      next one, unless it is the last, or it or the next one closes a block
      at depth 0. */
  function Paired(ks: seq<Kept>, offset: Pos -> int, stateAt: Pos -> Option<string>): (out: seq<Stated>) {
    seq(|ks|, i requires 0 <= i < |ks| =>
      Stated(offset(ks[i].range.start), offset(ks[i].range.end),
             if i + 1 < |ks| && !ks[i].ender && !ks[i + 1].ender then stateAt(ks[i + 1].range.start) else None))
  }

  lemma PairedCons(k: Kept, ks: seq<Kept>, offset: Pos -> int, stateAt: Pos -> Option<string>)
    requires |ks| > 0
    ensures Paired([k] + ks, offset, stateAt)
      == [Stated(offset(k.range.start), offset(k.range.end),
                 if !k.ender && !ks[0].ender then stateAt(ks[0].range.start) else None)]
         + Paired(ks, offset, stateAt)
  {
    var a := Paired([k] + ks, offset, stateAt);
    var b := Paired(ks, offset, stateAt);
    assert forall i :: 1 <= i < |a| ==> a[i] == b[i - 1];
  }

  /** The loop yields exactly the kept ranges, in order, each paired with its
      state as `Paired` says; a range carried over from before comes first. */
  lemma {:induction false} CollectPairs(rs: seq<SRange>, stack: int, prev: Pos, last: Option<SRange>, lastEnder: bool,
                                        offset: Pos -> int, stateAt: Pos -> Option<string>)
    ensures var r := Collect(rs, stack, prev, last, lastEnder, offset, stateAt);
      r.Ok? ==> r.value == Paired((if last.Some? then [Kept(last.value, lastEnder)] else []) + Accepted(rs, stack, prev), offset, stateAt)
    decreases |rs|
  {
    var r := Collect(rs, stack, prev, last, lastEnder, offset, stateAt);
    var lead := if last.Some? then [Kept(last.value, lastEnder)] else [];
    if r.Ok? {
      if |rs| == 0 {
        assert lead + [] == lead;
      } else {
        var x := rs[0];
        var depth := stack + x.stackMod;
        if PosLe(x.end, prev) {
          CollectPairs(rs[1..], depth, prev, last, lastEnder, offset, stateAt);
        } else {
          var ender := depth == 0 && x.stackMod == -1;
          var tail := [Kept(x, ender)] + Accepted(rs[1..], depth, x.end);
          CollectPairs(rs[1..], depth, x.end, Some(x), ender, offset, stateAt);
          if last.Some? {
            PairedCons(lead[0], tail, offset, stateAt);
            assert lead + tail == [lead[0]] + tail;
          } else {
            assert lead + tail == tail;
          }
        }
      }
    }
  }

  /** The depth is never negative: the loop raises exactly when some prefix of
      the ranges closes more blocks than it opens. */
  lemma {:induction false} CollectFailsIffNegativeDepth(rs: seq<SRange>, stack: int, prev: Pos, last: Option<SRange>, lastEnder: bool,
                                                        offset: Pos -> int, stateAt: Pos -> Option<string>)
    ensures var r := Collect(rs, stack, prev, last, lastEnder, offset, stateAt);
      && (r.Ok? <==> forall k :: 0 < k <= |rs| ==> stack + ModSum(rs[..k]) >= 0)
      && (r.Fail? ==> r.error == AssertionError)
    decreases |rs|
  {
    if |rs| > 0 {
      var x := rs[0];
      var depth := stack + x.stackMod;
      assert ModSum(rs[..1]) == x.stackMod by {
        assert rs[..1][1..] == [];
      }
      forall k | 1 < k <= |rs|
        ensures ModSum(rs[..k]) == x.stackMod + ModSum(rs[1..][..k - 1])
      {
        assert rs[..k][1..] == rs[1..][..k - 1];
      }
      if depth >= 0 {
        var next := if PosLe(x.end, prev) then prev else x.end;
        var nextLast := if PosLe(x.end, prev) then last else Some(x);
        var nextEnder := if PosLe(x.end, prev) then lastEnder else depth == 0 && x.stackMod == -1;
        CollectFailsIffNegativeDepth(rs[1..], depth, next, nextLast, nextEnder, offset, stateAt);
        assert Collect(rs, stack, prev, last, lastEnder, offset, stateAt).Ok?
          == Collect(rs[1..], depth, next, nextLast, nextEnder, offset, stateAt).Ok?;
        if forall k :: 0 < k <= |rs[1..]| ==> depth + ModSum(rs[1..][..k]) >= 0 {
          forall k | 0 < k <= |rs|
            ensures stack + ModSum(rs[..k]) >= 0
          {
            if k > 1 {
              assert depth + ModSum(rs[1..][..k - 1]) >= 0;
            }
          }
        } else {
          var k :| 0 < k <= |rs[1..]| && depth + ModSum(rs[1..][..k]) < 0;
          assert stack + ModSum(rs[..k + 1]) < 0;
        }
      }
    }
  }

  /** `_collect_sentences_and_states` yields the ranges it keeps from the
      sorted ranges of the file, in order and with strictly increasing ends,
      each paired with its state; it fails only on a negative depth. */
  lemma CollectSentencesAndStatesSpec(ast: Ast, offset: Pos -> int, stateAt: Pos -> Option<string>)
    ensures var r := CollectSentencesAndStates(ast, offset, stateAt);
      r.Ok? ==>
        && FindSentenceRanges(ast).Ok?
        && var sorted := SortRanges(FindSentenceRanges(ast).value);
        && var ks := Accepted(sorted, 0, Pos(0, 0));
        && r.value == Paired(ks, offset, stateAt)
        && (forall k :: 0 < k <= |sorted| ==> ModSum(sorted[..k]) >= 0)
        && (forall i :: 0 <= i < |ks| - 1 ==> !PosLe(ks[i + 1].range.end, ks[i].range.end))
  {
    var r := CollectSentencesAndStates(ast, offset, stateAt);
    if r.Ok? {
      var sorted := SortRanges(FindSentenceRanges(ast).value);
      CollectPairs(sorted, 0, Pos(0, 0), None, false, offset, stateAt);
      CollectFailsIffNegativeDepth(sorted, 0, Pos(0, 0), None, false, offset, stateAt);
      AcceptedEndsIncrease(sorted, 0, Pos(0, 0));
      assert [] + Accepted(sorted, 0, Pos(0, 0)) == Accepted(sorted, 0, Pos(0, 0));
    }
  }
}

=== FILE: lean_wait.dfy ===
/** The loop that reads the Lean server's replies until the answer to the
    current request (`_wait`). Replies are given as a sequence of decoded
    records; reading past the last one stands for the end of the stream. */
module LeanWait {
  import opened Common
  import opened LeanMessages

  const OkKind := "ok"
  const ErrorKind := "error"
  const CurrentTasksKind := "current_tasks"
  const AllMessagesKind := "all_messages"

  /** A reply of the server. `kind` is its `response` field; `seqNum`,
      `message` and `msgs` are read only for the kinds that have them, and
      `repr` is how Python prints the whole reply. */
  datatype Reply = Reply(kind: string, seqNum: int, message: string, msgs: seq<LeanMessage>, repr: string)

  /** The answer to the request, the messages gathered so far, and the
      replies not read yet. */
  datatype Waited = Waited(answer: Reply, messages: seq<LeanMessage>, rest: seq<Reply>)

  /** A reply the loop reads past. */
  predicate Pending(r: Reply) {
    r.kind == CurrentTasksKind || r.kind == AllMessagesKind
  }

  /** `_wait` with `self.seq_num` and `self.messages`. The answer to a request
      is `ok` or `error` and must carry the request's number; `ok` is
      returned, `error` raises with the server's message. Task reports are
      skipped, message batches are appended to the messages, and any other
      reply raises. Past the last reply, decoding the empty line fails. */
  function Wait(rs: seq<Reply>, seqNum: int, messages: seq<LeanMessage>): (r: Result<Waited, Fault>)
    ensures r.Ok? ==> r.value.answer.kind == OkKind && r.value.answer.seqNum == seqNum
    ensures r.Ok? ==> |r.value.rest| < |rs| && messages <= r.value.messages
    decreases |rs|
  {
    if |rs| == 0 then Fail(ValueError)
    else
      var js := rs[0];
      if (js.kind == OkKind || js.kind == ErrorKind) && js.seqNum != seqNum then Fail(AssertionError)
      else if js.kind == OkKind then Ok(Waited(js, messages, rs[1..]))
      else if js.kind == ErrorKind then Fail(ProtocolError(js.message))
      else if js.kind == CurrentTasksKind then Wait(rs[1..], seqNum, messages)
      else if js.kind == AllMessagesKind then Wait(rs[1..], seqNum, messages + js.msgs)
      else Fail(ProtocolError("Unexpected response " + js.repr))
  }

  /** The messages of the batches among `rs`, in order. */
  function Batches(rs: seq<Reply>): seq<LeanMessage> {
    if |rs| == 0 then []
    else (if rs[0].kind == AllMessagesKind then rs[0].msgs else []) + Batches(rs[1..])
  }

  /** `_wait` stops at the first reply it does not read past. At an `ok` or
      `error` with the request's number it returns, with every batch before
      it appended in order, or raises the server's error; at one with another
      number, or at a reply of any other kind, it raises; with no such reply
      it runs off the end of the stream. */
  lemma {:induction false} WaitStopsAtFirstAnswer(rs: seq<Reply>, seqNum: int, messages: seq<LeanMessage>, n: nat)
    requires n <= |rs| && (forall i :: 0 <= i < n ==> Pending(rs[i])) && (n == |rs| || !Pending(rs[n]))
    ensures var r := Wait(rs, seqNum, messages);
      && (n == |rs| ==> r == Fail(ValueError))
      && (n < |rs| ==> var js := rs[n];
            && ((js.kind == OkKind || js.kind == ErrorKind) && js.seqNum != seqNum ==> r == Fail(AssertionError))
            && (js.kind == OkKind && js.seqNum == seqNum ==> r == Ok(Waited(js, messages + Batches(rs[..n]), rs[n + 1..])))
            && (js.kind == ErrorKind && js.seqNum == seqNum ==> r == Fail(ProtocolError(js.message)))
            && (js.kind != OkKind && js.kind != ErrorKind ==> r == Fail(ProtocolError("Unexpected response " + js.repr))))
    decreases n
  {
    if n == 0 {
      assert rs[..0] == [];
      assert messages + [] == messages;
    } else {
      var batch := if rs[0].kind == AllMessagesKind then rs[0].msgs else [];
      assert Pending(rs[0]);
      assert messages + [] == messages;
      assert Wait(rs, seqNum, messages) == Wait(rs[1..], seqNum, messages + batch);
      WaitStopsAtFirstAnswer(rs[1..], seqNum, messages + batch, n - 1);
      assert rs[..n][1..] == rs[1..][..n - 1];
      assert Batches(rs[..n]) == batch + Batches(rs[1..][..n - 1]);
      AppendAssoc(messages, batch, Batches(rs[1..][..n - 1]));
      if n < |rs| {
        assert rs[1..][n - 1 + 1..] == rs[n + 1..];
      }
    }
  }

  /** Task reports change nothing: dropping them from the stream before the
      answer gives the same result. */
  lemma {:induction false} WaitIgnoresTasks(rs: seq<Reply>, seqNum: int, messages: seq<LeanMessage>, tasks: seq<Reply>)
    requires forall i :: 0 <= i < |tasks| ==> tasks[i].kind == CurrentTasksKind
    ensures Wait(tasks + rs, seqNum, messages) == Wait(rs, seqNum, messages)
    decreases |tasks|
  {
    if |tasks| > 0 {
      assert (tasks + rs)[0] == tasks[0];
      assert |CurrentTasksKind| != |OkKind| && |CurrentTasksKind| != |ErrorKind|;
      assert (tasks + rs)[1..] == tasks[1..] + rs;
      WaitIgnoresTasks(rs, seqNum, messages, tasks[1..]);
    } else {
      assert tasks + rs == rs;
    }
  }
}

=== FILE: numerals.dfy ===
/** Python's rendering of integers: `str(i)` / `"{}".format(i)` in base 10 and
    `hex(i)` in base 16, together with the parsers that invert them. */
module Numerals {
  import opened Common

  /** The quotient and remainder facts the digit recursions rely on, for the two
      bases in use. */
  lemma DivModBase(n: nat, base: nat)
    requires base == 10 || base == 16
    ensures 0 <= n % base < base
    ensures n == (n / base) * base + n % base
    ensures n >= base ==> 0 < n / base < n
  {
  }

  /** The digit of value `d` among `0123456789abcdef`. */
  function DigitChar(d: nat): (c: char)
    requires d < 16
  {
    if d < 10 then ('0' as int + d) as char else ('a' as int + d - 10) as char
  }

  /** Inverse of `DigitChar` on the digit characters, -1 elsewhere. */
  function DigitValue(c: char): (d: int)
    ensures -1 <= d < 16
    ensures 0 <= d ==> DigitChar(d) == c
  {
    if '0' <= c <= '9' then c as int - '0' as int
    else if 'a' <= c <= 'f' then c as int - 'a' as int + 10
    else -1
  }

  lemma DigitValueOfChar(d: nat)
    requires d < 16
    ensures DigitValue(DigitChar(d)) == d
  {
  }

  /** The digits of `n` in `base`, most significant first, with no leading zero. */
  function NatDigits(n: nat, base: nat): (s: string)
    requires base == 10 || base == 16
    ensures |s| >= 1
    decreases n
  {
    if n < base then [DigitChar(n)]
    else
      DivModBase(n, base);
      NatDigits(n / base, base) + [DigitChar(n % base)]
  }

  lemma {:induction false} NatDigitsAreDigits(n: nat, base: nat)
    requires base == 10 || base == 16
    ensures AllDigits(NatDigits(n, base), base)
    decreases n
  {
    if n >= base {
      DivModBase(n, base);
      NatDigitsAreDigits(n / base, base);
      DigitValueOfChar(n % base);
    } else {
      DigitValueOfChar(n);
    }
  }

  predicate AllDigits(s: string, base: nat) {
    forall k :: 0 <= k < |s| ==> 0 <= DigitValue(s[k]) < base
  }

  /** Digit strings hold none of the characters that delimit them elsewhere. */
  lemma DigitsHaveNoMarks(s: string, base: nat)
    requires AllDigits(s, base)
    ensures ':' !in s && '-' !in s && 'x' !in s && '\n' !in s
  {
    assert DigitValue(':') == -1 && DigitValue('-') == -1 && DigitValue('x') == -1 && DigitValue('\n') == -1;
  }

  /** The value of a digit string in `base`. */
  function DigitsValue(s: string, base: nat): nat
    requires base == 10 || base == 16
    requires AllDigits(s, base)
  {
    if |s| == 0 then 0
    else DigitsValue(s[..|s| - 1], base) * base + DigitValue(s[|s| - 1])
  }

  lemma {:induction false} DigitsRoundTrip(n: nat, base: nat)
    requires base == 10 || base == 16
    ensures AllDigits(NatDigits(n, base), base)
    ensures DigitsValue(NatDigits(n, base), base) == n
    decreases n
  {
    NatDigitsAreDigits(n, base);
    if n >= base {
      var s := NatDigits(n, base);
      DivModBase(n, base);
      DigitsRoundTrip(n / base, base);
      assert s[..|s| - 1] == NatDigits(n / base, base);
      DigitValueOfChar(n % base);
    } else {
      DigitValueOfChar(n);
    }
  }

  /** `str(i)` for a Python int. */
  function Decimal(i: int): (s: string)
    ensures |s| >= 1
    ensures ':' !in s && '\n' !in s
  {
    var d := NatDigits(if i < 0 then -i else i, 10);
    NatDigitsAreDigits(if i < 0 then -i else i, 10);
    DigitsHaveNoMarks(d, 10);
    if i < 0 then "-" + d else d
  }

  /** Reads back what `Decimal` writes: an optional minus sign and one or more digits. */
  function ParseDecimal(s: string): Option<int> {
    if |s| > 0 && s[0] == '-' then
      match ParseDigits(s[1..])
      case Some(v) => Some(-v)
      case None => None
    else ParseDigits(s)
  }

  /** One or more decimal digits, read as a number. */
  function ParseDigits(s: string): (r: Option<int>)
    ensures |s| >= 1 && AllDigits(s, 10) ==> r == Some(DigitsValue(s, 10) as int)
  {
    if |s| == 0 || !AllDigits(s, 10) then None else Some(DigitsValue(s, 10))
  }

  /** Rendering an integer and parsing it back is the identity. */
  lemma DecimalRoundTrip(i: int)
    ensures ParseDecimal(Decimal(i)) == Some(i)
  {
    if i < 0 {
      NegativeRoundTrip(i);
    } else {
      NonNegativeRoundTrip(i);
    }
  }

  lemma NegativeRoundTrip(i: int)
    requires i < 0
    ensures ParseDecimal(Decimal(i)) == Some(i)
  {
    var d := NatDigits(-i, 10);
    DigitsRoundTrip(-i, 10);
    assert ParseDigits(d) == Some(-i);
    var s := "-" + d;
    assert Decimal(i) == s;
    assert s[1..] == d;
  }

  lemma NonNegativeRoundTrip(i: int)
    requires i >= 0
    ensures ParseDecimal(Decimal(i)) == Some(i)
  {
    var d := NatDigits(i, 10);
    DigitsRoundTrip(i, 10);
    assert ParseDigits(d) == Some(i);
    DigitsHaveNoMarks(d, 10);
    assert d[0] != '-' by { assert d[0] in d; }
    assert Decimal(i) == d;
  }

  /** `hex(i)[len("0x"):]`, the suffix `Gensym` appends: for a negative `i` the
      slice drops `-0` and leaves `x` in front of the digits. */
  function B16(i: int): (s: string)
    decreases if i < 0 then 1 else 0
  {
    if i < 0 then "x" + B16(-i) else NatDigits(i, 16)
  }

  /** Distinct counters get distinct suffixes. */
  lemma B16Injective(a: int, b: int)
    requires B16(a) == B16(b)
    ensures a == b
  {
    var da := NatDigits(if a < 0 then -a else a, 16);
    var db := NatDigits(if b < 0 then -b else b, 16);
    NatDigitsAreDigits(if a < 0 then -a else a, 16);
    NatDigitsAreDigits(if b < 0 then -b else b, 16);
    DigitsHaveNoMarks(da, 16);
    DigitsHaveNoMarks(db, 16);
    DigitsRoundTrip(if a < 0 then -a else a, 16);
    DigitsRoundTrip(if b < 0 then -b else b, 16);
    if a >= 0 && b >= 0 {
      assert da == db;
    } else if a < 0 && b < 0 {
      assert da == B16(a)[1..] == B16(b)[1..] == db;
    }
  }
}

=== FILE: observer.dfy ===
/** The observer that collects warnings and errors. `Observer.notify` delivers a
    notification; an observer is modelled by the notifications delivered to it,
    in order. `StderrObserver` writes one line per notification to standard
    error and keeps the highest level it has seen as the process exit code: both
    are functions of that record. */
module Observers {
  import opened Common
  import opened Numerals
  import opened Positions
  import opened Reports

  /** `subject` stands for the chunk the notification is about: Python passes
      its text when the chunk has a position and its bytes otherwise, and the
      model keeps the text in both cases, since the observer never reads it.
      The message is made of paragraphs, joined by newlines when it is
      written. */
  datatype Notification = Notification(subject: string, message: seq<Paragraph>, location: Option<Range>, level: int)

  /** A notification whose location can be printed (the header asserts that a
      range does not span two files). */
  predicate Printable(n: Notification) {
    n.location.None? || SameFile(n.location.value)
  }

  /** The notifications delivered so far, in order. */
  datatype Observer = Observer(notified: seq<Notification>)

  /** A new observer. */
  const Fresh: Observer := Observer([])

  /** `Observer.notify`. */
  function Notify(o: Observer, n: Notification): (o': Observer) {
    Observer(o.notified + [n])
  }

  /** Notifies each of `ns` in turn. */
  function NotifyAll(o: Observer, ns: seq<Notification>): (o': Observer) {
    Observer(o.notified + ns)
  }

  /** Notifying two lists in turn is notifying their concatenation. */
  lemma NotifyAllAppend(o: Observer, a: seq<Notification>, b: seq<Notification>)
    ensures NotifyAll(o, a + b) == NotifyAll(NotifyAll(o, a), b)
  {
    AppendAssoc(o.notified, a, b);
  }

  function LevelName(level: int): (name: string)
    ensures level == 2 <==> name == "WARNING"
    ensures level == 3 <==> name == "ERROR"
  {
    if level == 2 then "WARNING" else if level == 3 then "ERROR" else "??"
  }

  /** Continuation lines of a message are indented by three spaces. */
  function Reflow(message: string): (r: string)
    ensures '\n' !in message ==> r == RStrip(message)
  {
    ReplaceChar(RStrip(message), '\n', "\n   ")
  }

  /** A two-line message is written with its second line indented by three
      spaces. */
  lemma ReflowTwoLines(a: string, b: string)
    requires '\n' !in a && '\n' !in b && |b| > 0 && !IsSpace(b[|b| - 1])
    ensures Reflow(a + "\n" + b) == a + "\n   " + b
  {
    var s := a + "\n" + b;
    assert s[|s| - 1] == b[|b| - 1];
    ReplaceCharAppend(a + "\n", b, '\n', "\n   ");
    ReplaceCharAppend(a, "\n", '\n', "\n   ");
    assert ReplaceChar("\n", '\n', "\n   ") == "\n   " + [];
  }

  /** The line `StderrObserver._notify` writes: header, level name and number,
      then the message. */
  function Render(n: Notification): (line: string)
    requires Printable(n)
    ensures |line| > 0 && line[|line| - 1] == '\n'
  {
    var header := if n.location.Some? then RangeHeader(n.location.value) else "!!";
    header + " (" + LevelName(n.level) + "/" + Decimal(n.level) + ") " + Reflow(Paragraphs(n.message)) + "\n"
  }

  /** `StderrObserver.exit_code` after the notifications `ns`: it starts at 0. */
  function ExitCode(ns: seq<Notification>): (code: int)
    ensures code >= 0
  {
    if |ns| == 0 then 0 else Max(ExitCode(ns[..|ns| - 1]), ns[|ns| - 1].level)
  }

  /** What `StderrObserver` writes for the notifications `ns`: one line each. */
  function Stderr(ns: seq<Notification>): (lines: seq<string>)
    requires forall i :: 0 <= i < |ns| ==> Printable(ns[i])
    ensures |lines| == |ns|
  {
    if |ns| == 0 then [] else Stderr(ns[..|ns| - 1]) + [Render(ns[|ns| - 1])]
  }

  /** The exit code is the highest level notified, or 0: it bounds every level
      and is one of them unless it is 0. */
  lemma {:induction false} ExitCodeIsMaxLevel(ns: seq<Notification>)
    ensures var code := ExitCode(ns);
      && code >= 0
      && (forall i :: 0 <= i < |ns| ==> ns[i].level <= code)
      && (code == 0 || exists i :: 0 <= i < |ns| && ns[i].level == code)
    decreases |ns|
  {
    if |ns| > 0 {
      var init := ns[..|ns| - 1];
      ExitCodeIsMaxLevel(init);
      forall i | 0 <= i < |ns|
        ensures ns[i].level <= ExitCode(ns)
      {
        if i < |init| {
          assert ns[i] == init[i];
        }
      }
      if ExitCode(ns) != 0 && ExitCode(ns) == ExitCode(init) {
        var j :| 0 <= j < |init| && init[j].level == ExitCode(init);
        assert ns[j] == init[j];
      }
    }
  }

  /** Later notifications never lower the exit code. */
  lemma {:induction false} ExitCodeAppend(a: seq<Notification>, b: seq<Notification>)
    ensures ExitCode(a + b) == Max(ExitCode(a), ExitCode(b))
    decreases |b|
  {
    if |b| == 0 {
      assert a + b == a;
    } else {
      var init := b[..|b| - 1];
      ExitCodeAppend(a, init);
      assert (a + b)[..|a + b| - 1] == a + init;
    }
  }

  /** The lines of later notifications follow the earlier ones. */
  lemma {:induction false} StderrAppend(a: seq<Notification>, b: seq<Notification>)
    requires forall i :: 0 <= i < |a| ==> Printable(a[i])
    requires forall i :: 0 <= i < |b| ==> Printable(b[i])
    ensures forall i :: 0 <= i < |a + b| ==> Printable((a + b)[i])
    ensures Stderr(a + b) == Stderr(a) + Stderr(b)
    decreases |b|
  {
    var ab := a + b;
    forall i | 0 <= i < |ab|
      ensures Printable(ab[i])
    {
      if i < |a| { assert ab[i] == a[i]; } else { assert ab[i] == b[i - |a|]; }
    }
    if |b| == 0 {
      assert ab == a;
    } else {
      var init, n := b[..|b| - 1], b[|b| - 1];
      StderrAppend(a, init);
      InitLast(b);
      AppendAssoc(a, init, [n]);
      StderrSnoc(a + init, n);
      StderrSnoc(init, n);
      AppendAssoc(Stderr(a), Stderr(init), [Render(n)]);
    }
  }

  /** One more notification writes one more line. */
  lemma StderrSnoc(ns: seq<Notification>, n: Notification)
    requires forall i :: 0 <= i < |ns| ==> Printable(ns[i])
    requires Printable(n)
    ensures forall i :: 0 <= i < |ns + [n]| ==> Printable((ns + [n])[i])
    ensures Stderr(ns + [n]) == Stderr(ns) + [Render(n)]
  {
    var ns' := ns + [n];
    forall i | 0 <= i < |ns'|
      ensures Printable(ns'[i])
    {
      if i < |ns| { assert ns'[i] == ns[i]; }
    }
    assert ns'[..|ns|] == ns;
  }

  /** Line `i` is the rendering of notification `i`. */
  lemma {:induction false} StderrLine(ns: seq<Notification>, i: int)
    requires forall j :: 0 <= j < |ns| ==> Printable(ns[j])
    requires 0 <= i < |ns|
    ensures Stderr(ns)[i] == Render(ns[i])
    decreases |ns|
  {
    if i < |ns| - 1 {
      var init := ns[..|ns| - 1];
      StderrLine(init, i);
      assert init[i] == ns[i];
    }
  }
}

=== FILE: positions.dfy ===
/** Source positions, their textual headers, and the byte-view of a chunk that
    turns byte offsets into (line, column) positions. */
module Positions {
  import opened Common
  import opened Numerals
  import opened Utf8

  /** `fpath` is `None` (or empty) when the chunk's file is unknown. */
  datatype Position = Position(fpath: Option<string>, line: int, col: int)

  datatype Range = Range(beg: Position, end: Option<Position>)

  /** `fpath or "<unknown>"`: both a missing and an empty path print as `<unknown>`. */
  function PathText(fpath: Option<string>): (s: string)
    ensures fpath.Some? && fpath.value != "" ==> s == fpath.value
    ensures fpath.None? || fpath.value == "" ==> s == "<unknown>"
  {
    if fpath.None? || fpath.value == "" then "<unknown>" else fpath.value
  }

  /** `Position.as_header`: `path:line:col:`. */
  function PositionHeader(p: Position): string {
    PathText(p.fpath) + ":" + Decimal(p.line) + ":" + Decimal(p.col) + ":"
  }

  /** Cuts `s` at its last `x` into what precedes and what follows it. */
  function CutLast(s: string, x: char): (r: Option<(string, string)>)
    ensures r.None? <==> x !in s
    ensures r.Some? ==> s == r.value.0 + [x] + r.value.1 && x !in r.value.1
  {
    var i := LastIndex(s, x);
    if i < 0 then None
    else
      SplitAround(s, i);
      Some((s[..i], s[i + 1..]))
  }

  lemma CutLastJunction(a: string, x: char, b: string)
    requires x !in b
    ensures CutLast(a + [x] + b, x) == Some((a, b))
  {
    var s := a + [x] + b;
    LastIndexJunction(a, x, b);
    assert s[..|a|] == a && s[|a| + 1..] == b;
  }

  /** Reads a `path:line:col:` header back, splitting at the last two colons. */
  function ParsePositionHeader(h: string): Option<(string, int, int)> {
    if |h| == 0 || h[|h| - 1] != ':' then None
    else
      match CutLast(h[..|h| - 1], ':')
      case None => None
      case Some((front, col)) =>
        match CutLast(front, ':')
        case None => None
        case Some((path, line)) =>
          match (ParseDecimal(line), ParseDecimal(col))
          case (Some(l), Some(c)) => Some((path, l, c))
          case _ => None
  }

  /** A position header determines the printed path, the line and the column. */
  lemma PositionHeaderRoundTrip(p: Position)
    ensures ParsePositionHeader(PositionHeader(p)) == Some((PathText(p.fpath), p.line, p.col))
  {
    var path, l, c := PathText(p.fpath), Decimal(p.line), Decimal(p.col);
    DecimalRoundTrip(p.line);
    DecimalRoundTrip(p.col);
    ParseThreeFields(path, l, c);
  }

  lemma ParseThreeFields(path: string, l: string, c: string)
    requires ':' !in l && ':' !in c
    ensures ParsePositionHeader(path + ":" + l + ":" + c + ":")
         == match (ParseDecimal(l), ParseDecimal(c))
            case (Some(line), Some(col)) => Some((path, line, col))
            case _ => None
  {
    var h := path + ":" + l + ":" + c + ":";
    var front := path + [':'] + l;
    assert h[..|h| - 1] == front + [':'] + c;
    CutLastJunction(front, ':', c);
    CutLastJunction(path, ':', l);
  }

  /** The header's `assert`: both ends of a range lie in the same file. */
  predicate SameFile(r: Range) {
    r.end.None? || r.beg.fpath == r.end.value.fpath
  }

  /** `Range.as_header`. With an end it prints `path:(l:c)-(l:c):`; without one the
      `"{}:{}"` template is filled with the beginning and an empty string. */
  function RangeHeader(r: Range): string
    requires SameFile(r)
  {
    var beg := Decimal(r.beg.line) + ":" + Decimal(r.beg.col);
    var end := if r.end.Some? then Decimal(r.end.value.line) + ":" + Decimal(r.end.value.col) else "";
    var pos := if end != "" then "(" + beg + ")-(" + end + ")" else beg + ":" + end;
    PathText(r.beg.fpath) + ":" + pos + ":"
  }

  /** A range with no end prints as the position header of its beginning followed
      by one more colon. */
  lemma PointRangeHeader(p: Position)
    ensures RangeHeader(Range(p, None)) == PositionHeader(p) + ":"
  {
  }

  /** Where a chunk starts: the position of its first byte, and how many characters
      of that first line precede the chunk. */
  datatype Anchor = Anchor(pos: Position, colOffset: int)

  /** A chunk: the string it was made from and its UTF-8 bytes. A `PosView`
      carries an anchor; a plain `View` (built from a string that has no position)
      does not. */
  datatype View = View(text: string, bytes: seq<byte>, anchor: Option<Anchor>)

  /** `PosView(s)`: encodes the chunk, keeping its anchor when it has one. */
  function MakeView(text: string, anchor: Option<Anchor>): (v: View)
    ensures v.text == text && v.anchor == anchor
    ensures DecodeStrict(v.bytes) == Some(text)
  {
    DecodeStrictEncode(text);
    View(text, EncodeString(text), anchor)
  }

  /** `PosView.translate_offset`. On the first line the column advances by the
      byte offset itself; after a newline it is one plus the column offset plus the
      number of characters decoded (ignoring errors) since the last newline. */
  function TranslateOffset(bs: seq<byte>, a: Anchor, offset: int): (p: Position)
    ensures p.fpath == a.pos.fpath
  {
    var upto := bs[..ClampIndex(offset, |bs|)];
    var nl := LastIndex(upto, NL);
    if nl == -1 then Position(a.pos.fpath, a.pos.line, a.pos.col + offset)
    else
      var line := a.pos.line + Count(upto, NL);
      var prefix := Slice(bs, nl + 1, offset);
      Position(a.pos.fpath, line, 1 + a.colOffset + CharCount(prefix))
  }

  /** Before the first newline, the column is the anchor's column plus the byte
      offset, and the line is the anchor's. */
  lemma TranslateFirstLine(bs: seq<byte>, a: Anchor, offset: int)
    requires NL !in bs[..ClampIndex(offset, |bs|)]
    ensures TranslateOffset(bs, a, offset) == Position(a.pos.fpath, a.pos.line, a.pos.col + offset)
  {
    assert LastIndex(bs[..ClampIndex(offset, |bs|)], NL) == -1;
  }

  /** The bytes of the documentation's example text. */
  lemma DoctestBytes()
    ensures EncodeString("abc\ndef\nghi") == [97, 98, 99, 10, 100, 101, 102, 10, 103, 104, 105]
  {
    var text := "abc\ndef\nghi";
    forall i | 0 <= i < |text|
      ensures (text[i] as int) < 0x80
    {
      assert text[i] in {'a', 'b', 'c', 'd', 'e', 'f', 'g', 'h', 'i', '\n'};
    }
    AsciiString(text);
  }

  /** The example of `PosView.translate_offset`'s documentation: in
      `"abc\ndef\nghi"` anchored at line 3, column 2 of `f` with a column offset
      of 5, offset 0 is the anchor itself and offset 10 is line 5, column 8. */
  lemma TranslateDoctest()
    ensures var bs := EncodeString("abc\ndef\nghi");
      var a := Anchor(Position(Some("f"), 3, 2), 5);
      && TranslateOffset(bs, a, 0) == Position(Some("f"), 3, 2)
      && TranslateOffset(bs, a, 10) == Position(Some("f"), 5, 8)
  {
    DoctestBytes();
    var a := Anchor(Position(Some("f"), 3, 2), 5);
    DoctestStart([97, 98, 99, 10, 100, 101, 102, 10, 103, 104, 105], a);
    DoctestThirdLine([97, 98, 99, 10, 100, 101, 102, 10, 103, 104, 105], a);
  }

  /** Offset 0 of any text is the anchor itself. */
  lemma DoctestStart(bs: seq<byte>, a: Anchor)
    ensures TranslateOffset(bs, a, 0) == a.pos
  {
    assert bs[..0] == [];
    TranslateFirstLine(bs, a, 0);
  }

  /** Offset 10 of the example's bytes is two lines below the anchor, two
      characters after the column offset. */
  lemma DoctestThirdLine(bs: seq<byte>, a: Anchor)
    requires |bs| >= 10 && bs[..10] == [97, 98, 99, 10, 100, 101, 102, 10, 103, 104]
    ensures TranslateOffset(bs, a, 10) == Position(a.pos.fpath, a.pos.line + 2, 1 + a.colOffset + 2)
  {
    var x, z: seq<byte> := [97, 98, 99], [100, 101, 102];
    var before, after: seq<byte> := x + [NL] + z, [103, 104];
    assert bs[..10] == before + [NL] + after;
    TranslateAfterNewline(bs, a, before, after);
    DoctestCounts(x, z, after);
  }

  /** The newline and character counts of the example's pieces. */
  lemma DoctestCounts(x: seq<byte>, z: seq<byte>, after: seq<byte>)
    requires x == [97, 98, 99] && z == [100, 101, 102] && after == [103, 104]
    ensures Count(x + [NL] + z, NL) == 1 && CharCount(after) == 2
  {
    CountAppend(x + [NL], z, NL);
    CountAppend(x, [NL], NL);
    assert NL !in x && NL !in z;
    assert Count([NL], NL) == Count([NL][..0], NL) + 1;
    AsciiCount(after);
  }

  /** After a newline, the position is counted from the last newline before the
      offset: one line per newline, one column per decoded character after it. */
  lemma TranslateAfterNewline(bs: seq<byte>, a: Anchor, before: seq<byte>, after: seq<byte>)
    requires |before| + 1 + |after| <= |bs|
    requires bs[..|before| + 1 + |after|] == before + [NL] + after
    requires NL !in after
    ensures TranslateOffset(bs, a, |before| + 1 + |after|)
         == Position(a.pos.fpath, a.pos.line + Count(before, NL) + 1, 1 + a.colOffset + CharCount(after))
  {
    var offset := |before| + 1 + |after|;
    var s := before + [NL] + after;
    assert bs[..ClampIndex(offset, |bs|)] == s;
    JunctionFacts(before, after);
    assert Slice(bs, |before| + 1, offset) == after by {
      assert bs[|before| + 1..offset] == s[|before| + 1..];
    }
    TranslateUnfold(bs, a, offset);
  }

  /** `TranslateOffset` past a newline, spelled out. */
  lemma TranslateUnfold(bs: seq<byte>, a: Anchor, offset: int)
    requires NL in bs[..ClampIndex(offset, |bs|)]
    ensures var upto := bs[..ClampIndex(offset, |bs|)];
      (TranslateOffset(bs, a, offset)
       == Position(a.pos.fpath, a.pos.line + Count(upto, NL),
                   1 + a.colOffset + CharCount(Slice(bs, LastIndex(upto, NL) + 1, offset))))
  {
  }

  /** Where the last newline of `before + [NL] + after` is, and how many it holds. */
  lemma JunctionFacts(before: seq<byte>, after: seq<byte>)
    requires NL !in after
    ensures LastIndex(before + [NL] + after, NL) == |before|
    ensures Count(before + [NL] + after, NL) == Count(before, NL) + 1
  {
    LastIndexJunction(before, NL, after);
    CountAppend(before + [NL], after, NL);
    CountAppend(before, [NL], NL);
  }

  /** `PosView.translate_span`. */
  function TranslateSpan(bs: seq<byte>, a: Anchor, beg: int, end: int): (r: Range)
    ensures SameFile(r) && r.end.Some?
    ensures r.beg == TranslateOffset(bs, a, beg) && r.end.value == TranslateOffset(bs, a, end)
  {
    Range(TranslateOffset(bs, a, beg), Some(TranslateOffset(bs, a, end)))
  }

  /** `SerAPI._clip_span`: a missing location stands for the whole chunk, and a
      given one is cut back to `[0, len(chunk)]` at each end. */
  function ClipSpan(loc: Option<(int, int)>, n: nat): (span: (int, int))
    ensures 0 <= span.0 && span.1 <= n
    ensures loc.None? ==> span == (0, n)
    ensures loc.Some? && 0 <= loc.value.0 && loc.value.1 <= n ==> span == loc.value
  {
    var l := if loc.Some? then loc.value else (0, n);
    (Max(0, l.0), Min(n, l.1))
  }

  /** Clipping an already clipped span changes nothing. */
  lemma ClipSpanIdempotent(loc: Option<(int, int)>, n: nat)
    ensures ClipSpan(Some(ClipSpan(loc, n)), n) == ClipSpan(loc, n)
  {
  }

  /** `SerAPI._range_of_span`: only a positioned view can report a range. */
  function RangeOfSpan(span: (int, int), v: View): (r: Option<Range>)
    ensures r.Some? <==> v.anchor.Some?
    ensures r.Some? ==> SameFile(r.value) && r.value == TranslateSpan(v.bytes, v.anchor.value, span.0, span.1)
  {
    if v.anchor.Some? then Some(TranslateSpan(v.bytes, v.anchor.value, span.0, span.1)) else None
  }
}

=== FILE: reports.dfy ===
/** The warnings the SerAPI driver writes are made of paragraphs joined by
    newlines: the quoted exception, the excerpt and the caveat of an exception
    report, and the header and quoted text of an orphaned message. */
module Reports {
  import opened Common
  import opened Numerals
  import opened TextFormat

  /** The prefix `_warn_on_exn` quotes with. */
  const Quote: string := "  > "
  /** The prefix `_warn_orphaned` quotes with. */
  const OrphanQuote: string := " >  "

  lemma QuotesNotBlank()
    ensures !IsBlank(Quote) && !IsBlank(OrphanQuote)
  {
    assert !IsSpace(Quote[2]);
    assert !IsSpace(OrphanQuote[1]);
  }

  const RaisedHeader: string := "Coq raised an exception:\n"
  const CaveatText: string := "Results past this point may be unreliable."
  const OrphanHeader: string := "Orphaned message for sid "

  datatype Paragraph =
    | Raised(exn: string)
    | Excerpt(span: (int, int), chunk: seq<byte>)
    | Caveat
    | Orphaned(sid: int)
    | Quoted(pp: string)

  function ParagraphText(p: Paragraph): string {
    QuotesNotBlank();
    match p
    case Raised(exn) => RaisedHeader + Indent(exn, Quote)
    case Excerpt(span, chunk) => HighlightExn(span, chunk, Quote)
    case Caveat => CaveatText
    case Orphaned(sid) => OrphanHeader + Decimal(sid) + ":"
    case Quoted(pp) => Indent(pp, OrphanQuote)
  }

  /** Paragraphs joined by newlines. */
  function Paragraphs(ps: seq<Paragraph>): string {
    if |ps| == 0 then []
    else if |ps| == 1 then ParagraphText(ps[0])
    else Paragraphs(ps[..|ps| - 1]) + "\n" + ParagraphText(ps[|ps| - 1])
  }

  /** The paragraphs are separated by single newlines. */
  lemma ParagraphsTwo(a: Paragraph, b: Paragraph)
    ensures Paragraphs([a, b]) == ParagraphText(a) + "\n" + ParagraphText(b)
  {
    assert [a, b][..1] == [a];
  }
}

=== FILE: serapi_protocol.dfy ===
/** The SerAPI responses as the driver sees them once they are classified, and
    `_collect_messages`, the loop that reads them until the request completes.
    Reading from `sertop` becomes reading the next line of a given list. */
module SerapiProtocol {
  import opened Common
  import opened Positions
  import opened Observers
  import opened TextFormat
  import opened Fragments
  import opened Reports

  /** An S-expression the driver hands back to `sertop` without looking inside. */
  type Obj = seq<byte>

  /** A classified response (`ApiAck`, `ApiCompleted`, `ApiAdded`, `ApiExn`,
      `ApiMessage`, `ApiString` and raw `Goal`s). */
  datatype Event =
    | Ack
    | Completed
    | Added(sid: int, span: (int, int))
    | Exn(sids: Option<seq<int>>, exn: string, loc: Option<(int, int)>)
    | Msg(sid: int, level: Obj, msg: Obj)
    | Str(s: string)
    | RawGoal(goal: Goal<Obj>)

  /** The response types a caller can ask for. */
  datatype Kind = KAdded | KExn | KMsg | KStr | KGoal

  function KindOf(e: Event): Option<Kind> {
    match e
    case Added(_, _) => Some(KAdded)
    case Exn(_, _, _) => Some(KExn)
    case Msg(_, _, _) => Some(KMsg)
    case Str(_) => Some(KStr)
    case RawGoal(_) => Some(KGoal)
    case _ => None
  }

  /** One line printed by `sertop`: the events it classifies into, or a response
      that does not classify (which the driver rejects). */
  datatype Line = Events(events: seq<Event>) | Unclassified

  /** What `_warn_on_exn` reports: the quoted exception, the excerpt when the
      chunk is not empty, and a closing caveat. */
  function ExnParagraphs(v: View, e: Event): (ps: seq<Paragraph>)
    requires e.Exn?
    ensures |ps| == (if |v.bytes| > 0 then 3 else 2)
    ensures ps[0] == Raised(e.exn) && ps[|ps| - 1] == Caveat
    ensures |v.bytes| > 0 ==> ps[1] == Excerpt(ClipSpan(e.loc, |v.bytes|), v.bytes)
  {
    [Raised(e.exn)]
    + (if |v.bytes| > 0 then [Excerpt(ClipSpan(e.loc, |v.bytes|), v.bytes)] else [])
    + [Caveat]
  }

  /** The error `_warn_on_exn` notifies: located at the clipped span when the
      chunk has a position. */
  function ExnNotification(v: View, e: Event): (n: Notification)
    requires e.Exn?
    ensures n.level == 3 && n.subject == v.text && Printable(n)
    ensures n.location == RangeOfSpan(ClipSpan(e.loc, |v.bytes|), v)
  {
    Notification(v.text, ExnParagraphs(v, e), RangeOfSpan(ClipSpan(e.loc, |v.bytes|), v), 3)
  }

  /** `_warn_on_exn`; without a chunk (a pretty-printing request) taking its
      length raises `TypeError`. */
  function WarnOnExn(chunk: Option<View>, e: Event, obs: Observer): (r: Result<Observer, Fault>)
    requires e.Exn?
    ensures chunk.None? <==> r.Fail?
    ensures r.Ok? ==> r.value == Notify(obs, ExnNotification(chunk.value, e))
  {
    if chunk.None? then Fail(TypeError) else Ok(Notify(obs, ExnNotification(chunk.value, e)))
  }

  /** Whether an exception is reported: only when exceptions are not asked for,
      and only when it concerns the request's sentence (or either side does not
      say which sentence). */
  predicate Warns(e: Event, typs: set<Kind>, sid: Option<int>) {
    KExn !in typs && e.Exn? && (sid.None? || e.sids.None? || sid.value in e.sids.value)
  }

  /** Whether an event is handed to the caller: every kind when none is asked
      for, otherwise the kinds asked for. */
  predicate Yields(e: Event, typs: set<Kind>) {
    KindOf(e).Some? && (typs == {} || KindOf(e).value in typs)
  }

  /** What reading one line did: the events handed over, the observer, and
      whether the line held the `Completed` marker. */
  datatype Step = Step(events: seq<Event>, obs: Observer, completed: bool)

  /** The inner loop of `_collect_messages` over the events of one line. */
  function ScanLine(evs: seq<Event>, typs: set<Kind>, chunk: Option<View>, sid: Option<int>, obs: Observer)
    : (r: Result<Step, Fault>)
    decreases |evs|
  {
    if |evs| == 0 then Ok(Step([], obs, false))
    else
      var e := evs[0];
      if e.Ack? then ScanLine(evs[1..], typs, chunk, sid, obs)
      else if e.Completed? then Ok(Step([], obs, true))
      else
        var warned := if Warns(e, typs, sid) then WarnOnExn(chunk, e, obs) else Ok(obs);
        match warned
        case Fail(f) => Fail(f)
        case Ok(obs1) =>
          match ScanLine(evs[1..], typs, chunk, sid, obs1)
          case Fail(f) => Fail(f)
          case Ok(s) => Ok(Step((if Yields(e, typs) then [e] else []) + s.events, s.obs, s.completed))
  }

  /** The result of a request: the events handed over, the index of the next
      unread line, and the observer. */
  datatype Collected = Collected(events: seq<Event>, next: nat, obs: Observer)

  /** `SerAPI._collect_messages`: reads lines from `pos` until one holds
      `Completed`. Running out of lines is the empty read that raises, and an
      unclassified line raises too. */
  function Collect(lines: seq<Line>, pos: nat, typs: set<Kind>, chunk: Option<View>, sid: Option<int>, obs: Observer)
    : (r: Result<Collected, Fault>)
    ensures r.Ok? ==> pos < r.value.next <= |lines|
    decreases |lines| - pos
  {
    if pos >= |lines| then Fail(UnexpectedError(EmptyLine))
    else
      match lines[pos]
      case Unclassified => Fail(UnexpectedError(UnexpectedResponse))
      case Events(evs) =>
        match ScanLine(evs, typs, chunk, sid, obs)
        case Fail(f) => Fail(f)
        case Ok(s) =>
          if s.completed then Ok(Collected(s.events, pos + 1, s.obs))
          else
            match Collect(lines, pos + 1, typs, chunk, sid, s.obs)
            case Fail(f) => Fail(f)
            case Ok(c) => Ok(Collected(s.events + c.events, c.next, c.obs))
  }

  // ---------------------------------------------------------------------------
  // The reference reading: which events a request reads, and what it makes of them.

  /** Index of the first `Completed` in `evs`, or `|evs|`. */
  function FirstCompleted(evs: seq<Event>): (k: nat)
    ensures k <= |evs|
    ensures forall i :: 0 <= i < k ==> !evs[i].Completed?
    ensures k < |evs| ==> evs[k].Completed?
  {
    if |evs| == 0 || evs[0].Completed? then 0 else 1 + FirstCompleted(evs[1..])
  }

  /** The events a request reads, up to (without) the first `Completed`, and the
      index of the line after it; `None` if the lines end, or an unclassified line
      comes, first. */
  function Transcript(lines: seq<Line>, pos: nat): (t: Option<(seq<Event>, nat)>)
    ensures t.Some? ==> pos < t.value.1 <= |lines|
    ensures t.Some? ==> forall i :: 0 <= i < |t.value.0| ==> !t.value.0[i].Completed?
    decreases |lines| - pos
  {
    if pos >= |lines| || lines[pos].Unclassified? then None
    else
      var evs := lines[pos].events;
      var k := FirstCompleted(evs);
      if k < |evs| then Some((evs[..k], pos + 1))
      else
        match Transcript(lines, pos + 1)
        case None => None
        case Some(t) => Some((evs + t.0, t.1))
  }

  /** The events handed over, in arrival order. */
  function Select(s: seq<Event>, typs: set<Kind>): (r: seq<Event>)
    ensures forall i :: 0 <= i < |r| ==> Yields(r[i], typs) && r[i] in s
  {
    if |s| == 0 then []
    else (if Yields(s[0], typs) then [s[0]] else []) + Select(s[1..], typs)
  }

  /** The exceptions reported, in arrival order. */
  function Warnings(s: seq<Event>, typs: set<Kind>, sid: Option<int>): (r: seq<Event>)
    ensures forall i :: 0 <= i < |r| ==> r[i].Exn? && Warns(r[i], typs, sid)
  {
    if |s| == 0 then []
    else (if Warns(s[0], typs, sid) then [s[0]] else []) + Warnings(s[1..], typs, sid)
  }

  function ExnNotifications(v: View, ws: seq<Event>): (ns: seq<Notification>)
    requires forall i :: 0 <= i < |ws| ==> ws[i].Exn?
    ensures |ns| == |ws|
    ensures forall i :: 0 <= i < |ns| ==> Printable(ns[i]) && ns[i].level == 3
  {
    if |ws| == 0 then [] else [ExnNotification(v, ws[0])] + ExnNotifications(v, ws[1..])
  }

  /** Reporting the exceptions `ws` in turn: nothing to do for none, `TypeError`
      without a chunk, one notification each otherwise. */
  function Reported(chunk: Option<View>, obs: Observer, ws: seq<Event>): (r: Result<Observer, Fault>)
    requires forall i :: 0 <= i < |ws| ==> ws[i].Exn?
  {
    if |ws| == 0 then Ok(obs)
    else if chunk.None? then Fail(TypeError)
    else Ok(NotifyAll(obs, ExnNotifications(chunk.value, ws)))
  }

  /** What a request makes of the events it read. */
  function Outcome(s: seq<Event>, next: nat, typs: set<Kind>, chunk: Option<View>, sid: Option<int>, obs: Observer)
    : Result<Collected, Fault>
  {
    match Reported(chunk, obs, Warnings(s, typs, sid))
    case Fail(f) => Fail(f)
    case Ok(o) => Ok(Collected(Select(s, typs), next, o))
  }

  lemma {:induction false} SelectAppend(a: seq<Event>, b: seq<Event>, typs: set<Kind>)
    ensures Select(a + b, typs) == Select(a, typs) + Select(b, typs)
  {
    if |a| > 0 {
      assert (a + b)[1..] == a[1..] + b;
      SelectAppend(a[1..], b, typs);
      AppendAssoc(if Yields(a[0], typs) then [a[0]] else [], Select(a[1..], typs), Select(b, typs));
    } else {
      assert a + b == b;
    }
  }

  lemma {:induction false} WarningsAppend(a: seq<Event>, b: seq<Event>, typs: set<Kind>, sid: Option<int>)
    ensures Warnings(a + b, typs, sid) == Warnings(a, typs, sid) + Warnings(b, typs, sid)
  {
    if |a| > 0 {
      assert (a + b)[1..] == a[1..] + b;
      WarningsAppend(a[1..], b, typs, sid);
      AppendAssoc(if Warns(a[0], typs, sid) then [a[0]] else [], Warnings(a[1..], typs, sid), Warnings(b, typs, sid));
    } else {
      assert a + b == b;
    }
  }

  lemma {:induction false} ExnNotificationsAppend(v: View, a: seq<Event>, b: seq<Event>)
    requires forall i :: 0 <= i < |a| ==> a[i].Exn?
    requires forall i :: 0 <= i < |b| ==> b[i].Exn?
    ensures forall i :: 0 <= i < |a + b| ==> (a + b)[i].Exn?
    ensures ExnNotifications(v, a + b) == ExnNotifications(v, a) + ExnNotifications(v, b)
    decreases |a|
  {
    if |a| > 0 {
      var n := ExnNotification(v, a[0]);
      assert (a + b)[0] == a[0];
      assert (a + b)[1..] == a[1..] + b;
      ExnNotificationsAppend(v, a[1..], b);
      AppendAssoc([n], ExnNotifications(v, a[1..]), ExnNotifications(v, b));
    } else {
      assert a + b == b;
    }
  }

  /** Reporting `a` then `b` is reporting `a + b`. */
  lemma ReportedAppend(chunk: Option<View>, obs: Observer, a: seq<Event>, b: seq<Event>)
    requires forall i :: 0 <= i < |a| ==> a[i].Exn?
    requires forall i :: 0 <= i < |b| ==> b[i].Exn?
    ensures forall i :: 0 <= i < |a + b| ==> (a + b)[i].Exn?
    ensures Reported(chunk, obs, a + b)
         == match Reported(chunk, obs, a)
            case Fail(f) => Fail(f)
            case Ok(o) => Reported(chunk, o, b)
  {
    ExnNotificationsAppend(if chunk.Some? then chunk.value else View([], [], None), a, b);
    if |a| == 0 {
      assert a + b == b;
    } else if |b| == 0 {
      assert a + b == a;
    } else if chunk.Some? {
      var v := chunk.value;
      NotifyAllAppend(obs, ExnNotifications(v, a), ExnNotifications(v, b));
    }
  }

  // ---------------------------------------------------------------------------
  // `Collect` reads the transcript and makes the reference outcome of it.

  /** What reading one line amounts to: the events before its first `Completed`
      are reported and handed over as a whole. */
  function LineOutcome(evs: seq<Event>, typs: set<Kind>, chunk: Option<View>, sid: Option<int>, obs: Observer)
    : Result<Step, Fault>
  {
    var k := FirstCompleted(evs);
    match Reported(chunk, obs, Warnings(evs[..k], typs, sid))
    case Fail(f) => Fail(f)
    case Ok(o) => Ok(Step(Select(evs[..k], typs), o, k < |evs|))
  }

  lemma ReadPrefixStep(evs: seq<Event>)
    requires |evs| > 0 && !evs[0].Completed?
    ensures evs[..FirstCompleted(evs)] == [evs[0]] + evs[1..][..FirstCompleted(evs[1..])]
  {
  }

  lemma SelectCons(e: Event, s: seq<Event>, typs: set<Kind>)
    ensures Select([e] + s, typs) == (if Yields(e, typs) then [e] else []) + Select(s, typs)
  {
    assert ([e] + s)[0] == e && ([e] + s)[1..] == s;
  }

  lemma WarningsCons(e: Event, s: seq<Event>, typs: set<Kind>, sid: Option<int>)
    ensures Warnings([e] + s, typs, sid) == (if Warns(e, typs, sid) then [e] else []) + Warnings(s, typs, sid)
  {
    assert ([e] + s)[0] == e && ([e] + s)[1..] == s;
  }

  /** Reporting one exception is `_warn_on_exn`. */
  lemma ReportedOne(chunk: Option<View>, obs: Observer, e: Event)
    requires e.Exn?
    ensures Reported(chunk, obs, [e]) == WarnOnExn(chunk, e, obs)
  {
    if chunk.Some? {
      var n := ExnNotification(chunk.value, e);
      assert ExnNotifications(chunk.value, [e]) == [n];
    }
  }

  /** The inner loop over one line reports the exceptions before the first
      `Completed`, hands over the events asked for, and says whether it met
      `Completed`. */
  lemma {:induction false} ScanLineSpec(evs: seq<Event>, typs: set<Kind>, chunk: Option<View>, sid: Option<int>, obs: Observer)
    ensures ScanLine(evs, typs, chunk, sid, obs) == LineOutcome(evs, typs, chunk, sid, obs)
    decreases |evs|
  {
    if |evs| > 0 && !evs[0].Completed? {
      var e, rest := evs[0], evs[1..];
      var k' := FirstCompleted(rest);
      ReadPrefixStep(evs);
      SelectCons(e, rest[..k'], typs);
      WarningsCons(e, rest[..k'], typs, sid);
      var w1 := if Warns(e, typs, sid) then [e] else [];
      ReportedAppend(chunk, obs, w1, Warnings(rest[..k'], typs, sid));
      if Warns(e, typs, sid) {
        ReportedOne(chunk, obs, e);
      }
      match Reported(chunk, obs, w1)
      case Fail(f) =>
      case Ok(obs1) =>
        ScanLineSpec(rest, typs, chunk, sid, obs1);
        if e.Ack? {
          assert w1 == [] && obs1 == obs;
          assert Select(evs[..FirstCompleted(evs)], typs) == Select(rest[..k'], typs);
          assert Warnings(evs[..FirstCompleted(evs)], typs, sid) == Warnings(rest[..k'], typs, sid);
        }
    }
  }

  /** `_collect_messages` fails when the lines end, or an unclassified line
      comes, before `Completed`; otherwise it reports the exceptions of the
      transcript in order and hands over the events asked for, in order. */
  lemma {:induction false} CollectSpec(lines: seq<Line>, pos: nat, typs: set<Kind>, chunk: Option<View>, sid: Option<int>, obs: Observer)
    ensures Transcript(lines, pos).None? ==> Collect(lines, pos, typs, chunk, sid, obs).Fail?
    ensures Transcript(lines, pos).Some? ==>
      var t := Transcript(lines, pos).value;
      Collect(lines, pos, typs, chunk, sid, obs) == Outcome(t.0, t.1, typs, chunk, sid, obs)
    decreases |lines| - pos
  {
    if pos < |lines| && lines[pos].Events? {
      var evs := lines[pos].events;
      var k := FirstCompleted(evs);
      ScanLineSpec(evs, typs, chunk, sid, obs);
      if k == |evs| {
        assert evs[..k] == evs;
        match Reported(chunk, obs, Warnings(evs, typs, sid))
        case Fail(f) =>
          if Transcript(lines, pos + 1).Some? {
            var t := Transcript(lines, pos + 1).value;
            WarningsAppend(evs, t.0, typs, sid);
            ReportedAppend(chunk, obs, Warnings(evs, typs, sid), Warnings(t.0, typs, sid));
          }
        case Ok(o) =>
          CollectSpec(lines, pos + 1, typs, chunk, sid, o);
          if Transcript(lines, pos + 1).Some? {
            var t := Transcript(lines, pos + 1).value;
            WarningsAppend(evs, t.0, typs, sid);
            SelectAppend(evs, t.0, typs);
            ReportedAppend(chunk, obs, Warnings(evs, typs, sid), Warnings(t.0, typs, sid));
          }
      }
    }
  }

  /** A request succeeds exactly when it reads a whole transcript and has a
      chunk to report its exceptions against (or none to report). */
  lemma CollectSucceeds(lines: seq<Line>, pos: nat, typs: set<Kind>, chunk: Option<View>, sid: Option<int>, obs: Observer)
    ensures Collect(lines, pos, typs, chunk, sid, obs).Ok?
        <==> Transcript(lines, pos).Some?
             && (chunk.Some? || Warnings(Transcript(lines, pos).value.0, typs, sid) == [])
  {
    CollectSpec(lines, pos, typs, chunk, sid, obs);
  }

  /** Asking for exceptions switches reporting off: the observer is untouched. */
  lemma AskedExceptionsNotReported(lines: seq<Line>, pos: nat, typs: set<Kind>, chunk: Option<View>, sid: Option<int>, obs: Observer)
    requires KExn in typs
    ensures var r := Collect(lines, pos, typs, chunk, sid, obs);
      r.Ok? <==> Transcript(lines, pos).Some?
    ensures var r := Collect(lines, pos, typs, chunk, sid, obs);
      r.Ok? ==> r.value.obs == obs
  {
    CollectSpec(lines, pos, typs, chunk, sid, obs);
    if Transcript(lines, pos).Some? {
      NoWarningsWhenAsked(Transcript(lines, pos).value.0, typs, sid);
    }
  }

  lemma {:induction false} NoWarningsWhenAsked(s: seq<Event>, typs: set<Kind>, sid: Option<int>)
    requires KExn in typs
    ensures Warnings(s, typs, sid) == []
  {
    if |s| > 0 {
      NoWarningsWhenAsked(s[1..], typs, sid);
    }
  }

  /** Each reported exception writes one error line after the earlier ones,
      and the exit code becomes at least 3. */
  lemma OneErrorPerReport(chunk: View, obs: Observer, ws: seq<Event>)
    requires forall i :: 0 <= i < |ws| ==> ws[i].Exn?
    requires forall i :: 0 <= i < |obs.notified| ==> Printable(obs.notified[i])
    ensures var r := Reported(Some(chunk), obs, ws);
      && r.Ok?
      && (forall i :: 0 <= i < |r.value.notified| ==> Printable(r.value.notified[i]))
      && |Stderr(r.value.notified)| == |Stderr(obs.notified)| + |ws|
      && Stderr(r.value.notified)[..|Stderr(obs.notified)|] == Stderr(obs.notified)
      && (|ws| > 0 ==> ExitCode(r.value.notified) >= 3)
  {
    if |ws| > 0 {
      var ns := ExnNotifications(chunk, ws);
      StderrAppend(obs.notified, ns);
      ExitCodeIsMaxLevel(obs.notified + ns);
      assert (obs.notified + ns)[|obs.notified|] == ns[0];
    }
  }
}

=== FILE: serapi_run.dfy ===
/** `SerAPI.run`: a chunk is split into sentences, each sentence is run and its
    goals are printed, and the messages are attached to their sentences at the
    end (or reported as orphaned). */
module SerapiRun {
  import opened Common
  import opened Numerals
  import opened Utf8
  import opened Positions
  import opened Observers
  import opened TextFormat
  import opened Fragments
  import opened SerapiProtocol
  import opened SerapiSession
  import opened Reports

  /** Where each sentence id's fragment sits in the fragment list. */
  type Index = map<int, nat>

  /** Every indexed fragment exists and is a sentence. */
  predicate WellIndexed(frs: seq<Fragment<string>>, byId: Index) {
    forall k :: k in byId ==> byId[k] < |frs| && frs[byId[k]].Sentence?
  }

  /** The state of the fragment loop of `run`. */
  datatype Built = Built(frs: seq<Fragment<string>>, byId: Index, msgs: seq<PrettyPrinted>, session: Session)

  /** The fragments `run` makes of `spans`: one per span, a sentence exactly
      for a sentence span, with the span's text (its bytes decoded), and without
      messages yet. */
  predicate FragmentsOf(frs: seq<Fragment<string>>, spans: seq<Span>) {
    && |frs| == |spans|
    && forall i :: 0 <= i < |frs| ==> FragmentOf(frs[i], spans[i])
  }

  /** The fragment `run` makes of one span. */
  predicate FragmentOf(f: Fragment<string>, sp: Span) {
    && (f.Sentence? <==> sp.sid.Some?)
    && EncodeString(f.contents) == sp.contents
    && (f.Sentence? ==> f.messages == [])
  }

  /** The id of a span, if it is a sentence. */
  function SidSet(sp: Span): set<int> {
    if sp.sid.Some? then {sp.sid.value} else {}
  }

  /** The ids of the sentence spans. */
  function IdSet(spans: seq<Span>): set<int> {
    set i | 0 <= i < |spans| && spans[i].sid.Some? :: spans[i].sid.value
  }

  /** Text between sentences joins the fragments. */
  function WithText(b: Built, contents: string): (r: Built)
    requires WellIndexed(b.frs, b.byId)
    ensures WellIndexed(r.frs, r.byId)
    ensures r.frs == b.frs + [Text(contents)] && r.byId == b.byId && r.msgs == b.msgs
  {
    b.(frs := b.frs + [Text(contents)])
  }

  /** A sentence joins the fragments, without messages, indexed by its id; a
      later sentence with the same id takes the id over. */
  function WithSentence(b: Built, contents: string, sid: int, goals: seq<Goal<string>>,
                        msgs: seq<PrettyPrinted>, session: Session): (r: Built)
    requires WellIndexed(b.frs, b.byId)
    ensures WellIndexed(r.frs, r.byId)
    ensures r.frs == b.frs + [Sentence(contents, [], goals)]
    ensures r.byId.Keys == b.byId.Keys + {sid} && r.byId[sid] == |b.frs|
    ensures forall k :: k in b.byId && k != sid ==> r.byId[k] == b.byId[k]
    ensures r.msgs == b.msgs + msgs && r.session == session
  {
    var frs := b.frs + [Sentence(contents, [], goals)];
    var byId := b.byId[sid := |b.frs|];
    assert WellIndexed(frs, byId) by {
      forall k | k in byId
        ensures byId[k] < |frs| && frs[byId[k]].Sentence?
      {
        if k != sid {
          assert frs[b.byId[k]] == b.frs[b.byId[k]];
        }
      }
    }
    Built(frs, byId, b.msgs + msgs, session)
  }

  /** `r` is `b` with the fragment of `sp` added: a sentence's id now points
      at it, the other ids are kept, and the messages its execution printed
      follow the pending ones. */
  predicate Extended(b: Built, r: Built, sp: Span, chunk: View) {
    && WellIndexed(r.frs, r.byId)
    && |r.frs| == |b.frs| + 1 && r.frs == b.frs + [r.frs[|b.frs|]]
    && FragmentOf(r.frs[|b.frs|], sp)
    && IndexExtended(|b.frs|, b.byId, r.byId, sp)
    && (sp.sid.None? ==> r.msgs == b.msgs)
    && (sp.sid.Some? ==>
          && Exec(b.session, sp.sid.value, chunk).Ok?
          && r.msgs == b.msgs + Exec(b.session, sp.sid.value, chunk).value.0)
  }

  /** `m1` is `m0` with the id of `sp`, if any, pointing at position `n`. */
  predicate IndexExtended(n: nat, m0: Index, m1: Index, sp: Span) {
    && m1.Keys == m0.Keys + SidSet(sp)
    && (sp.sid.Some? ==> m1[sp.sid.value] == n)
    && (forall k :: k in m0 && k !in SidSet(sp) ==> m1[k] == m0[k])
  }

  /** One turn of the fragment loop of `run`: the span is decoded strictly;
      text between sentences becomes `Text`; a sentence is executed (its
      messages join the pending ones) and its goals are printed. */
  function BuildOne(b: Built, chunk: View, sp: Span): (r: Result<Built, Fault>)
    requires WellIndexed(b.frs, b.byId)
    ensures r.Ok? ==> Extended(b, r.value, sp, chunk)
  {
    match DecodeStrict(sp.contents)
    case None => Fail(UnicodeDecodeError)
    case Some(contents) =>
      if sp.sid.None? then
        Ok(WithText(b, contents))
      else
        var sid := sp.sid.value;
        match Exec(b.session, sid, chunk)
        case Fail(f) => Fail(f)
        case Ok(e) =>
          match Goals(e.1, sid, chunk)
          case Fail(f) => Fail(f)
          case Ok(g) =>
            Ok(WithSentence(b, contents, sid, g.0, e.0, g.1))
  }

  /** `r` is `b` with the fragments of `spans` added, in order: each id of a
      span points at a fragment made from a span with that id, the other ids
      are kept, and the pending messages are only added to. */
  predicate Grown(b: Built, r: Built, spans: seq<Span>) {
    && WellIndexed(r.frs, r.byId)
    && FragmentsGrown(b.frs, r.frs, spans)
    && IndexGrown(|b.frs|, b.byId, r.byId, spans)
    && b.msgs <= r.msgs
  }

  /** `r` is `b` followed by the fragments of `spans`. */
  predicate FragmentsGrown(b: seq<Fragment<string>>, r: seq<Fragment<string>>, spans: seq<Span>) {
    |r| >= |b| && r[..|b|] == b && FragmentsOf(r[|b|..], spans)
  }

  /** `m1` is `m0` with the ids of `spans` pointing at positions from `n` on,
      each at a span with that id. */
  predicate IndexGrown(n: nat, m0: Index, m1: Index, spans: seq<Span>) {
    && m1.Keys == m0.Keys + IdSet(spans)
    && (forall k :: k in IdSet(spans) ==> n <= m1[k] < n + |spans| && spans[m1[k] - n].sid == Some(k))
    && (forall k :: k in m0 && k !in IdSet(spans) ==> m1[k] == m0[k])
  }

  /** The fragment loop of `run`, one span after the other. */
  function BuildFragments(b: Built, chunk: View, spans: seq<Span>): (r: Result<Built, Fault>)
    requires WellIndexed(b.frs, b.byId)
    ensures r.Ok? ==> Grown(b, r.value, spans)
    decreases |spans|
  {
    if |spans| == 0 then
      assert b.frs[|b.frs|..] == [];
      Ok(b)
    else
      match BuildOne(b, chunk, spans[0])
      case Fail(f) => Fail(f)
      case Ok(b1) =>
        match BuildFragments(b1, chunk, spans[1..])
        case Fail(f) => Fail(f)
        case Ok(r) =>
          GrownStep(b, b1, r, spans, chunk);
          Ok(r)
  }

  lemma GrownStep(b: Built, b1: Built, r: Built, spans: seq<Span>, chunk: View)
    requires |spans| > 0
    requires Extended(b, b1, spans[0], chunk) && Grown(b1, r, spans[1..])
    ensures Grown(b, r, spans)
  {
    FragmentsGrownStep(b.frs, b1.frs, r.frs, spans);
    IndexGrownStep(|b.frs|, |b1.frs|, spans, b.byId, b1.byId, r.byId);
  }

  /** The ids of a list of spans are those of its first span and of the rest. */
  lemma IdSetCons(spans: seq<Span>)
    requires |spans| > 0
    ensures IdSet(spans) == SidSet(spans[0]) + IdSet(spans[1..])
  {
    forall k | k in IdSet(spans[1..])
      ensures k in IdSet(spans)
    {
      var i :| 0 <= i < |spans[1..]| && spans[1..][i].sid == Some(k);
      assert spans[i + 1].sid == Some(k);
    }
    forall k | k in IdSet(spans) && k !in SidSet(spans[0])
      ensures k in IdSet(spans[1..])
    {
      var i :| 0 <= i < |spans| && spans[i].sid == Some(k);
      assert i > 0 && spans[1..][i - 1].sid == Some(k);
    }
  }

  /** The fragments after one span and then the rest. */
  lemma FragmentsGrownStep(b: seq<Fragment<string>>, b1: seq<Fragment<string>>, r: seq<Fragment<string>>, spans: seq<Span>)
    requires |spans| > 0
    requires |b1| == |b| + 1 && b1[..|b|] == b && FragmentOf(b1[|b|], spans[0])
    requires FragmentsGrown(b1, r, spans[1..])
    ensures FragmentsGrown(b, r, spans)
  {
    var n := |b|;
    assert r[..n] == r[..n + 1][..n];
    assert r[n] == b1[n];
    FragmentsStep(r, n, spans);
  }

  /** Where the ids point after one span and then the rest: `m0`, `m1` and
      `m2` are the index before, after the first span, and after the rest. */
  lemma IndexGrownStep(n: nat, n1: nat, spans: seq<Span>, m0: Index, m1: Index, m2: Index)
    requires |spans| > 0 && n1 == n + 1
    requires IndexExtended(n, m0, m1, spans[0]) && IndexGrown(n1, m1, m2, spans[1..])
    ensures IndexGrown(n, m0, m2, spans)
  {
    IdSetCons(spans);
    var first, rest := SidSet(spans[0]), IdSet(spans[1..]);
    forall k | k in first + rest
      ensures n <= m2[k] < n + |spans| && spans[m2[k] - n].sid == Some(k)
    {
      if k in rest {
        assert spans[1..][m2[k] - n1] == spans[m2[k] - n];
      }
    }
  }

  lemma FragmentsStep(frs: seq<Fragment<string>>, n: nat, spans: seq<Span>)
    requires n < |frs| && |spans| > 0
    requires FragmentOf(frs[n], spans[0]) && FragmentsOf(frs[n + 1..], spans[1..])
    ensures FragmentsOf(frs[n..], spans)
  {
    forall i | 1 <= i < |spans|
      ensures FragmentOf(frs[n..][i], spans[i])
    {
      assert frs[n..][i] == frs[n + 1..][i - 1] && spans[i] == spans[1..][i - 1];
    }
  }

  /** `_warn_orphaned`: a warning about the whole chunk, naming the sentence
      and quoting the message. */
  function OrphanNotification(chunk: View, m: PrettyPrinted): (n: Notification)
    ensures n.level == 2 && n.subject == chunk.text && Printable(n)
    ensures n.message == [Orphaned(m.sid), Quoted(m.pp)]
    ensures n.location == RangeOfSpan((0, |chunk.bytes|), chunk)
  {
    Notification(chunk.text, [Orphaned(m.sid), Quoted(m.pp)], RangeOfSpan((0, |chunk.bytes|), chunk), 2)
  }

  /** The messages whose sentence is not indexed, reported in order. */
  function Orphans(chunk: View, byId: Index, msgs: seq<PrettyPrinted>): (ns: seq<Notification>)
    ensures forall i :: 0 <= i < |ns| ==> Printable(ns[i]) && ns[i].level == 2
  {
    if |msgs| == 0 then []
    else (if msgs[0].sid in byId then [] else [OrphanNotification(chunk, msgs[0])]) + Orphans(chunk, byId, msgs[1..])
  }

  /** The messages that go to the fragment at `i`, in order. */
  function AttachedTo(byId: Index, msgs: seq<PrettyPrinted>, i: nat): (ms: seq<Message>) {
    if |msgs| == 0 then []
    else (if msgs[0].sid in byId && byId[msgs[0].sid] == i then [Message(msgs[0].pp)] else [])
         + AttachedTo(byId, msgs[1..], i)
  }

  /** `fragment.messages.append(Message(pp))` on the sentence indexed by `sid`. */
  function AppendMessage(frs: seq<Fragment<string>>, byId: Index, sid: int, pp: string): (r: seq<Fragment<string>>)
    requires WellIndexed(frs, byId) && sid in byId
    ensures WellIndexed(r, byId) && |r| == |frs|
    ensures forall i :: 0 <= i < |frs| && i != byId[sid] ==> r[i] == frs[i]
    ensures r[byId[sid]] == frs[byId[sid]].(messages := frs[byId[sid]].messages + [Message(pp)])
  {
    var j := byId[sid];
    var r := frs[j := frs[j].(messages := frs[j].messages + [Message(pp)])];
    assert WellIndexed(r, byId) by {
      forall k | k in byId
        ensures r[byId[k]].Sentence?
      {
        assert byId[k] != j ==> r[byId[k]] == frs[byId[k]];
      }
    }
    r
  }

  /** The message loop of `run`, for the fragments: each message whose sentence
      is indexed is appended to that sentence. */
  function Attach(frs: seq<Fragment<string>>, byId: Index, msgs: seq<PrettyPrinted>): (r: seq<Fragment<string>>)
    requires WellIndexed(frs, byId)
    ensures |r| == |frs|
    decreases |msgs|
  {
    if |msgs| == 0 then frs
    else if msgs[0].sid in byId then Attach(AppendMessage(frs, byId, msgs[0].sid, msgs[0].pp), byId, msgs[1..])
    else Attach(frs, byId, msgs[1..])
  }

  /** Attaching keeps every fragment's text, kind and goals, and leaves text
      fragments alone. */
  lemma {:induction false} AttachKeeps(frs: seq<Fragment<string>>, byId: Index, msgs: seq<PrettyPrinted>, i: nat)
    requires WellIndexed(frs, byId) && i < |frs|
    ensures var r := Attach(frs, byId, msgs);
      && r[i].contents == frs[i].contents
      && (frs[i].Text? ==> r[i] == frs[i])
      && (frs[i].Sentence? ==> r[i].Sentence? && r[i].goals == frs[i].goals)
    decreases |msgs|
  {
    if |msgs| > 0 {
      if msgs[0].sid in byId {
        AttachKeeps(AppendMessage(frs, byId, msgs[0].sid, msgs[0].pp), byId, msgs[1..], i);
      } else {
        AttachKeeps(frs, byId, msgs[1..], i);
      }
    }
  }

  /** Attaching gives each sentence the messages addressed to it, in order,
      after the ones it had. */
  lemma {:induction false} AttachMessages(frs: seq<Fragment<string>>, byId: Index, msgs: seq<PrettyPrinted>, i: nat)
    requires WellIndexed(frs, byId) && i < |frs| && frs[i].Sentence?
    ensures var r := Attach(frs, byId, msgs);
      r[i].Sentence? && r[i].messages == frs[i].messages + AttachedTo(byId, msgs, i)
    decreases |msgs|
  {
    if |msgs| == 0 {
      assert frs[i].messages + [] == frs[i].messages;
    } else if msgs[0].sid in byId {
      var m := Message(msgs[0].pp);
      var frs1 := AppendMessage(frs, byId, msgs[0].sid, msgs[0].pp);
      AttachMessages(frs1, byId, msgs[1..], i);
      assert Attach(frs, byId, msgs) == Attach(frs1, byId, msgs[1..]);
      if i == byId[msgs[0].sid] {
        assert frs1[i].messages == frs[i].messages + [m];
        assert AttachedTo(byId, msgs, i) == [m] + AttachedTo(byId, msgs[1..], i);
        AppendAssoc(frs[i].messages, [m], AttachedTo(byId, msgs[1..], i));
      } else {
        assert frs1[i] == frs[i];
        assert AttachedTo(byId, msgs, i) == [] + AttachedTo(byId, msgs[1..], i);
      }
    } else {
      AttachMessages(frs, byId, msgs[1..], i);
      assert AttachedTo(byId, msgs, i) == [] + AttachedTo(byId, msgs[1..], i);
    }
  }

  /** The first half of `SerAPI.run`: the chunk is added, and the spans `sertop`
      cut it into become fragments, starting from the messages `_add` printed. */
  function Build(s: Session, chunk: View): (r: Result<Built, Fault>)
    ensures r.Ok? ==> Add(s, chunk).Ok?
    ensures r.Ok? ==>
      var a := Add(s, chunk).value;
      Grown(Built([], map[], a.1, a.2), r.value, a.0)
  {
    match Add(s, chunk)
    case Fail(f) => Fail(f)
    case Ok(a) => BuildFragments(Built([], map[], a.1, a.2), chunk, a.0)
  }

  /** `SerAPI.run`: adds the chunk, builds its fragments, then attaches the
      messages, warning about the orphaned ones as it meets them. Appending and
      warning do not interact, so the two halves of the message loop are
      written apart. */
  function Run(s: Session, text: string, anchor: Option<Anchor>): (r: Result<(seq<Fragment<string>>, Session), Fault>)
  {
    var chunk := MakeView(text, anchor);
    match Build(s, chunk)
    case Fail(f) => Fail(f)
    case Ok(b) =>
      var obs := NotifyAll(b.session.obs, Orphans(chunk, b.byId, b.msgs));
      Ok((Attach(b.frs, b.byId, b.msgs), b.session.(obs := obs)))
  }

  // ---------------------------------------------------------------------------
  // The fragments of a run put back together are the chunk.

  lemma {:induction false} JoinedEncodes(frs: seq<Fragment<string>>, spans: seq<Span>)
    requires |frs| == |spans|
    requires forall i :: 0 <= i < |frs| ==> EncodeString(frs[i].contents) == spans[i].contents
    ensures EncodeString(Joined(frs)) == SpanBytes(spans)
    decreases |frs|
  {
    if |frs| > 0 {
      var n := |frs| - 1;
      var init := frs[..n];
      JoinedEncodes(init, spans[..n]);
      SpanBytesAppend(spans[..n], [spans[n]]);
      InitLast(spans);
      assert SpanBytes([spans[n]]) == spans[n].contents + [];
      assert Joined(frs) == Joined(init) + frs[n].contents;
      EncodeStringAppend(Joined(init), frs[n].contents);
    }
  }

  lemma {:induction false} JoinedSameContents(a: seq<Fragment<string>>, b: seq<Fragment<string>>)
    requires |a| == |b|
    requires forall i :: 0 <= i < |a| ==> a[i].contents == b[i].contents
    ensures Joined(a) == Joined(b)
    decreases |a|
  {
    if |a| > 0 {
      JoinedSameContents(a[..|a| - 1], b[..|b| - 1]);
    }
  }

  lemma EncodeStringInjective(x: string, y: string)
    requires EncodeString(x) == EncodeString(y)
    ensures x == y
  {
    DecodeStrictEncode(x);
    DecodeStrictEncode(y);
  }

  /** When `sertop` answers the chunk with sentences that lie in order within
      it, the fragments `run` returns put back together are exactly the chunk. */
  lemma RunJoinsBack(s: Session, text: string, anchor: Option<Anchor>)
    requires Transcript(s.lines, s.pos).Some?
    requires Tiles(Transcript(s.lines, s.pos).value.0, 0, |EncodeString(text)|)
    ensures Run(s, text, anchor).Ok? ==> Joined(Run(s, text, anchor).value.0) == text
  {
    var chunk := MakeView(text, anchor);
    var t := Transcript(s.lines, s.pos).value.0;
    match Build(s, chunk)
    case Fail(_) =>
    case Ok(b) =>
      AddSpec(s, chunk);
      var a := Add(s, chunk).value;
      SpansOfSelection(chunk.bytes, t, 0);
      SpansCoverChunk(chunk.bytes, Select(t, {KAdded, KMsg}), 0);
      assert b.frs[0..] == b.frs;
      JoinedEncodes(b.frs, a.0);
      EncodeStringInjective(Joined(b.frs), text);
      var frs := Attach(b.frs, b.byId, b.msgs);
      forall i | 0 <= i < |frs|
        ensures frs[i].contents == b.frs[i].contents
      {
        AttachKeeps(b.frs, b.byId, b.msgs, i);
      }
      JoinedSameContents(frs, b.frs);
  }

  /** The positions of the messages whose sentence is not indexed. */
  function OrphanIndices(byId: Index, msgs: seq<PrettyPrinted>): set<nat> {
    set i: nat | i < |msgs| && msgs[i].sid !in byId
  }

  lemma {:induction false} OrphansAppend(chunk: View, byId: Index, a: seq<PrettyPrinted>, b: seq<PrettyPrinted>)
    ensures Orphans(chunk, byId, a + b) == Orphans(chunk, byId, a) + Orphans(chunk, byId, b)
    decreases |a|
  {
    if |a| > 0 {
      assert (a + b)[1..] == a[1..] + b;
      OrphansAppend(chunk, byId, a[1..], b);
    } else {
      assert a + b == b;
    }
  }

  /** `Orphans` of a message list, split off its last message. */
  lemma OrphansSnoc(chunk: View, byId: Index, msgs: seq<PrettyPrinted>)
    requires |msgs| > 0
    ensures var k := |msgs| - 1;
      Orphans(chunk, byId, msgs) == Orphans(chunk, byId, msgs[..k])
        + (if msgs[k].sid in byId then [] else [OrphanNotification(chunk, msgs[k])])
  {
    var k := |msgs| - 1;
    InitLast(msgs);
    OrphansAppend(chunk, byId, msgs[..k], [msgs[k]]);
    assert [msgs[k]][1..] == [];
  }

  /** There are as many warnings as messages whose sentence is not indexed. */
  lemma {:induction false} OrphansCount(chunk: View, byId: Index, msgs: seq<PrettyPrinted>)
    ensures |Orphans(chunk, byId, msgs)| == |OrphanIndices(byId, msgs)|
    decreases |msgs|
  {
    if |msgs| == 0 {
      assert OrphanIndices(byId, msgs) == {};
    } else {
      var k := |msgs| - 1;
      OrphansSnoc(chunk, byId, msgs);
      OrphansCount(chunk, byId, msgs[..k]);
      OrphanIndicesSnoc(byId, msgs);
    }
  }

  /** The orphaned positions of a message list, split off its last message. */
  lemma OrphanIndicesSnoc(byId: Index, msgs: seq<PrettyPrinted>)
    requires |msgs| > 0
    ensures var k := |msgs| - 1;
      var before := OrphanIndices(byId, msgs[..k]);
      && k !in before
      && OrphanIndices(byId, msgs) == before + (if msgs[k].sid in byId then {} else {k})
  {
    var k := |msgs| - 1;
    forall i: nat | i < k
      ensures msgs[i] == msgs[..k][i]
    {
    }
  }

  /** Every orphaned message is warned about. */
  lemma {:induction false} OrphansCover(chunk: View, byId: Index, msgs: seq<PrettyPrinted>)
    ensures forall i :: 0 <= i < |msgs| && msgs[i].sid !in byId ==>
      OrphanNotification(chunk, msgs[i]) in Orphans(chunk, byId, msgs)
    decreases |msgs|
  {
    if |msgs| > 0 {
      var k := |msgs| - 1;
      OrphansSnoc(chunk, byId, msgs);
      OrphansCover(chunk, byId, msgs[..k]);
      forall i | 0 <= i < |msgs| && msgs[i].sid !in byId
        ensures OrphanNotification(chunk, msgs[i]) in Orphans(chunk, byId, msgs)
      {
        if i < k {
          assert msgs[..k][i] == msgs[i];
        }
      }
    }
  }

  /** Every warning is about an orphaned message. */
  lemma {:induction false} OrphansOnly(chunk: View, byId: Index, msgs: seq<PrettyPrinted>)
    ensures forall n :: n in Orphans(chunk, byId, msgs) ==>
      exists i :: 0 <= i < |msgs| && msgs[i].sid !in byId && n == OrphanNotification(chunk, msgs[i])
    decreases |msgs|
  {
    if |msgs| > 0 {
      var k := |msgs| - 1;
      OrphansSnoc(chunk, byId, msgs);
      OrphansOnly(chunk, byId, msgs[..k]);
      forall n | n in Orphans(chunk, byId, msgs)
        ensures exists i :: 0 <= i < |msgs| && msgs[i].sid !in byId && n == OrphanNotification(chunk, msgs[i])
      {
        if n in Orphans(chunk, byId, msgs[..k]) {
          var i :| 0 <= i < k && msgs[..k][i].sid !in byId && n == OrphanNotification(chunk, msgs[..k][i]);
          assert msgs[i] == msgs[..k][i];
        } else {
          assert n == OrphanNotification(chunk, msgs[k]);
        }
      }
    }
  }

  /** After the chunk is added and its fragments are built, a run reports one
      warning per orphaned message (a message whose sentence id is not among
      the chunk's sentences) and nothing else; the exit code is at least 2
      when there is one. */
  lemma RunOrphanWarnings(s: Session, text: string, anchor: Option<Anchor>)
    ensures var chunk := MakeView(text, anchor);
      var r := Run(s, text, anchor);
      r.Ok? ==>
        && Add(s, chunk).Ok? && Build(s, chunk).Ok?
        && var b := Build(s, chunk).value;
        && var ns := Orphans(chunk, b.byId, b.msgs);
        && r.value.1.obs.notified == b.session.obs.notified + ns
        && b.byId.Keys == IdSet(Add(s, chunk).value.0)
        && |ns| == |OrphanIndices(b.byId, b.msgs)|
        && (ns != [] ==> ExitCode(r.value.1.obs.notified) >= 2)
  {
    var chunk := MakeView(text, anchor);
    match Build(s, chunk)
    case Fail(_) =>
    case Ok(b) =>
      var ns := Orphans(chunk, b.byId, b.msgs);
      OrphansCount(chunk, b.byId, b.msgs);
      var all := b.session.obs.notified + ns;
      ExitCodeIsMaxLevel(all);
      if ns != [] {
        assert all[|b.session.obs.notified|] == ns[0];
      }
  }

  /** Where a run's messages go: the messages `_add` printed come first, each
      sentence id points at a span of the chunk with that id, and each
      sentence returned carries exactly the messages addressed to it, in the
      order they were printed. */
  lemma RunRoutesMessages(s: Session, text: string, anchor: Option<Anchor>)
    ensures var chunk := MakeView(text, anchor);
      var r := Run(s, text, anchor);
      r.Ok? ==>
        && Add(s, chunk).Ok? && Build(s, chunk).Ok?
        && var a := Add(s, chunk).value;
        && var b := Build(s, chunk).value;
        && |b.msgs| >= |a.1| && b.msgs[..|a.1|] == a.1
        && |r.value.0| == |b.frs| == |a.0|
        && (forall k :: k in b.byId ==> b.byId[k] < |a.0| && a.0[b.byId[k]].sid == Some(k))
        && (forall i :: 0 <= i < |a.0| && a.0[i].sid.Some? ==>
              r.value.0[i].Sentence? && r.value.0[i].messages == AttachedTo(b.byId, b.msgs, i))
  {
    var chunk := MakeView(text, anchor);
    match Build(s, chunk)
    case Fail(_) =>
    case Ok(b) =>
      var a := Add(s, chunk).value;
      assert b.frs[0..] == b.frs;
      var frs := Attach(b.frs, b.byId, b.msgs);
      forall i | 0 <= i < |a.0| && a.0[i].sid.Some?
        ensures frs[i].Sentence? && frs[i].messages == AttachedTo(b.byId, b.msgs, i)
      {
        AttachMessages(b.frs, b.byId, b.msgs, i);
        assert [] + AttachedTo(b.byId, b.msgs, i) == AttachedTo(b.byId, b.msgs, i);
      }
  }

  /** The message of an orphaned one-line message, as written: the header
      names the sentence, and the quoted text follows on a continuation line
      indented by three spaces. */
  lemma OrphanLine(chunk: View, m: PrettyPrinted)
    requires m.pp != [] && '\n' !in m.pp && !IsSpace(m.pp[|m.pp| - 1])
    ensures Reflow(Paragraphs(OrphanNotification(chunk, m).message))
      == (OrphanHeader + Decimal(m.sid) + ":") + "\n   " + (OrphanQuote + m.pp)
  {
    QuotesNotBlank();
    IndentOneLine(m.pp, OrphanQuote);
    ParagraphsTwo(Orphaned(m.sid), Quoted(m.pp));
    OrphanPiecesOneLine(m);
    ReflowTwoLines(OrphanHeader + Decimal(m.sid) + ":", OrphanQuote + m.pp);
  }

  /** The header and the quoted text of a one-line message are single lines,
      and the quoted text does not end in a space. */
  lemma OrphanPiecesOneLine(m: PrettyPrinted)
    requires m.pp != [] && '\n' !in m.pp && !IsSpace(m.pp[|m.pp| - 1])
    ensures '\n' !in OrphanHeader + Decimal(m.sid) + ":"
    ensures var q := OrphanQuote + m.pp; '\n' !in q && |q| > 0 && !IsSpace(q[|q| - 1])
  {
    var q := OrphanQuote + m.pp;
    assert q[|q| - 1] == m.pp[|m.pp| - 1];
  }

  /** The orphan-warning case of `recipes/tests/errors.py`: an orphaned
      message for sentence 0 of a chunk without a position sets the exit code
      to 2 and writes one line, which names the orphaned message. */
  lemma OrphanWarningExample()
    ensures var chunk := View("chunk", EncodeString("chunk"), None);
      var o := Notify(Fresh, OrphanNotification(chunk, PrettyPrinted(0, "pp")));
      && ExitCode(o.notified) == 2
      && Stderr(o.notified)
         == ["!!" + " (" + "WARNING" + "/" + "2" + ") "
             + ((OrphanHeader + "0" + ":") + "\n   " + (OrphanQuote + "pp")) + "\n"]
  {
    var chunk := View("chunk", EncodeString("chunk"), None);
    var n := OrphanNotification(chunk, PrettyPrinted(0, "pp"));
    OrphanLine(chunk, PrettyPrinted(0, "pp"));
    assert Decimal(0) == "0" && Decimal(2) == "2";
    assert [n][..0] == [];
  }
}

=== FILE: serapi_session.dfy ===
/** The requests the SerAPI driver sends on behalf of a chunk (`_pprint`, `_exec`,
    `_add`, `_goals` and the goal and hypothesis printers), each followed by the
    `_collect_messages` read of its answer. Writing to `sertop` becomes appending
    the request to the list of requests sent. */
module SerapiSession {
  import opened Common
  import opened Positions
  import opened Observers
  import opened Fragments
  import opened SerapiProtocol

  /** `SerAPI.MIN_PP_MARGIN`. */
  const MinPpMargin: int := 20
  /** `SerAPI.DEFAULT_PP_ARGS`. */
  const DefaultPpDepth: int := 30
  const DefaultPpMargin: int := 55

  /** The printers a `Print` request names. */
  datatype PpKind = CoqPp | CoqExpr

  /** The requests written to `sertop` (`Add`, `Exec`, the `EGoals` query and
      `Print` with its `pp_depth` and `pp_margin`). */
  datatype Request =
    | AddChunk(chunk: seq<byte>)
    | ExecSentence(sid: int)
    | QueryGoals(sid: int)
    | Print(sid: int, kind: PpKind, obj: Obj, depth: int, margin: int)

  /** The driver's state: the lines `sertop` prints (and how many were read), the
      requests sent, the observer, and the printing arguments. */
  datatype Session = Session(lines: seq<Line>, pos: nat, sent: seq<Request>, obs: Observer,
                             ppDepth: int, ppMargin: int)

  /** A new driver: the given printing arguments override the defaults. */
  function Start(lines: seq<Line>, obs: Observer, depth: Option<int>, margin: Option<int>): (s: Session)
    ensures s.pos == 0 && s.sent == []
    ensures s.ppDepth == (if depth.Some? then depth.value else 30)
    ensures s.ppMargin == (if margin.Some? then margin.value else 55)
  {
    Session(lines, 0, [], obs,
            if depth.Some? then depth.value else DefaultPpDepth,
            if margin.Some? then margin.value else DefaultPpMargin)
  }

  /** `_send` then `_collect_messages`, read to the end. */
  function Ask(s: Session, req: Request, typs: set<Kind>, chunk: Option<View>, sid: Option<int>)
    : (r: Result<(seq<Event>, Session), Fault>)
    ensures r.Ok? ==> forall i :: 0 <= i < |r.value.0| ==> Yields(r.value.0[i], typs)
  {
    match Collect(s.lines, s.pos, typs, chunk, sid, s.obs)
    case Fail(f) => Fail(f)
    case Ok(c) =>
      CollectSpec(s.lines, s.pos, typs, chunk, sid, s.obs);
      Ok((c.events, s.(pos := c.next, sent := s.sent + [req], obs := c.obs)))
  }

  /** A request reads its transcript: it fails when there is none; otherwise
      the events handed over are the chosen ones of the transcript, the request
      joins the ones sent and the lines read are the transcript's. */
  lemma AskEvents(s: Session, req: Request, typs: set<Kind>, chunk: Option<View>, sid: Option<int>)
    ensures var r := Ask(s, req, typs, chunk, sid);
      && (Transcript(s.lines, s.pos).None? ==> r.Fail?)
      && (r.Ok? ==>
            && Transcript(s.lines, s.pos).Some?
            && r.value.0 == Select(Transcript(s.lines, s.pos).value.0, typs)
            && r.value.1 == s.(pos := Transcript(s.lines, s.pos).value.1, sent := s.sent + [req], obs := r.value.1.obs))
  {
    CollectSpec(s.lines, s.pos, typs, chunk, sid, s.obs);
  }

  /** The exceptions of the transcript a request is interested in are reported
      to the observer; a request fails exactly when they cannot be. */
  lemma AskReports(s: Session, req: Request, typs: set<Kind>, chunk: Option<View>, sid: Option<int>)
    requires Transcript(s.lines, s.pos).Some?
    ensures var r := Ask(s, req, typs, chunk, sid);
      var reported := Reported(chunk, s.obs, Warnings(Transcript(s.lines, s.pos).value.0, typs, sid));
      && (r.Ok? <==> reported.Ok?)
      && (r.Fail? ==> r.error == reported.error)
      && (r.Ok? ==> r.value.1.obs == reported.value)
  {
    CollectSpec(s.lines, s.pos, typs, chunk, sid, s.obs);
  }

  /** `_pprint`: nothing to print gives nothing, without a request; otherwise
      the `Print` answer must hold exactly one string. No chunk is passed, so an
      exception reported in the answer raises `TypeError`. */
  function Pprint(s: Session, obj: Option<Obj>, sid: int, kind: PpKind, depth: int, margin: int)
    : (r: Result<(Option<string>, Session), Fault>)
    ensures obj.None? ==> r == Ok((None, s))
    ensures obj.Some? && r.Ok? ==> r.value.0.Some?
  {
    if obj.None? then Ok((None, s))
    else
      match Ask(s, Print(sid, kind, obj.value, depth, margin), {KStr}, None, Some(sid))
      case Fail(f) => Fail(f)
      case Ok(a) =>
        var strings := a.0;
        if |strings| == 0 then Fail(UnexpectedError(NoStringFound))
        else if |strings| > 1 then Fail(AssertionError)
        else
          assert Yields(strings[0], {KStr});
          Ok((Some(strings[0].s), a.1))
  }

  /** Printing an object sends one `Print` request with the given printer and
      arguments, and the text printed is the one string of the answer; the
      lines and the printing arguments of the session are kept. */
  lemma PprintSpec(s: Session, obj: Obj, sid: int, kind: PpKind, depth: int, margin: int)
    ensures var r := Pprint(s, Some(obj), sid, kind, depth, margin);
      r.Ok? ==>
        && Transcript(s.lines, s.pos).Some?
        && Select(Transcript(s.lines, s.pos).value.0, {KStr}) == [Str(r.value.0.value)]
        && r.value.1.sent == s.sent + [Print(sid, kind, obj, depth, margin)]
        && r.value.1.lines == s.lines
        && r.value.1.ppDepth == s.ppDepth && r.value.1.ppMargin == s.ppMargin
  {
    AskEvents(s, Print(sid, kind, obj, depth, margin), {KStr}, None, Some(sid));
  }

  /** The outcome of printing an object, by the strings and the exceptions of
      the answer: exactly one string and no reported exception succeeds. */
  lemma PprintOutcome(s: Session, obj: Obj, sid: int, kind: PpKind, depth: int, margin: int)
    requires Transcript(s.lines, s.pos).Some?
    ensures var t := Transcript(s.lines, s.pos).value.0;
      var strings := Select(t, {KStr});
      var r := Pprint(s, Some(obj), sid, kind, depth, margin);
      && (Warnings(t, {KStr}, Some(sid)) != [] ==> r == Fail(TypeError))
      && (Warnings(t, {KStr}, Some(sid)) == [] ==>
            && (|strings| == 0 ==> r == Fail(UnexpectedError(NoStringFound)))
            && (|strings| > 1 ==> r == Fail(AssertionError))
            && (|strings| == 1 ==> r.Ok? && r.value.0 == Some(strings[0].s)))
  {
    var t := Transcript(s.lines, s.pos).value.0;
    var strings := Select(t, {KStr});
    AskEvents(s, Print(sid, kind, obj, depth, margin), {KStr}, None, Some(sid));
    AskReports(s, Print(sid, kind, obj, depth, margin), {KStr}, None, Some(sid));
    if |strings| == 1 {
      assert Yields(strings[0], {KStr});
    }
  }

  /** The result of printing a message: its sentence and its text. */
  datatype PrettyPrinted = PrettyPrinted(sid: int, pp: string)

  /** The `Print` requests that printing `msgs` sends. */
  function MessagePrints(msgs: seq<Event>, depth: int, margin: int): (reqs: seq<Request>)
    requires forall i :: 0 <= i < |msgs| ==> msgs[i].Msg?
    ensures |reqs| == |msgs|
    ensures forall i :: 0 <= i < |msgs| ==> reqs[i] == Print(msgs[i].sid, CoqPp, msgs[i].msg, depth, margin)
  {
    if |msgs| == 0 then []
    else [Print(msgs[0].sid, CoqPp, msgs[0].msg, depth, margin)] + MessagePrints(msgs[1..], depth, margin)
  }

  /** `[self._pprint_message(msg) for msg in msgs]`: each message printed with
      the `CoqPp` printer and the session's printing arguments, in order. */
  function PprintMessages(s: Session, msgs: seq<Event>): (r: Result<(seq<PrettyPrinted>, Session), Fault>)
    requires forall i :: 0 <= i < |msgs| ==> msgs[i].Msg?
    ensures r.Ok? ==> |r.value.0| == |msgs|
    decreases |msgs|
  {
    if |msgs| == 0 then Ok(([], s))
    else
      var m := msgs[0];
      match Pprint(s, Some(m.msg), m.sid, CoqPp, s.ppDepth, s.ppMargin)
      case Fail(f) => Fail(f)
      case Ok(a) =>
        match PprintMessages(a.1, msgs[1..])
        case Fail(f) => Fail(f)
        case Ok(b) => Ok(([PrettyPrinted(m.sid, a.0.value)] + b.0, b.1))
  }

  /** Printing messages keeps their order and their sentences, sends one
      `Print` per message and keeps the lines and the printing arguments. */
  lemma {:induction false} PprintMessagesSpec(s: Session, msgs: seq<Event>)
    requires forall i :: 0 <= i < |msgs| ==> msgs[i].Msg?
    ensures var r := PprintMessages(s, msgs);
      r.Ok? ==>
        && (forall i :: 0 <= i < |msgs| ==> r.value.0[i].sid == msgs[i].sid)
        && r.value.1.sent == s.sent + MessagePrints(msgs, s.ppDepth, s.ppMargin)
        && r.value.1.ppDepth == s.ppDepth && r.value.1.ppMargin == s.ppMargin
        && r.value.1.lines == s.lines
    decreases |msgs|
  {
    if |msgs| > 0 {
      var m := msgs[0];
      var req := Print(m.sid, CoqPp, m.msg, s.ppDepth, s.ppMargin);
      PprintSpec(s, m.msg, m.sid, CoqPp, s.ppDepth, s.ppMargin);
      match Pprint(s, Some(m.msg), m.sid, CoqPp, s.ppDepth, s.ppMargin)
      case Fail(_) =>
      case Ok(a) =>
        PprintMessagesSpec(a.1, msgs[1..]);
        AppendAssoc(s.sent, [req], MessagePrints(msgs[1..], s.ppDepth, s.ppMargin));
    }
  }

  /** The messages among `evs`, in order. */
  function Messages(evs: seq<Event>): (msgs: seq<Event>)
    ensures forall i :: 0 <= i < |msgs| ==> msgs[i].Msg?
  {
    if |evs| == 0 then []
    else (if evs[0].Msg? then [evs[0]] else []) + Messages(evs[1..])
  }

  /** Only messages are handed over for a request that asks for messages only. */
  lemma {:induction false} MessagesOfMessageRequest(t: seq<Event>)
    ensures Messages(Select(t, {KMsg})) == Select(t, {KMsg})
  {
    if |t| > 0 {
      MessagesOfMessageRequest(t[1..]);
      var head := if Yields(t[0], {KMsg}) then [t[0]] else [];
      MessagesAppend(head, Select(t[1..], {KMsg}));
    }
  }

  lemma {:induction false} MessagesAppend(a: seq<Event>, b: seq<Event>)
    ensures Messages(a + b) == Messages(a) + Messages(b)
  {
    if |a| > 0 {
      assert (a + b)[0] == a[0] && (a + b)[1..] == a[1..] + b;
      MessagesAppend(a[1..], b);
      AppendAssoc(if a[0].Msg? then [a[0]] else [], Messages(a[1..]), Messages(b));
    } else {
      assert a + b == b;
    }
  }

  /** `_exec`: runs sentence `sid` and prints the messages of the answer. */
  function Exec(s: Session, sid: int, chunk: View): (r: Result<(seq<PrettyPrinted>, Session), Fault>)
  {
    match Ask(s, ExecSentence(sid), {KMsg}, Some(chunk), Some(sid))
    case Fail(f) => Fail(f)
    case Ok(a) =>
      assert forall i :: 0 <= i < |a.0| ==> Yields(a.0[i], {KMsg});
      PprintMessages(a.1, a.0)
  }

  /** Running a sentence prints the messages of its transcript, one for each in
      order, after sending `Exec` and then one `Print` per message. */
  lemma ExecSpec(s: Session, sid: int, chunk: View)
    ensures var r := Exec(s, sid, chunk);
      r.Ok? ==>
        && Transcript(s.lines, s.pos).Some?
        && var msgs := Select(Transcript(s.lines, s.pos).value.0, {KMsg});
        && |r.value.0| == |msgs|
        && (forall i :: 0 <= i < |msgs| ==> msgs[i].Msg? && r.value.0[i].sid == msgs[i].sid)
        && r.value.1.sent == s.sent + [ExecSentence(sid)] + MessagePrints(msgs, s.ppDepth, s.ppMargin)
  {
    AskEvents(s, ExecSentence(sid), {KMsg}, Some(chunk), Some(sid));
    match Ask(s, ExecSentence(sid), {KMsg}, Some(chunk), Some(sid))
    case Fail(_) =>
    case Ok(a) =>
      AnswerPrinted(a.1, a.0);
  }

  lemma AnswerPrinted(s: Session, msgs: seq<Event>)
    requires forall i :: 0 <= i < |msgs| ==> Yields(msgs[i], {KMsg})
    ensures forall i :: 0 <= i < |msgs| ==> msgs[i].Msg?
    ensures var r := PprintMessages(s, msgs);
      r.Ok? ==>
        && |r.value.0| == |msgs|
        && (forall i :: 0 <= i < |msgs| ==> r.value.0[i].sid == msgs[i].sid)
        && r.value.1.sent == s.sent + MessagePrints(msgs, s.ppDepth, s.ppMargin)
  {
    assert forall i :: 0 <= i < |msgs| ==> msgs[i].Msg?;
    PprintMessagesSpec(s, msgs);
  }

  // ---------------------------------------------------------------------------
  // `_add`: the spans of a chunk.

  /** A piece of the chunk: a sentence's text (with its id) or the text between
      sentences. */
  datatype Span = Span(sid: Option<int>, contents: seq<byte>)

  /** The span loop of `_add`: each `Added` answer contributes the text since the
      previous sentence when there is some, then its own text; the text after the
      last sentence closes the list. Python's slicing rules apply to the bounds. */
  function Spans(chunk: seq<byte>, evs: seq<Event>, prevEnd: int): (spans: seq<Span>)
    decreases |evs|
  {
    if |evs| == 0 then
      if prevEnd != |chunk| then [Span(None, Slice(chunk, prevEnd, |chunk|))] else []
    else if evs[0].Added? then
      var start, end := evs[0].span.0, evs[0].span.1;
      (if start != prevEnd then [Span(None, Slice(chunk, prevEnd, start))] else [])
        + [Span(Some(evs[0].sid), Slice(chunk, start, end))]
        + Spans(chunk, evs[1..], end)
    else Spans(chunk, evs[1..], prevEnd)
  }

  /** `_add`: sends the chunk, splits it along the `Added` answers and prints
      the messages that came with them. */
  function Add(s: Session, chunk: View): (r: Result<(seq<Span>, seq<PrettyPrinted>, Session), Fault>)
  {
    match Ask(s, AddChunk(chunk.bytes), {KAdded, KMsg}, Some(chunk), None)
    case Fail(f) => Fail(f)
    case Ok(a) =>
      var evs := a.0;
      match PprintMessages(a.1, Messages(evs))
      case Fail(f) => Fail(f)
      case Ok(b) => Ok((Spans(chunk.bytes, evs, 0), b.0, b.1))
  }

  /** Adding a chunk cuts it along the `Added` answers of its transcript and
      prints the messages among the answers, after sending `Add` and then one
      `Print` per message. */
  lemma AddSpec(s: Session, chunk: View)
    ensures var r := Add(s, chunk);
      r.Ok? ==>
        && Transcript(s.lines, s.pos).Some?
        && var evs := Select(Transcript(s.lines, s.pos).value.0, {KAdded, KMsg});
        && r.value.0 == Spans(chunk.bytes, evs, 0)
        && |r.value.1| == |Messages(evs)|
        && r.value.2.sent == s.sent + [AddChunk(chunk.bytes)] + MessagePrints(Messages(evs), s.ppDepth, s.ppMargin)
  {
    AskEvents(s, AddChunk(chunk.bytes), {KAdded, KMsg}, Some(chunk), None);
    match Ask(s, AddChunk(chunk.bytes), {KAdded, KMsg}, Some(chunk), None)
    case Fail(_) =>
    case Ok(a) =>
      PprintMessagesSpec(a.1, Messages(a.0));
  }

  /** The `Added` answers lie in order within `[from, n]`: each starts no earlier
      than the previous one ended and ends no earlier than it starts. */
  predicate Tiles(evs: seq<Event>, from: int, n: int)
    decreases |evs|
  {
    if |evs| == 0 then 0 <= from <= n
    else if evs[0].Added? then
      0 <= from <= evs[0].span.0 <= evs[0].span.1 && Tiles(evs[1..], evs[0].span.1, n)
    else Tiles(evs[1..], from, n)
  }

  /** The bytes of a list of spans, in order. */
  function SpanBytes(spans: seq<Span>): seq<byte> {
    if |spans| == 0 then [] else spans[0].contents + SpanBytes(spans[1..])
  }

  lemma {:induction false} SpanBytesAppend(a: seq<Span>, b: seq<Span>)
    ensures SpanBytes(a + b) == SpanBytes(a) + SpanBytes(b)
  {
    if |a| > 0 {
      assert (a + b)[0] == a[0] && (a + b)[1..] == a[1..] + b;
      SpanBytesAppend(a[1..], b);
      AppendAssoc(a[0].contents, SpanBytes(a[1..]), SpanBytes(b));
    } else {
      assert a + b == b;
    }
  }

  /** When the sentences lie in order within the chunk, the spans cover it
      exactly: their bytes put back together are the chunk from `prevEnd` on. */
  lemma {:induction false} SpansCoverChunk(chunk: seq<byte>, evs: seq<Event>, prevEnd: int)
    requires Tiles(evs, prevEnd, |chunk|)
    ensures 0 <= prevEnd <= |chunk|
    ensures SpanBytes(Spans(chunk, evs, prevEnd)) == chunk[prevEnd..]
    decreases |evs|
  {
    if |evs| == 0 {
      if prevEnd == |chunk| {
        assert chunk[prevEnd..] == [];
      } else {
        assert SpanBytes([Span(None, chunk[prevEnd..])]) == chunk[prevEnd..] + [];
      }
    } else if evs[0].Added? {
      var start, end := evs[0].span.0, evs[0].span.1;
      SpansCoverChunk(chunk, evs[1..], end);
      var gap := if start != prevEnd then [Span(None, chunk[prevEnd..start])] else [];
      var own := [Span(Some(evs[0].sid), chunk[start..end])];
      var rest := Spans(chunk, evs[1..], end);
      SpanBytesAppend(gap + own, rest);
      SpanBytesAppend(gap, own);
      assert SpanBytes(own) == chunk[start..end] + [];
      if start != prevEnd {
        assert SpanBytes(gap) == chunk[prevEnd..start] + [];
      }
      assert chunk[prevEnd..start] + chunk[start..end] + chunk[end..] == chunk[prevEnd..];
    } else {
      SpansCoverChunk(chunk, evs[1..], prevEnd);
    }
  }

  /** The ids of the sentence spans, in order. */
  function SpanIds(spans: seq<Span>): seq<int> {
    if |spans| == 0 then []
    else (if spans[0].sid.Some? then [spans[0].sid.value] else []) + SpanIds(spans[1..])
  }

  /** The ids of the `Added` answers, in order. */
  function AddedIds(evs: seq<Event>): seq<int> {
    if |evs| == 0 then [] else (if evs[0].Added? then [evs[0].sid] else []) + AddedIds(evs[1..])
  }

  lemma {:induction false} SpanIdsAppend(a: seq<Span>, b: seq<Span>)
    ensures SpanIds(a + b) == SpanIds(a) + SpanIds(b)
  {
    if |a| > 0 {
      assert (a + b)[0] == a[0] && (a + b)[1..] == a[1..] + b;
      SpanIdsAppend(a[1..], b);
      AppendAssoc(if a[0].sid.Some? then [a[0].sid.value] else [], SpanIds(a[1..]), SpanIds(b));
    } else {
      assert a + b == b;
    }
  }

  /** There is one sentence span per `Added` answer, in the order of the
      answers, and every span between sentences is non-empty when the sentences
      lie in order. */
  lemma {:induction false} SpansFollowAnswers(chunk: seq<byte>, evs: seq<Event>, prevEnd: int)
    ensures SpanIds(Spans(chunk, evs, prevEnd)) == AddedIds(evs)
    ensures Tiles(evs, prevEnd, |chunk|) ==>
      var spans := Spans(chunk, evs, prevEnd);
      forall i :: 0 <= i < |spans| && spans[i].sid.None? ==> |spans[i].contents| > 0
    decreases |evs|
  {
    if |evs| > 0 {
      SpansFollowAnswers(chunk, evs[1..], if evs[0].Added? then evs[0].span.1 else prevEnd);
      if evs[0].Added? {
        var start, end := evs[0].span.0, evs[0].span.1;
        var gap := if start != prevEnd then [Span(None, Slice(chunk, prevEnd, start))] else [];
        var own := [Span(Some(evs[0].sid), Slice(chunk, start, end))];
        var rest := Spans(chunk, evs[1..], end);
        SpanIdsAppend(gap + own, rest);
        SpanIdsAppend(gap, own);
        assert SpanIds(own) == [evs[0].sid];
        assert Spans(chunk, evs, prevEnd) == gap + own + rest;
        if Tiles(evs, prevEnd, |chunk|) {
          SpansCoverChunk(chunk, evs[1..], end);
          GapsNonEmpty(chunk, gap, own, rest, prevEnd, start, end);
        }
      }
    }
  }

  lemma GapsNonEmpty(chunk: seq<byte>, gap: seq<Span>, own: seq<Span>, rest: seq<Span>, prevEnd: int, start: int, end: int)
    requires 0 <= prevEnd <= start <= end <= |chunk|
    requires gap == if start != prevEnd then [Span(None, Slice(chunk, prevEnd, start))] else []
    requires |own| == 1 && own[0].sid.Some?
    requires forall i :: 0 <= i < |rest| && rest[i].sid.None? ==> |rest[i].contents| > 0
    ensures var spans := gap + own + rest;
      forall i :: 0 <= i < |spans| && spans[i].sid.None? ==> |spans[i].contents| > 0
  {
    var spans := gap + own + rest;
    forall i | 0 <= i < |spans| && spans[i].sid.None?
      ensures |spans[i].contents| > 0
    {
      if i >= |gap| + 1 {
        assert spans[i] == rest[i - |gap| - 1];
      }
    }
  }

  /** The chosen answers keep every `Added` answer: the order and the bounds
      the spans are cut along do not depend on the other answers. */
  lemma {:induction false} SpansOfSelection(chunk: seq<byte>, t: seq<Event>, prevEnd: int)
    ensures Spans(chunk, Select(t, {KAdded, KMsg}), prevEnd) == Spans(chunk, t, prevEnd)
    ensures Tiles(Select(t, {KAdded, KMsg}), prevEnd, |chunk|) == Tiles(t, prevEnd, |chunk|)
    ensures AddedIds(Select(t, {KAdded, KMsg})) == AddedIds(t)
    decreases |t|
  {
    if |t| > 0 {
      var typs := {KAdded, KMsg};
      var rest := Select(t[1..], typs);
      var next := if t[0].Added? then t[0].span.1 else prevEnd;
      SpansOfSelection(chunk, t[1..], next);
      if Yields(t[0], typs) {
        var sel := Select(t, typs);
        assert sel == [t[0]] + rest;
        assert sel[0] == t[0] && sel[1..] == rest;
      } else {
        assert !t[0].Added?;
        assert Select(t, typs) == rest;
      }
    }
  }

  // ---------------------------------------------------------------------------
  // Goals and hypotheses.

  /** The length of the longest of `names`. */
  function MaxLength(names: seq<string>): (n: nat)
    requires |names| > 0
    ensures forall i :: 0 <= i < |names| ==> |names[i]| <= n
    ensures exists i :: 0 <= i < |names| && |names[i]| == n
  {
    if |names| == 1 then |names[0]|
    else
      var m := MaxLength(names[1..]);
      assert forall i :: 1 <= i < |names| ==> names[i] == names[1..][i - 1];
      if |names[0]| >= m then |names[0]| else m
  }

  /** The width hypotheses are printed in: the margin less the longest name, but
      never below `MIN_PP_MARGIN`. */
  function HypWidth(margin: int, names: seq<string>): (w: int)
    requires |names| > 0
  {
    Max(margin - MaxLength(names), MinPpMargin)
  }

  /** The names and the printed hypothesis share the margin: together they take
      exactly the margin, unless that would leave less than the minimum width. */
  lemma HypWidthShares(margin: int, names: seq<string>)
    requires |names| > 0
    ensures HypWidth(margin, names) >= 20
    ensures forall i :: 0 <= i < |names| ==> |names[i]| + HypWidth(margin, names) <= Max(margin, MaxLength(names) + 20)
    ensures MaxLength(names) + HypWidth(margin, names) == Max(margin, MaxLength(names) + 20)
  {
  }

  /** `_pprint_hyp`: the body is printed two columns, the type three columns
      narrower than the hypothesis width. The maximum of no names raises
      `ValueError` before anything is sent. */
  function PprintHyp(s: Session, h: Hypothesis<Obj>, sid: int): (r: Result<(Hypothesis<string>, Session), Fault>)
    ensures |h.names| == 0 ==> r == Fail(ValueError)
  {
    if |h.names| == 0 then Fail(ValueError)
    else
      var w := HypWidth(s.ppMargin, h.names);
      match Pprint(s, h.body, sid, CoqExpr, s.ppDepth, w - 2)
      case Fail(f) => Fail(f)
      case Ok(body) =>
        match Pprint(body.1, Some(h.htype), sid, CoqExpr, s.ppDepth, w - 3)
        case Fail(f) => Fail(f)
        case Ok(htype) => Ok((Hypothesis(h.names, body.0, htype.0.value), htype.1))
  }

  /** A printed hypothesis keeps its names and has a body exactly when it had
      one; the body is requested two columns and the type three columns
      narrower than the hypothesis width, in that order. */
  lemma PprintHypSpec(s: Session, h: Hypothesis<Obj>, sid: int)
    ensures var r := PprintHyp(s, h, sid);
      r.Ok? ==>
        && |h.names| > 0
        && r.value.0.names == h.names
        && (r.value.0.body.Some? <==> h.body.Some?)
        && var w := HypWidth(s.ppMargin, h.names);
        && var bodyReq := if h.body.Some? then [Print(sid, CoqExpr, h.body.value, s.ppDepth, w - 2)] else [];
        && r.value.1.sent == s.sent + bodyReq + [Print(sid, CoqExpr, h.htype, s.ppDepth, w - 3)]
        && r.value.1.ppDepth == s.ppDepth && r.value.1.ppMargin == s.ppMargin
  {
    if |h.names| > 0 {
      var w := HypWidth(s.ppMargin, h.names);
      if h.body.Some? {
        PprintSpec(s, h.body.value, sid, CoqExpr, s.ppDepth, w - 2);
      }
      match Pprint(s, h.body, sid, CoqExpr, s.ppDepth, w - 2)
      case Fail(_) =>
      case Ok(body) =>
        PprintSpec(body.1, h.htype, sid, CoqExpr, s.ppDepth, w - 3);
    }
  }

  /** The hypotheses printed in turn. */
  function PprintHyps(s: Session, hs: seq<Hypothesis<Obj>>, sid: int)
    : (r: Result<(seq<Hypothesis<string>>, Session), Fault>)
    ensures r.Ok? ==> |r.value.0| == |hs|
    decreases |hs|
  {
    if |hs| == 0 then Ok(([], s))
    else
      match PprintHyp(s, hs[0], sid)
      case Fail(f) => Fail(f)
      case Ok(a) =>
        match PprintHyps(a.1, hs[1..], sid)
        case Fail(f) => Fail(f)
        case Ok(b) => Ok(([a.0] + b.0, b.1))
  }

  /** Printing hypotheses keeps their order and their names, and only adds to
      the requests sent. */
  lemma {:induction false} PprintHypsSpec(s: Session, hs: seq<Hypothesis<Obj>>, sid: int)
    ensures var r := PprintHyps(s, hs, sid);
      r.Ok? ==>
        && (forall i :: 0 <= i < |hs| ==> r.value.0[i].names == hs[i].names)
        && r.value.1.ppDepth == s.ppDepth && r.value.1.ppMargin == s.ppMargin
        && |r.value.1.sent| >= |s.sent| && r.value.1.sent[..|s.sent|] == s.sent
    decreases |hs|
  {
    if |hs| > 0 {
      PprintHypSpec(s, hs[0], sid);
      match PprintHyp(s, hs[0], sid)
      case Fail(_) =>
      case Ok(a) =>
        PprintHypsSpec(a.1, hs[1..], sid);
        match PprintHyps(a.1, hs[1..], sid)
        case Fail(_) =>
        case Ok(b) =>
          assert b.1.sent[..|s.sent|] == b.1.sent[..|a.1.sent|][..|s.sent|];
    }
  }

  /** The name a printed goal carries: an absent or empty name is dropped. */
  function GoalName(name: Option<string>): (r: Option<string>)
    ensures r.Some? <==> name.Some? && name.value != ""
    ensures r.Some? ==> r == name
  {
    if name.Some? && name.value != "" then name else None
  }

  /** `_pprint_goal`: the conclusion is printed with the session's arguments,
      then each hypothesis. */
  function PprintGoal(s: Session, g: Goal<Obj>, sid: int): (r: Result<(Goal<string>, Session), Fault>)
  {
    match Pprint(s, Some(g.conclusion), sid, CoqExpr, s.ppDepth, s.ppMargin)
    case Fail(f) => Fail(f)
    case Ok(ccl) =>
      match PprintHyps(ccl.1, g.hypotheses, sid)
      case Fail(f) => Fail(f)
      case Ok(hyps) => Ok((Goal(GoalName(g.name), ccl.0.value, hyps.0), hyps.1))
  }

  /** A printed goal keeps its hypotheses' names; the conclusion is the first
      thing requested, with the session's printing arguments. */
  lemma PprintGoalSpec(s: Session, g: Goal<Obj>, sid: int)
    ensures var r := PprintGoal(s, g, sid);
      r.Ok? ==>
        && r.value.0.name == GoalName(g.name)
        && |r.value.0.hypotheses| == |g.hypotheses|
        && (forall i :: 0 <= i < |g.hypotheses| ==> r.value.0.hypotheses[i].names == g.hypotheses[i].names)
        && |r.value.1.sent| > |s.sent|
        && r.value.1.sent[|s.sent|] == Print(sid, CoqExpr, g.conclusion, s.ppDepth, s.ppMargin)
        && r.value.1.ppDepth == s.ppDepth && r.value.1.ppMargin == s.ppMargin
  {
    PprintSpec(s, g.conclusion, sid, CoqExpr, s.ppDepth, s.ppMargin);
    match Pprint(s, Some(g.conclusion), sid, CoqExpr, s.ppDepth, s.ppMargin)
    case Fail(_) =>
    case Ok(ccl) =>
      PprintHypsSpec(ccl.1, g.hypotheses, sid);
      match PprintHyps(ccl.1, g.hypotheses, sid)
      case Fail(_) =>
      case Ok(hyps) =>
        assert hyps.1.sent[|s.sent|] == hyps.1.sent[..|ccl.1.sent|][|s.sent|];
  }

  /** The goals printed in turn. */
  function PprintGoals(s: Session, gs: seq<Goal<Obj>>, sid: int): (r: Result<(seq<Goal<string>>, Session), Fault>)
    ensures r.Ok? ==> |r.value.0| == |gs|
    decreases |gs|
  {
    if |gs| == 0 then Ok(([], s))
    else
      match PprintGoal(s, gs[0], sid)
      case Fail(f) => Fail(f)
      case Ok(a) =>
        match PprintGoals(a.1, gs[1..], sid)
        case Fail(f) => Fail(f)
        case Ok(b) => Ok(([a.0] + b.0, b.1))
  }

  /** Printing goals keeps their order and their names, and keeps the
      printing arguments. */
  lemma {:induction false} PprintGoalsSpec(s: Session, gs: seq<Goal<Obj>>, sid: int)
    ensures var r := PprintGoals(s, gs, sid);
      r.Ok? ==>
        && (forall i :: 0 <= i < |gs| ==> r.value.0[i].name == GoalName(gs[i].name))
        && r.value.1.ppDepth == s.ppDepth && r.value.1.ppMargin == s.ppMargin
    decreases |gs|
  {
    if |gs| > 0 {
      PprintGoalSpec(s, gs[0], sid);
      match PprintGoal(s, gs[0], sid)
      case Fail(_) =>
      case Ok(a) =>
        PprintGoalsSpec(a.1, gs[1..], sid);
    }
  }

  /** `_goals`: queries the goals after sentence `sid` and prints each one. */
  function Goals(s: Session, sid: int, chunk: View): (r: Result<(seq<Goal<string>>, Session), Fault>)
  {
    match Ask(s, QueryGoals(sid), {KGoal}, Some(chunk), Some(sid))
    case Fail(f) => Fail(f)
    case Ok(a) =>
      assert forall i :: 0 <= i < |a.0| ==> Yields(a.0[i], {KGoal});
      PprintGoals(a.1, RawGoals(a.0), sid)
  }

  /** The goals printed after a sentence are the goals of the answer to the
      query, one for each in order, named as they were. */
  lemma GoalsSpec(s: Session, sid: int, chunk: View)
    ensures var r := Goals(s, sid, chunk);
      r.Ok? ==>
        && Transcript(s.lines, s.pos).Some?
        && var raw := Select(Transcript(s.lines, s.pos).value.0, {KGoal});
        && |r.value.0| == |raw|
        && (forall i :: 0 <= i < |raw| ==> raw[i].RawGoal? && r.value.0[i].name == GoalName(raw[i].goal.name))
  {
    AskEvents(s, QueryGoals(sid), {KGoal}, Some(chunk), Some(sid));
    match Ask(s, QueryGoals(sid), {KGoal}, Some(chunk), Some(sid))
    case Fail(_) =>
    case Ok(a) =>
      RawGoalsPrinted(a.1, a.0, sid);
  }

  lemma RawGoalsPrinted(s: Session, raw: seq<Event>, sid: int)
    requires forall i :: 0 <= i < |raw| ==> Yields(raw[i], {KGoal})
    ensures forall i :: 0 <= i < |raw| ==> raw[i].RawGoal?
    ensures var r := PprintGoals(s, RawGoals(raw), sid);
      r.Ok? ==>
        && |r.value.0| == |raw|
        && forall i :: 0 <= i < |raw| ==> r.value.0[i].name == GoalName(raw[i].goal.name)
  {
    assert forall i :: 0 <= i < |raw| ==> raw[i].RawGoal?;
    PprintGoalsSpec(s, RawGoals(raw), sid);
  }

  function RawGoals(evs: seq<Event>): (gs: seq<Goal<Obj>>)
    requires forall i :: 0 <= i < |evs| ==> evs[i].RawGoal?
    ensures |gs| == |evs| && forall i :: 0 <= i < |evs| ==> gs[i] == evs[i].goal
  {
    if |evs| == 0 then [] else [evs[0].goal] + RawGoals(evs[1..])
  }
}

=== FILE: sorting.dfy ===
/** Python's `sorted` on tuples of numbers. A tuple is given by its key, the
    list of its fields; tuples compare lexicographically. The sort is a stable
    insertion sort. When equal keys mean equal elements, every sorted
    permutation is the same, so it is the one Python's `sorted` returns. */
module Sorting {

  /** Lexicographic `<=` on integer tuples; a proper prefix comes first. */
  predicate LexLe(a: seq<int>, b: seq<int>)
    decreases |a|
  {
    |a| == 0 || (|b| > 0 && (a[0] < b[0] || (a[0] == b[0] && LexLe(a[1..], b[1..]))))
  }

  lemma {:induction false} LexRefl(a: seq<int>)
    ensures LexLe(a, a)
    decreases |a|
  {
    if |a| > 0 {
      LexRefl(a[1..]);
    }
  }

  lemma {:induction false} LexTotal(a: seq<int>, b: seq<int>)
    ensures LexLe(a, b) || LexLe(b, a)
    decreases |a|
  {
    if |a| > 0 && |b| > 0 && a[0] == b[0] {
      LexTotal(a[1..], b[1..]);
    }
  }

  lemma {:induction false} LexTrans(a: seq<int>, b: seq<int>, c: seq<int>)
    requires LexLe(a, b) && LexLe(b, c)
    ensures LexLe(a, c)
    decreases |a|
  {
    if |a| > 0 && a[0] == b[0] && b[0] == c[0] {
      LexTrans(a[1..], b[1..], c[1..]);
    }
  }

  lemma {:induction false} LexAntisym(a: seq<int>, b: seq<int>)
    requires LexLe(a, b) && LexLe(b, a)
    ensures a == b
    decreases |a|
  {
    if |a| > 0 {
      LexAntisym(a[1..], b[1..]);
      assert a == [a[0]] + a[1..] && b == [b[0]] + b[1..];
    }
  }

  /** Every element's key is at most the keys of those after it. */
  predicate SortedBy<T>(s: seq<T>, key: T -> seq<int>) {
    forall i, j :: 0 <= i < j < |s| ==> LexLe(key(s[i]), key(s[j]))
  }

  /** Puts `x` after every element whose key is at most its own. */
  function Insert<T>(x: T, s: seq<T>, key: T -> seq<int>): (r: seq<T>)
    ensures |r| == |s| + 1
  {
    if |s| == 0 then [x]
    else if !LexLe(key(s[0]), key(x)) then [x] + s
    else [s[0]] + Insert(x, s[1..], key)
  }

  /** How many leading elements have a key at most that of `x`. */
  function InsertPos<T>(x: T, s: seq<T>, key: T -> seq<int>): (j: nat)
    ensures j <= |s|
  {
    if |s| == 0 || !LexLe(key(s[0]), key(x)) then 0 else 1 + InsertPos(x, s[1..], key)
  }

  /** In a sorted list, insertion splits the list at the first key above
      that of `x`. */
  lemma {:induction false} InsertSplits<T>(x: T, s: seq<T>, key: T -> seq<int>)
    requires SortedBy(s, key)
    ensures var j := InsertPos(x, s, key);
      && Insert(x, s, key) == s[..j] + [x] + s[j..]
      && (forall i :: 0 <= i < j ==> LexLe(key(s[i]), key(x)))
      && (forall i :: j <= i < |s| ==> !LexLe(key(s[i]), key(x)))
  {
    if |s| > 0 {
      if !LexLe(key(s[0]), key(x)) {
        forall i | 0 <= i < |s|
          ensures !LexLe(key(s[i]), key(x))
        {
          if i > 0 && LexLe(key(s[i]), key(x)) {
            LexTrans(key(s[0]), key(s[i]), key(x));
          }
        }
      } else {
        InsertSplits(x, s[1..], key);
        var j := InsertPos(x, s, key);
        assert s[..j] == [s[0]] + s[1..][..j - 1];
        assert s[j..] == s[1..][j - 1..];
      }
    }
  }

  /** `sorted(s)`, stable. */
  function SortBy<T>(s: seq<T>, key: T -> seq<int>): (r: seq<T>)
    ensures |r| == |s|
  {
    if |s| == 0 then [] else Insert(s[|s| - 1], SortBy(s[..|s| - 1], key), key)
  }

  lemma {:induction false} InsertSorted<T>(x: T, s: seq<T>, key: T -> seq<int>)
    requires SortedBy(s, key)
    ensures SortedBy(Insert(x, s, key), key)
    ensures multiset(Insert(x, s, key)) == multiset(s) + multiset{x}
  {
    InsertSplits(x, s, key);
    var j := InsertPos(x, s, key);
    var r := s[..j] + [x] + s[j..];
    forall a, b | 0 <= a < b < |r|
      ensures LexLe(key(r[a]), key(r[b]))
    {
      if a < j && b == j {
      } else if a == j {
        LexTotal(key(s[b - 1]), key(x));
      } else {
        var a' := if a < j then a else a - 1;
        var b' := if b < j then b else b - 1;
        assert r[a] == s[a'] && r[b] == s[b'];
      }
    }
    assert s == s[..j] + s[j..];
  }

  /** The sort returns its input in order. */
  lemma {:induction false} SortBySorted<T>(s: seq<T>, key: T -> seq<int>)
    ensures SortedBy(SortBy(s, key), key)
    ensures multiset(SortBy(s, key)) == multiset(s)
    decreases |s|
  {
    if |s| > 0 {
      var init := s[..|s| - 1];
      SortBySorted(init, key);
      InsertSorted(s[|s| - 1], SortBy(init, key), key);
      assert s == init + [s[|s| - 1]];
    }
  }

  /** The elements of `s` whose key is `k`, in order. */
  function WithKey<T>(s: seq<T>, key: T -> seq<int>, k: seq<int>): seq<T> {
    if |s| == 0 then []
    else WithKey(s[..|s| - 1], key, k) + (if key(s[|s| - 1]) == k then [s[|s| - 1]] else [])
  }

  lemma {:induction false} WithKeyAppend<T>(a: seq<T>, b: seq<T>, key: T -> seq<int>, k: seq<int>)
    ensures WithKey(a + b, key, k) == WithKey(a, key, k) + WithKey(b, key, k)
    decreases |b|
  {
    if |b| == 0 {
      assert a + b == a;
    } else {
      assert (a + b)[..|a + b| - 1] == a + b[..|b| - 1];
      WithKeyAppend(a, b[..|b| - 1], key, k);
    }
  }

  /** Nothing after the insertion point has the inserted element's key. */
  lemma {:induction false} WithKeyAbove<T>(s: seq<T>, x: T, key: T -> seq<int>)
    requires forall i :: 0 <= i < |s| ==> !LexLe(key(s[i]), key(x))
    ensures WithKey(s, key, key(x)) == []
    decreases |s|
  {
    if |s| > 0 {
      LexRefl(key(x));
      WithKeyAbove(s[..|s| - 1], x, key);
    }
  }

  lemma {:induction false} InsertStable<T>(x: T, s: seq<T>, key: T -> seq<int>, k: seq<int>)
    requires SortedBy(s, key)
    ensures WithKey(Insert(x, s, key), key, k) == WithKey(s, key, k) + WithKey([x], key, k)
  {
    InsertSplits(x, s, key);
    var j := InsertPos(x, s, key);
    WithKeyInserted(s[..j], x, s[j..], key, k);
    assert s[..j] + s[j..] == s;
  }

  /** Putting `x` before elements of larger keys only adds it to the end of
      its own key's elements. */
  lemma {:induction false} WithKeyInserted<T>(p: seq<T>, x: T, q: seq<T>, key: T -> seq<int>, k: seq<int>)
    requires forall i :: 0 <= i < |q| ==> !LexLe(key(q[i]), key(x))
    ensures WithKey(p + [x] + q, key, k) == WithKey(p + q, key, k) + WithKey([x], key, k)
  {
    WithKeyAppend(p + [x], q, key, k);
    WithKeyAppend(p, [x], key, k);
    WithKeyAppend(p, q, key, k);
    var wp, wx, wq := WithKey(p, key, k), WithKey([x], key, k), WithKey(q, key, k);
    if key(x) == k {
      WithKeyAbove(q, x, key);
      assert wp + wx + wq == (wp + wq) + wx;
    } else {
      assert wx == [];
      assert wp + wx + wq == (wp + wq) + wx;
    }
  }

  /** The sort is stable: elements with equal keys keep their order. */
  lemma {:induction false} SortByStable<T>(s: seq<T>, key: T -> seq<int>, k: seq<int>)
    ensures WithKey(SortBy(s, key), key, k) == WithKey(s, key, k)
    decreases |s|
  {
    if |s| > 0 {
      var init := s[..|s| - 1];
      SortByStable(init, key, k);
      SortBySorted(init, key);
      InsertStable(s[|s| - 1], SortBy(init, key), key, k);
      WithKeyAppend(init, [s[|s| - 1]], key, k);
      assert s == init + [s[|s| - 1]];
    }
  }

  /** Elements with equal keys are equal. */
  predicate KeyDetermines<T(==)>(s: seq<T>, key: T -> seq<int>) {
    forall i, j :: 0 <= i < |s| && 0 <= j < |s| && key(s[i]) == key(s[j]) ==> s[i] == s[j]
  }

  /** When equal keys mean equal elements there is one sorted permutation. */
  lemma {:induction false} SortedUnique<T>(a: seq<T>, b: seq<T>, key: T -> seq<int>)
    requires SortedBy(a, key) && SortedBy(b, key) && multiset(a) == multiset(b)
    requires KeyDetermines(a, key)
    ensures a == b
    decreases |a|
  {
    assert |b| == |multiset(b)| == |multiset(a)| == |a|;
    if |a| > 0 {
      SameHead(a, b, key);
      SameTail(a, b);
      assert KeyDetermines(a[1..], key) by {
        forall x, y | 0 <= x < |a[1..]| && 0 <= y < |a[1..]| && key(a[1..][x]) == key(a[1..][y])
          ensures a[1..][x] == a[1..][y]
        {
          assert a[1..][x] == a[x + 1] && a[1..][y] == a[y + 1];
        }
      }
      SortedUnique(a[1..], b[1..], key);
      assert a == [a[0]] + a[1..] && b == [b[0]] + b[1..];
    }
  }

  /** Both sorted permutations start with a least element, and there is one. */
  lemma {:induction false} SameHead<T>(a: seq<T>, b: seq<T>, key: T -> seq<int>)
    requires SortedBy(a, key) && SortedBy(b, key) && multiset(a) == multiset(b)
    requires KeyDetermines(a, key) && |a| > 0 && |b| > 0
    ensures a[0] == b[0]
  {
    assert a[0] in multiset(b);
    var j :| 0 <= j < |b| && b[j] == a[0];
    assert b[0] in multiset(a);
    var i :| 0 <= i < |a| && a[i] == b[0];
    LexRefl(key(a[0]));
    LexRefl(key(b[0]));
    assert LexLe(key(b[0]), key(b[j]));
    assert LexLe(key(a[0]), key(a[i]));
    LexAntisym(key(a[0]), key(b[0]));
  }

  lemma {:induction false} SameTail<T>(a: seq<T>, b: seq<T>)
    requires multiset(a) == multiset(b) && |a| > 0 && |b| > 0 && a[0] == b[0]
    ensures multiset(a[1..]) == multiset(b[1..])
  {
    assert a == [a[0]] + a[1..] && b == [b[0]] + b[1..];
    assert multiset(a[1..]) == multiset(a) - multiset{a[0]};
    assert multiset(b[1..]) == multiset(b) - multiset{b[0]};
  }

  /** Whatever algorithm Python's `sorted` uses, when equal keys mean equal
      elements it returns what `SortBy` returns. */
  lemma {:induction false} SortByIsTheSortedPermutation<T>(s: seq<T>, t: seq<T>, key: T -> seq<int>)
    requires SortedBy(t, key) && multiset(t) == multiset(s)
    requires KeyDetermines(s, key)
    ensures t == SortBy(s, key)
  {
    SortBySorted(s, key);
    var r := SortBy(s, key);
    forall i, j | 0 <= i < |r| && 0 <= j < |r| && key(r[i]) == key(r[j])
      ensures r[i] == r[j]
    {
      assert r[i] in multiset(s) && r[j] in multiset(s);
      var i' :| 0 <= i' < |s| && s[i'] == r[i];
      var j' :| 0 <= j' < |s| && s[j'] == r[j];
    }
    SortedUnique(r, t, key);
  }
}

=== FILE: textformat.dfy ===
/** Text layout helpers of the SerAPI driver: the line prefixing of `indent`, the
    line splitting of `bytes.splitlines`, and the excerpt that points at the part
    of a chunk an exception is about. */
module TextFormat {
  import opened Common
  import opened Utf8

  /** Python's `str.isspace()`: true only for a non-empty all-whitespace string. */
  predicate IsBlank(s: string) {
    |s| > 0 && forall i :: 0 <= i < |s| ==> IsSpace(s[i])
  }

  /** One line of `indent`: a non-empty line gets the prefix, an empty one becomes
      the prefix without its trailing whitespace. */
  function IndentLine(line: string, prefix: string): (r: string)
    ensures line != [] ==> r == prefix + line
    ensures line == [] ==> r == RStrip(prefix)
  {
    if line == [] then RStrip(prefix) else prefix + line
  }

  function IndentLines(lines: seq<string>, prefix: string): (r: seq<string>)
    ensures |r| == |lines|
    ensures forall k :: 0 <= k < |lines| ==> r[k] == IndentLine(lines[k], prefix)
  {
    if |lines| == 0 then [] else [IndentLine(lines[0], prefix)] + IndentLines(lines[1..], prefix)
  }

  /** `indent(text, prefix)` for a prefix that is not blank: the two multi-line
      substitutions prefix every non-empty line and replace every empty line
      (including the one after a final newline) by the stripped prefix. */
  function Indent(text: string, prefix: string): (r: string)
    requires !IsBlank(prefix)
  {
    Join(IndentLines(Split(text, '\n'), prefix), "\n")
  }

  /** `indent` works line by line: the lines of the result are the lines of the
      input, each prefixed (or, when empty, replaced by the stripped prefix). */
  lemma IndentLineByLine(text: string, prefix: string)
    requires !IsBlank(prefix) && '\n' !in prefix
    ensures Split(Indent(text, prefix), '\n') == IndentLines(Split(text, '\n'), prefix)
  {
    var lines := IndentLines(Split(text, '\n'), prefix);
    forall k | 0 <= k < |lines|
      ensures '\n' !in lines[k]
    {
      var line := Split(text, '\n')[k];
      if line == [] {
        assert RStrip(prefix) <= prefix;
      }
    }
    SplitJoin(lines, '\n');
  }

  /** A single non-empty line is just prefixed. */
  lemma IndentOneLine(text: string, prefix: string)
    requires !IsBlank(prefix) && text != [] && '\n' !in text
    ensures Indent(text, prefix) == prefix + text
  {
    assert LastIndex(text, '\n') == -1;
  }

  /** Index of the first line break (`\n` or `\r`) in `bs`, or `|bs|`. */
  function LineBreak(bs: seq<byte>): (j: nat)
    ensures j <= |bs|
    ensures forall k :: 0 <= k < j ==> bs[k] != NL && bs[k] != CR
    ensures j < |bs| ==> bs[j] == NL || bs[j] == CR
  {
    if |bs| == 0 || bs[0] == NL || bs[0] == CR then 0 else 1 + LineBreak(bs[1..])
  }

  /** `bytes.splitlines()`: lines end at `\n`, `\r` or `\r\n`, the terminators are
      dropped, and a final terminator does not start another line. */
  function SplitLines(bs: seq<byte>): (lines: seq<seq<byte>>)
    ensures forall k :: 0 <= k < |lines| ==> NL !in lines[k] && CR !in lines[k]
    ensures |lines| <= |bs|
    decreases |bs|
  {
    if |bs| == 0 then []
    else [bs[..LineBreak(bs)]] + SplitLines(bs[NextLine(bs)..])
  }

  /** Where the second line starts: past the first `\r\n`, `\n` or `\r`, or at
      the end when there is no line break. */
  function NextLine(bs: seq<byte>): (next: nat)
    ensures LineBreak(bs) <= next <= |bs|
    ensures LineBreak(bs) < |bs| ==> LineBreak(bs) < next
  {
    var j := LineBreak(bs);
    if j == |bs| then j
    else if bs[j] == CR && j + 1 < |bs| && bs[j + 1] == NL then j + 2
    else j + 1
  }

  /** The empty last piece `split` yields after a final newline (or for an empty
      input), which `splitlines` does not. */
  function FinalEmpty(bs: seq<byte>): seq<seq<byte>> {
    if |bs| == 0 || bs[|bs| - 1] == NL then [[]] else []
  }

  /** Without carriage returns, `splitlines` is `split(b"\n")` without the final
      empty piece. */
  lemma {:induction false} SplitLinesAsSplit(bs: seq<byte>)
    requires CR !in bs
    ensures Split(bs, NL) == SplitLines(bs) + FinalEmpty(bs)
    decreases |bs|
  {
    var j := LineBreak(bs);
    if j == |bs| {
      SplitLinesOneLine(bs);
    } else {
      var rest := bs[j + 1..];
      NoCarriageReturnAfter(bs, j + 1);
      calc {
        Split(bs, NL);
        { SplitLinesStep(bs); }
        [bs[..j]] + Split(rest, NL);
        { SplitLinesAsSplit(rest); }
        [bs[..j]] + (SplitLines(rest) + FinalEmpty(rest));
        { AppendAssoc([bs[..j]], SplitLines(rest), FinalEmpty(rest)); }
        ([bs[..j]] + SplitLines(rest)) + FinalEmpty(rest);
        { SplitLinesStep(bs); FinalEmptyStep(bs, j); }
        SplitLines(bs) + FinalEmpty(bs);
      }
    }
  }

  lemma NoCarriageReturnAfter(bs: seq<byte>, i: nat)
    requires CR !in bs && i <= |bs|
    ensures CR !in bs[i..]
  {
  }

  lemma FinalEmptyStep(bs: seq<byte>, j: nat)
    requires j < |bs| && bs[j] == NL
    ensures FinalEmpty(bs[j + 1..]) == FinalEmpty(bs)
  {
    var rest := bs[j + 1..];
    if |rest| > 0 {
      assert rest[|rest| - 1] == bs[|bs| - 1];
    }
  }

  /** Text without a newline is one line for both splits (none for `splitlines`
      when it is empty). */
  lemma SplitLinesOneLine(bs: seq<byte>)
    requires LineBreak(bs) == |bs|
    ensures Split(bs, NL) == SplitLines(bs) + FinalEmpty(bs)
  {
    assert NL !in bs;
    assert LastIndex(bs, NL) == -1;
    assert Split(bs, NL) == [bs];
    if |bs| > 0 {
      assert LineBreak(bs) == |bs|;
      assert bs[..|bs|] == bs && SplitLines(bs[|bs|..]) == [];
      assert SplitLines(bs) == [bs];
    }
  }

  /** Both splits take off the same first line at the first newline. */
  lemma SplitLinesStep(bs: seq<byte>)
    requires CR !in bs && LineBreak(bs) < |bs|
    ensures SplitLines(bs) == [bs[..LineBreak(bs)]] + SplitLines(bs[LineBreak(bs) + 1..])
    ensures Split(bs, NL) == [bs[..LineBreak(bs)]] + Split(bs[LineBreak(bs) + 1..], NL)
  {
    SplitLinesAtNewline(bs);
    SplitAtNewline(bs);
  }

  lemma SplitLinesAtNewline(bs: seq<byte>)
    requires LineBreak(bs) < |bs| && bs[LineBreak(bs)] == NL
    ensures SplitLines(bs) == [bs[..LineBreak(bs)]] + SplitLines(bs[LineBreak(bs) + 1..])
  {
    assert NextLine(bs) == LineBreak(bs) + 1;
  }

  lemma SplitAtNewline(bs: seq<byte>)
    requires LineBreak(bs) < |bs| && bs[LineBreak(bs)] == NL
    ensures Split(bs, NL) == [bs[..LineBreak(bs)]] + Split(bs[LineBreak(bs) + 1..], NL)
  {
    var j := LineBreak(bs);
    SplitAround(bs, j);
    SplitFront(bs[..j], NL, bs[j + 1..]);
  }

  /** `b"\n".join(lines)`, the way the excerpt puts lines back together. */
  function JoinLines(lines: seq<seq<byte>>): seq<byte> {
    Join(lines, [NL])
  }

  /** The last three lines of the text before the highlighted part. */
  function ContextBefore(prefix: seq<byte>): (r: seq<byte>)
    ensures Count(r, NL) <= 2 && CR !in r
  {
    var lines := SplitLines(prefix);
    var last := lines[|lines| - Min(3, |lines|)..];
    JoinContext(last);
    JoinLines(last)
  }

  /** The first three lines of the text after the highlighted part. */
  function ContextAfter(suffix: seq<byte>): (r: seq<byte>)
    ensures Count(r, NL) <= 2 && CR !in r
  {
    var lines := SplitLines(suffix);
    var first := lines[..Min(3, |lines|)];
    JoinContext(first);
    JoinLines(first)
  }

  /** The text without its final `\n`, if it has one: what `splitlines` covers. */
  function DropFinalNewline(bs: seq<byte>): (t: seq<byte>)
    ensures bs == t || bs == t + [NL]
  {
    if |bs| > 0 && bs[|bs| - 1] == NL then bs[..|bs| - 1] else bs
  }

  /** `r` is a head of `s` ending at the end of `s` or just before a `\n`. */
  predicate LineHead(r: seq<byte>, s: seq<byte>) {
    r <= s && (|r| == |s| || s[|r|] == NL)
  }

  /** `r` is a tail of `s` starting at the start of `s` or just after a `\n`. */
  predicate LineTail(r: seq<byte>, s: seq<byte>) {
    |r| <= |s| && r == s[|s| - |r|..] && (|r| == |s| || s[|s| - |r| - 1] == NL)
  }

  /** The context after the highlighted part is the head of the text after it,
      ending where a line of that text ends. */
  lemma ContextAfterIsHead(suffix: seq<byte>)
    requires CR !in suffix
    ensures LineHead(ContextAfter(suffix), suffix)
  {
    var lines := SplitLines(suffix);
    var m := Min(3, |lines|);
    var first := lines[..m];
    assert ContextAfter(suffix) == JoinLines(first);
    var pieces, tail := Split(suffix, NL), FinalEmpty(suffix);
    SplitLinesAsSplit(suffix);
    JoinSplit(suffix, NL);
    if |lines| > 0 {
      TakeOfAppend(lines, tail, m);
      if m < |pieces| {
        JoinHead(pieces, m, NL);
      } else {
        assert pieces == pieces[..m];
      }
    }
  }

  /** Split at `\n`, the context after the highlighted part gives back the
      first three lines of the text after it, or all of them when there are
      fewer; it is empty when that text is. */
  lemma ContextAfterLines(suffix: seq<byte>)
    ensures var lines := SplitLines(suffix);
      && (|lines| == 0 ==> ContextAfter(suffix) == [])
      && (|lines| > 0 ==> Split(ContextAfter(suffix), NL) == lines[..Min(3, |lines|)])
  {
    var lines := SplitLines(suffix);
    var first := lines[..Min(3, |lines|)];
    assert ContextAfter(suffix) == JoinLines(first);
    if |lines| > 0 {
      LinesSplitBack(first);
    }
  }

  /** The context before the highlighted part is the tail of the text before
      it less a final `\n`, starting where a line of that text starts. */
  lemma ContextBeforeIsTail(prefix: seq<byte>)
    requires CR !in prefix
    ensures LineTail(ContextBefore(prefix), DropFinalNewline(prefix))
  {
    var lines := SplitLines(prefix);
    var k := |lines| - Min(3, |lines|);
    assert ContextBefore(prefix) == JoinLines(lines[k..]);
    LinesJoinToTrimmed(prefix);
    TailOfLines(lines, k);
  }

  /** Split at `\n`, the context before the highlighted part gives back the
      last three lines of the text before it, or all of them when there are
      fewer; it is empty when that text is. */
  lemma ContextBeforeLines(prefix: seq<byte>)
    ensures var lines := SplitLines(prefix);
      && (|lines| == 0 ==> ContextBefore(prefix) == [])
      && (|lines| > 0 ==> Split(ContextBefore(prefix), NL) == lines[|lines| - Min(3, |lines|)..])
  {
    var lines := SplitLines(prefix);
    var last := lines[|lines| - Min(3, |lines|)..];
    assert ContextBefore(prefix) == JoinLines(last);
    if |lines| > 0 {
      LinesSplitBack(last);
    }
  }

  /** The join of the lines from `k` on is a tail of the join of all of them,
      starting at its start or just after a `\n`. */
  lemma TailOfLines(lines: seq<seq<byte>>, k: nat)
    requires k < |lines| || k == 0
    ensures LineTail(JoinLines(lines[k..]), JoinLines(lines))
  {
    if k == 0 {
      assert lines[k..] == lines;
    } else {
      JoinTail(lines, k, NL);
    }
  }

  /** Lines, joined with `\n`, split at `\n` back into the same lines. */
  lemma LinesSplitBack(lines: seq<seq<byte>>)
    requires |lines| >= 1
    requires forall k :: 0 <= k < |lines| ==> NL !in lines[k]
    ensures Split(JoinLines(lines), NL) == lines
  {
    SplitJoin(lines, NL);
  }

  /** The lines of a text without `\r`, joined with `\n`, give back the text
      less a final `\n`. */
  lemma LinesJoinToTrimmed(bs: seq<byte>)
    requires CR !in bs
    ensures JoinLines(SplitLines(bs)) == DropFinalNewline(bs)
  {
    var lines := SplitLines(bs);
    var pieces := Split(bs, NL);
    SplitLinesAsSplit(bs);
    JoinSplit(bs, NL);
    if |bs| == 0 {
      assert lines == [];
    } else if bs[|bs| - 1] == NL {
      assert pieces == lines + [[]];
      assert |lines| > 0;
      JoinAppend(lines, [[]], [NL]);
      assert Join([[]], [NL]) == [];
      assert bs == JoinLines(lines) + [NL];
    } else {
      assert FinalEmpty(bs) == [];
      assert pieces == lines;
    }
  }

  lemma JoinContext(lines: seq<seq<byte>>)
    requires |lines| <= 3
    requires forall k :: 0 <= k < |lines| ==> NL !in lines[k] && CR !in lines[k]
    ensures Count(JoinLines(lines), NL) <= 2 && CR !in JoinLines(lines)
  {
    if |lines| > 0 {
      CountJoin(lines, NL);
      JoinAvoids(lines, CR);
    }
  }

  /** A join with `\n` of pieces free of `x` (other than `\n`) is free of `x`. */
  lemma {:induction false} JoinAvoids(lines: seq<seq<byte>>, x: byte)
    requires x != NL
    requires forall k :: 0 <= k < |lines| ==> x !in lines[k]
    ensures x !in JoinLines(lines)
    decreases |lines|
  {
    if |lines| > 1 {
      JoinAvoids(lines[..|lines| - 1], x);
      assert JoinLines(lines) == JoinLines(lines[..|lines| - 1]) + [NL] + lines[|lines| - 1];
    }
  }

  /** A short text with no carriage return and no final newline splits into its
      `split(b"\n")` lines, at most three of them, which join back to it. */
  lemma ShortTextLines(text: seq<byte>)
    requires CR !in text && Count(text, NL) <= 2
    requires |text| > 0 && text[|text| - 1] != NL
    ensures SplitLines(text) == Split(text, NL) && |SplitLines(text)| <= 3
    ensures JoinLines(SplitLines(text)) == text
  {
    SplitLinesAsSplit(text);
    JoinSplit(text, NL);
  }

  /** Such a text is kept whole as the context on either side. */
  lemma ShortContextKept(text: seq<byte>)
    requires CR !in text && Count(text, NL) <= 2
    requires |text| > 0 && text[|text| - 1] != NL
    ensures ContextBefore(text) == text && ContextAfter(text) == text
  {
    ShortTextLines(text);
    var lines := SplitLines(text);
    var n := Min(3, |lines|);
    assert n == |lines|;
    TakeDropAll(lines, n);
  }

  lemma TakeOfAppend<T>(a: seq<T>, b: seq<T>, m: nat)
    requires m <= |a|
    ensures (a + b)[..m] == a[..m]
  {
  }

  lemma TakeDropAll<T>(s: seq<T>, n: nat)
    requires n == |s|
    ensures s[|s| - n..] == s && s[..n] == s
  {
  }

  const OpenMark: seq<byte> := [62, 62, 62]
  const CloseMark: seq<byte> := [60, 60, 60]

  /** `SerAPI.highlight_substring`: the part `[beg:end)` between `>>>` and `<<<`,
      with at most three lines of context on each side. */
  function HighlightSubstring(chunk: seq<byte>, beg: int, end: int): (r: seq<byte>)
  {
    ContextBefore(Slice(chunk, 0, beg)) + OpenMark + Slice(chunk, beg, end) + CloseMark
      + ContextAfter(Slice(chunk, end, |chunk|))
  }

  /** A chunk of at most three lines on each side of the highlighted part is
      reproduced whole, with the markers inserted around `[beg:end)`. */
  lemma HighlightShortChunk(chunk: seq<byte>, beg: int, end: int)
    requires 0 < beg <= end < |chunk|
    requires CR !in chunk
    requires Count(chunk[..beg], NL) <= 2 && chunk[beg - 1] != NL
    requires Count(chunk[end..], NL) <= 2 && chunk[|chunk| - 1] != NL
    ensures HighlightSubstring(chunk, beg, end)
         == chunk[..beg] + OpenMark + chunk[beg..end] + CloseMark + chunk[end..]
  {
    var before, after := chunk[..beg], chunk[end..];
    assert Slice(chunk, 0, beg) == before && Slice(chunk, end, |chunk|) == after;
    assert CR !in before by {
      assert forall i :: 0 <= i < |before| ==> before[i] == chunk[i];
    }
    assert CR !in after by {
      assert forall i :: 0 <= i < |after| ==> after[i] == chunk[end + i];
    }
    assert before[beg - 1] == chunk[beg - 1];
    assert after[|after| - 1] == chunk[|chunk| - 1];
    ShortContextKept(before);
    ShortContextKept(after);
  }

  const ExcerptHeader: string := "The offending chunk is delimited by >>>\U{2026}<<< below:\n"

  /** `SerAPI._highlight_exn`: the excerpt, decoded ignoring invalid UTF-8 and
      indented by `prefix`, under a one-line explanation. */
  function HighlightExn(span: (int, int), chunk: seq<byte>, prefix: string): (r: string)
    requires !IsBlank(prefix)
  {
    var src := HighlightSubstring(chunk, span.0, span.1);
    ExcerptHeader + Indent(DecodeString(src), prefix)
  }
}

=== FILE: topfile.dfy ===
/** The `--topfile` name the SerAPI driver derives from the input file: the file
    name's stem with every character that cannot appear in a Coq identifier
    replaced by `_`, followed by the file's suffix. */
module Topfiles {
  import opened Common

  /** An item of a regular-expression character class: one character or a
      range `lo-hi`. */
  datatype ClassItem = Single(c: char) | Span(lo: char, hi: char)

  /** The items of a character class body, read the way Python's `re` reads
      them: `a-b` is a range, everything else (whitespace and `#` included,
      even in verbose mode) is a literal character. */
  function ParseClass(body: string): (items: seq<ClassItem>)
    decreases |body|
  {
    if |body| == 0 then []
    else if |body| >= 3 && body[1] == '-' then [Span(body[0], body[2])] + ParseClass(body[3..])
    else [Single(body[0])] + ParseClass(body[1..])
  }

  function ItemMatches(item: ClassItem, c: char): bool {
    match item
    case Single(x) => c == x
    case Span(lo, hi) => lo <= c <= hi
  }

  function ClassMatches(items: seq<ClassItem>, c: char): (b: bool)
    ensures b <==> exists i :: 0 <= i < |items| && ItemMatches(items[i], c)
  {
    if |items| == 0 then false
    else ItemMatches(items[0], c) || ClassMatches(items[1..], c)
  }

  /** The Unicode general categories. The Unicode database is not part of this
      model: a `Categories` function stands for `unicodedata.category`, and the
      code's comparison of the lower-cased category name with a pattern such as
      `'lu'` is a comparison of categories. */
  datatype GeneralCategory =
    | Lu | Ll | Lt | Lm | Lo | Mn | Mc | Me | Nd | Nl | No
    | Pc | Pd | Ps | Pe | Pi | Pf | Po | Sm | Sc | Sk | So
    | Zs | Zl | Zp | Cc | Cf | Cs | Co | Cn

  type Categories = char -> GeneralCategory

  /** A pattern of `COQ_IDENT_START` / `COQ_IDENT_PART`: a general category, or a
      one-character regular expression. */
  datatype Pattern = Category(cat: GeneralCategory) | CharClass(items: seq<ClassItem>)

  predicate PatternMatches(category: Categories, c: char, p: Pattern) {
    match p
    case Category(cat) => category(c) == cat
    case CharClass(items) => ClassMatches(items, c)
  }

  /** `SerAPI.valid_char`: some pattern accepts the character. */
  function ValidChar(category: Categories, c: char, allowed: seq<Pattern>): (b: bool)
    ensures b <==> exists i :: 0 <= i < |allowed| && PatternMatches(category, c, allowed[i])
  {
    if |allowed| == 0 then false
    else PatternMatches(category, c, allowed[0]) || ValidChar(category, c, allowed[1..])
  }

  const LetterCategories: seq<Pattern> :=
    [Category(Lu), Category(Ll), Category(Lt), Category(Lo), Category(Lm)]

  /** The body of the verbose-mode class in `COQ_IDENT_START`, character for
      character: the comments and the line breaks are inside the brackets. */
  const StartClassBody: string :=
    "\n           \U{1D00}-\U{1D7F} # Phonetic Extensions"
    + "\n           \U{1D80}-\U{1DBF} # Phonetic Extensions Suppl"
    + "\n           \U{1DC0}-\U{1DFF} # Combining Diacritical Marks Suppl"
    + "\n           _ # Underscore"
    + "\n           \U{00A0} # Non breaking space"
    + "\n         "

  /** The class its comments describe: the three phonetic blocks, `_` and the
      non-breaking space. */
  const IntendedStartClassBody: string :=
    "\U{1D00}-\U{1D7F}\U{1D80}-\U{1DBF}\U{1DC0}-\U{1DFF}_\U{00A0}"

  function IdentStart(classBody: string): seq<Pattern> {
    LetterCategories + [CharClass(ParseClass(classBody))]
  }

  function IdentPart(classBody: string): seq<Pattern> {
    IdentStart(classBody) + [Category(Nd), Category(Nl), Category(No), CharClass([Single('\'')])]
  }

  /** `SerAPI.sub_chars`: every character the patterns reject becomes `_`. */
  function SubChars(category: Categories, chars: string, allowed: seq<Pattern>): (r: string)
    ensures |r| == |chars|
    ensures forall k :: 0 <= k < |chars| ==>
      r[k] == (if ValidChar(category, chars[k], allowed) then chars[k] else '_')
  {
    seq(|chars|, k requires 0 <= k < |chars| =>
      if ValidChar(category, chars[k], allowed) then chars[k] else '_')
  }

  /** `PurePath.suffix`: from the last dot, unless that dot starts or ends the name. */
  function Suffix(name: string): string {
    var i := LastIndex(name, '.');
    if 0 < i < |name| - 1 then name[i..] else []
  }

  /** `PurePath.stem`: the name without its suffix. */
  function Stem(name: string): string {
    var i := LastIndex(name, '.');
    if 0 < i < |name| - 1 then name[..i] else name
  }

  /** The stem and the suffix put back together are the name. */
  lemma StemSuffix(name: string)
    ensures Stem(name) + Suffix(name) == name
    ensures Suffix(name) == [] || (|Suffix(name)| >= 2 && Suffix(name)[0] == '.')
    ensures forall k :: 1 <= k < |Suffix(name)| ==> Suffix(name)[k] != '.'
  {
    var i := LastIndex(name, '.');
    if 0 < i < |name| - 1 {
      assert Suffix(name) == name[i..];
      assert name[..i] + name[i..] == name;
      forall k | 1 <= k < |name| - i
        ensures name[i..][k] != '.'
      {
        assert name[i..][k] == name[i + k];
      }
    }
  }

  /** `SerAPI.topfile` for a file name and an identifier-start class body. */
  function TopfileWith(category: Categories, name: string, classBody: string): (r: string)
  {
    var stem := Stem(name);
    if stem == "-" || stem == "" then "Top"
    else
      SubChars(category, stem[..1], IdentStart(classBody))
      + SubChars(category, stem[1..], IdentPart(classBody)) + Suffix(name)
  }

  /** The topfile exactly as the class is written. */
  function TopfileAsWritten(category: Categories, name: string): string
  {
    TopfileWith(category, name, StartClassBody)
  }

  /** The topfile with the class its comments describe. */
  function Topfile(category: Categories, name: string): string
  {
    TopfileWith(category, name, IntendedStartClassBody)
  }

  /** Character by character: position 0 of the stem is checked against the
      start patterns, every later one against the part patterns, and the suffix
      follows unchanged. */
  lemma TopfileAt(category: Categories, name: string, body: string, k: nat)
    requires Stem(name) != "-" && Stem(name) != "" && k < |name|
    ensures var r := TopfileWith(category, name, body);
      var stem := Stem(name);
      && |r| == |name|
      && (k == 0 ==> r[k] == (if ValidChar(category, stem[0], IdentStart(body)) then stem[0] else '_'))
      && (0 < k < |stem| ==> r[k] == (if ValidChar(category, stem[k], IdentPart(body)) then stem[k] else '_'))
      && (|stem| <= k ==> r[k] == Suffix(name)[k - |stem|])
  {
    var stem := Stem(name);
    StemSuffix(name);
    var first := SubChars(category, stem[..1], IdentStart(body));
    var rest := SubChars(category, stem[1..], IdentPart(body));
    var r := TopfileWith(category, name, body);
    assert r == first + rest + Suffix(name);
    if k == 0 {
      assert r[k] == first[0];
    } else if k < |stem| {
      assert r[k] == rest[k - 1];
      assert stem[1..][k - 1] == stem[k];
    } else {
      assert r[k] == Suffix(name)[k - |stem|];
    }
  }

  /** The topfile is `Top` for the stems `-` and empty; otherwise it has the
      name's length and suffix, and every character of its stem is a valid
      identifier character at its position. This holds for any class body
      that accepts `_`. */
  lemma TopfileWithShape(category: Categories, name: string, body: string)
    requires ClassMatches(ParseClass(body), '_')
    ensures var r := TopfileWith(category, name, body);
      var stem := Stem(name);
      && (stem == "-" || stem == "" ==> r == "Top")
      && (stem != "-" && stem != "" ==>
            && |r| == |name| && r[|stem|..] == Suffix(name)
            && ValidChar(category, r[0], IdentStart(body))
            && (forall k :: 1 <= k < |stem| ==> ValidChar(category, r[k], IdentPart(body))))
  {
    var stem := Stem(name);
    if stem != "-" && stem != "" {
      ClassMakesValid(category, '_', body);
      TopfileAt(category, name, body, 0);
      TopfileStemValid(category, name, body);
      TopfileSuffix(category, name, body);
    }
  }

  /** The shape of the topfile the program computes, with the class as
      written. */
  lemma TopfileAsWrittenShape(category: Categories, name: string)
    ensures var r := TopfileAsWritten(category, name);
      var stem := Stem(name);
      && (stem == "-" || stem == "" ==> r == "Top")
      && (stem != "-" && stem != "" ==>
            && |r| == |name| && r[|stem|..] == Suffix(name)
            && ValidChar(category, r[0], IdentStart(StartClassBody))
            && (forall k :: 1 <= k < |stem| ==> ValidChar(category, r[k], IdentPart(StartClassBody))))
  {
    UnderscoreInWrittenClass();
    TopfileWithShape(category, name, StartClassBody);
  }

  /** The shape of the topfile with the class its comments describe. */
  lemma TopfileShape(category: Categories, name: string)
    ensures var r := Topfile(category, name);
      var stem := Stem(name);
      && (stem == "-" || stem == "" ==> r == "Top")
      && (stem != "-" && stem != "" ==>
            && |r| == |name| && r[|stem|..] == Suffix(name)
            && ValidChar(category, r[0], IdentStart(IntendedStartClassBody))
            && (forall k :: 1 <= k < |stem| ==> ValidChar(category, r[k], IdentPart(IntendedStartClassBody))))
  {
    IntendedClassItems();
    assert ItemMatches(ParseClass(IntendedStartClassBody)[3], '_');
    TopfileWithShape(category, name, IntendedStartClassBody);
  }

  /** Every later character of the stem is a valid identifier part. */
  lemma TopfileStemValid(category: Categories, name: string, body: string)
    requires Stem(name) != "-" && Stem(name) != ""
    requires ValidChar(category, '_', IdentPart(body))
    ensures forall k :: 1 <= k < |Stem(name)| ==>
      ValidChar(category, TopfileWith(category, name, body)[k], IdentPart(body))
  {
    var stem := Stem(name);
    var r := TopfileWith(category, name, body);
    forall k | 1 <= k < |stem|
      ensures ValidChar(category, r[k], IdentPart(body))
    {
      TopfileAt(category, name, body, k);
    }
  }

  /** The topfile keeps the name's suffix after the stem. */
  lemma TopfileSuffix(category: Categories, name: string, body: string)
    requires Stem(name) != "-" && Stem(name) != ""
    ensures var r := TopfileWith(category, name, body);
      |r| == |name| && r[|Stem(name)|..] == Suffix(name)
  {
    var stem := Stem(name);
    var r := TopfileWith(category, name, body);
    StemSuffix(name);
    TopfileAt(category, name, body, 0);
    forall k | |stem| <= k < |name|
      ensures r[k] == Suffix(name)[k - |stem|]
    {
      TopfileAt(category, name, body, k);
    }
    assert r[|stem|..] == Suffix(name);
  }

  /** A character of a class body that is not `-` and has no `-` on either
      side cannot be part of a range, so the class reads it as itself. */
  lemma {:induction false} LoneCharMatches(body: string, j: nat)
    requires j < |body| && body[j] != '-'
    requires j + 1 < |body| ==> body[j + 1] != '-'
    requires j >= 1 ==> body[j - 1] != '-'
    ensures ClassMatches(ParseClass(body), body[j])
    decreases |body|
  {
    if j > 0 {
      if |body| >= 3 && body[1] == '-' {
        assert j >= 3;
        LoneCharMatches(body[3..], j - 3);
      } else {
        LoneCharMatches(body[1..], j - 1);
      }
    }
  }

  /** The class as written accepts `_`, which stands between two spaces. */
  lemma UnderscoreInWrittenClass()
    ensures ClassMatches(ParseClass(StartClassBody), '_')
  {
    var body := StartClassBody;
    assert body[142] == ' ' && body[143] == '_' && body[144] == ' ';
    LoneCharMatches(body, 143);
  }

  /** Every character `sub_chars` returns is accepted, as long as `_` is. */
  lemma SubCharsValid(category: Categories, chars: string, allowed: seq<Pattern>)
    requires ValidChar(category, '_', allowed)
    ensures forall k :: 0 <= k < |chars| ==> ValidChar(category, SubChars(category, chars, allowed)[k], allowed)
  {
  }

  /** Substituting twice substitutes once: what survives the first pass is
      accepted by the second. */
  lemma SubCharsIdempotent(category: Categories, chars: string, allowed: seq<Pattern>)
    requires ValidChar(category, '_', allowed)
    ensures SubChars(category, SubChars(category, chars, allowed), allowed) == SubChars(category, chars, allowed)
  {
  }

  /** A character that is not the start of a range is read as itself. */
  lemma ParseSingle(body: string)
    requires |body| >= 1 && (|body| < 3 || body[1] != '-')
    ensures ParseClass(body) == [Single(body[0])] + ParseClass(body[1..])
  {
  }

  /** The character class as written accepts a space: the second character of
      its body is one. */
  lemma SpaceInWrittenClass()
    ensures ClassMatches(ParseClass(StartClassBody), ' ')
  {
    var body := StartClassBody;
    assert body[0] == '\n' && body[1] == ' ' && body[2] == ' ' && body[3] == ' ';
    ParseSingle(body);
    ParseSingle(body[1..]);
    assert ParseClass(body)[1] == Single(' ');
  }

  /** The intended class is the three phonetic blocks, `_` and the no-break space. */
  lemma IntendedClassItems()
    ensures ParseClass(IntendedStartClassBody)
         == [Span('\U{1D00}', '\U{1D7F}'), Span('\U{1D80}', '\U{1DBF}'), Span('\U{1DC0}', '\U{1DFF}'),
             Single('_'), Single('\U{00A0}')]
  {
    var body := IntendedStartClassBody;
    assert body[3..][3..][3..] == "_\U{00A0}";
  }

  /** A class match makes a character valid at both positions. */
  lemma ClassMakesValid(category: Categories, c: char, body: string)
    requires ClassMatches(ParseClass(body), c)
    ensures ValidChar(category, c, IdentStart(body)) && ValidChar(category, c, IdentPart(body))
  {
    assert PatternMatches(category, c, IdentStart(body)[5]);
    assert PatternMatches(category, c, IdentPart(body)[5]);
  }

  /** A lower-case letter is valid at both positions. */
  lemma LetterValid(category: Categories, c: char, body: string)
    requires category(c) == Ll
    ensures ValidChar(category, c, IdentStart(body)) && ValidChar(category, c, IdentPart(body))
  {
    assert PatternMatches(category, c, IdentStart(body)[1]);
    assert PatternMatches(category, c, IdentPart(body)[1]);
  }

  /** As the class is written, a space is an identifier character: a space
      after the first character of the stem is kept (`a b.v` stays `a b.v`). */
  lemma SpaceKeptAsWritten(category: Categories, name: string, k: nat)
    requires Stem(name) != "-" && Stem(name) != ""
    requires 0 < k < |Stem(name)| && Stem(name)[k] == ' '
    ensures TopfileAsWritten(category, name)[k] == ' '
  {
    StemSuffix(name);
    SpaceInWrittenClass();
    ClassMakesValid(category, ' ', StartClassBody);
    TopfileAt(category, name, StartClassBody, k);
  }

  /** With the class its comments describe, a space (category `Zs`) is not an
      identifier character and becomes `_` (`a b.v` becomes `a_b.v`). */
  lemma SpaceReplaced(category: Categories, name: string, k: nat)
    requires category(' ') == Zs
    requires Stem(name) != "-" && Stem(name) != ""
    requires 0 < k < |Stem(name)| && Stem(name)[k] == ' '
    ensures Topfile(category, name)[k] == '_'
  {
    StemSuffix(name);
    SpaceNotIdentPart(category);
    TopfileAt(category, name, IntendedStartClassBody, k);
  }

  /** No item of the intended class matches a space. */
  lemma SpaceNotInIntendedClass()
    ensures !ClassMatches(ParseClass(IntendedStartClassBody), ' ')
  {
    IntendedClassItems();
    var items := ParseClass(IntendedStartClassBody);
    forall i | 0 <= i < |items|
      ensures !ItemMatches(items[i], ' ')
    {
    }
  }

  lemma SpaceNotIdentPart(category: Categories)
    requires category(' ') == Zs
    ensures !ValidChar(category, ' ', IdentPart(IntendedStartClassBody))
  {
    SpaceNotInIntendedClass();
    NotIdentPart(category, ' ', IntendedStartClassBody);
  }

  /** A character outside the letter and number categories, other than `'`,
      and outside the class is not an identifier character. */
  lemma NotIdentPart(category: Categories, c: char, body: string)
    requires category(c) !in {Lu, Ll, Lt, Lo, Lm, Nd, Nl, No} && c != '\''
    requires !ClassMatches(ParseClass(body), c)
    ensures !ValidChar(category, c, IdentPart(body))
  {
    var part := IdentPart(body);
    forall i | 0 <= i < |part|
      ensures !PatternMatches(category, c, part[i])
    {
      if i == 5 {
        assert part[i] == CharClass(ParseClass(body));
      }
    }
  }

  /** The arguments `SerAPI.__init__` passes to `sertop`: the caller's, the
      defaults, then the topfile, which is derived with the class as written. */
  function SertopArgs(category: Categories, args: seq<string>, name: string): (r: seq<string>)
    ensures |r| == |args| + 3 && r[..|args|] == args
    ensures r[|args|] == "--printer=sertop" && r[|args| + 1] == "--implicit"
    ensures r[|args| + 2] == "--topfile=" + TopfileAsWritten(category, name)
  {
    args + ["--printer=sertop", "--implicit", "--topfile=" + TopfileAsWritten(category, name)]
  }

  /** A space inside the stem reaches `sertop` unchanged: for `a b.v` the last
      argument is `--topfile=a b.v`, which is not a Coq module name. */
  lemma SertopArgsKeepSpace(category: Categories, args: seq<string>)
    requires category('a') == Ll && category('b') == Ll
    ensures SertopArgs(category, args, "a b.v")[|args| + 2] == "--topfile=" + "a b.v"
  {
    WrittenKeepsSpace(category);
  }

  /** The class as written leaves `a b.v` as it is. */
  lemma WrittenKeepsSpace(category: Categories)
    requires category('a') == Ll && category('b') == Ll
    ensures TopfileAsWritten(category, "a b.v") == "a b.v"
  {
    var name := "a b.v";
    SpacedNameParts();
    WrittenStemChars(category);
    var r := TopfileAsWritten(category, name);
    TopfileAt(category, name, StartClassBody, 0);
    TopfileAt(category, name, StartClassBody, 1);
    TopfileAt(category, name, StartClassBody, 2);
    TopfileAt(category, name, StartClassBody, 3);
    TopfileAt(category, name, StartClassBody, 4);
    assert r == "a b.v";
  }

  /** `a b.v` splits into the stem `a b` and the suffix `.v`. */
  lemma SpacedNameParts()
    ensures Stem("a b.v") == "a b" && Suffix("a b.v") == ".v"
  {
    assert LastIndex("a b.v", '.') == 3;
  }

  /** Each character of `a b` is valid where it stands under the class as
      written. */
  lemma WrittenStemChars(category: Categories)
    requires category('a') == Ll && category('b') == Ll
    ensures ValidChar(category, 'a', IdentStart(StartClassBody))
    ensures ValidChar(category, ' ', IdentPart(StartClassBody))
    ensures ValidChar(category, 'b', IdentPart(StartClassBody))
  {
    LetterValid(category, 'a', StartClassBody);
    LetterValid(category, 'b', StartClassBody);
    SpaceInWrittenClass();
    ClassMakesValid(category, ' ', StartClassBody);
  }
}

=== FILE: utf8.dfy ===
/** UTF-8 as CPython decodes it with the `'ignore'` error handler: a byte that
    cannot start a character, and the maximal valid prefix of a character that is
    cut short, are dropped, and decoding resumes at the first offending byte. */
module Utf8 {
  import opened Common

  /** A Unicode scalar value: a code point that is not a surrogate. */
  predicate IsScalar(cp: int) {
    0 <= cp < 0xD800 || 0xE000 <= cp < 0x110000
  }

  predicate IsContinuation(b: byte) {
    0x80 <= b <= 0xBF
  }

  /** Number of bytes a leading byte announces; 0 when it cannot start a character. */
  function Width(b: byte): nat {
    if b < 0x80 then 1
    else if 0xC2 <= b <= 0xDF then 2
    else if 0xE0 <= b <= 0xEF then 3
    else if 0xF0 <= b <= 0xF4 then 4
    else 0
  }

  /** The range allowed for the byte after `lead`; the narrower ranges after E0,
      ED, F0 and F4 rule out overlong forms, surrogates and values past U+10FFFF. */
  predicate SecondOk(lead: byte, b: byte) {
    if lead == 0xE0 then 0xA0 <= b <= 0xBF
    else if lead == 0xED then 0x80 <= b <= 0x9F
    else if lead == 0xF0 then 0x90 <= b <= 0xBF
    else if lead == 0xF4 then 0x80 <= b <= 0x8F
    else IsContinuation(b)
  }

  /** How many of the bytes after `bs[0]` validly continue the character it
      begins, stopping at the first one that does not (or at the end of input). */
  function Continued(bs: seq<byte>): (k: nat)
    requires |bs| > 0 && Width(bs[0]) >= 2
    ensures k < Width(bs[0]) && k < |bs|
  {
    var w := Width(bs[0]);
    if |bs| < 2 || !SecondOk(bs[0], bs[1]) then 0
    else if w == 2 || |bs| < 3 || !IsContinuation(bs[2]) then 1
    else if w == 3 || |bs| < 4 || !IsContinuation(bs[3]) then 2
    else 3
  }

  /** A complete, valid multi-byte sequence. */
  predicate IsCompleteChar(bs: seq<byte>) {
    |bs| > 0 && Width(bs[0]) >= 2 && |bs| == Width(bs[0]) && Continued(bs) == |bs| - 1
  }

  function Payload(b: byte): int
    requires IsContinuation(b)
  {
    b as int - 0x80
  }

  /** The code point a complete multi-byte sequence stands for. */
  function Assemble(bs: seq<byte>): (cp: int)
    requires IsCompleteChar(bs)
    ensures IsScalar(cp)
    ensures |bs| == 2 ==> 0x80 <= cp < 0x800
    ensures |bs| == 3 ==> 0x800 <= cp < 0x10000
    ensures |bs| == 4 ==> 0x10000 <= cp
  {
    if |bs| == 2 then (bs[0] as int - 0xC0) * 64 + Payload(bs[1])
    else if |bs| == 3 then
      (bs[0] as int - 0xE0) * 4096 + Payload(bs[1]) * 64 + Payload(bs[2])
    else
      (bs[0] as int - 0xF0) * 262144 + Payload(bs[1]) * 4096 + Payload(bs[2]) * 64 + Payload(bs[3])
  }

  /** `bytes.decode("utf-8", "ignore")`, as a sequence of code points. */
  function Decode(bs: seq<byte>): (cps: seq<int>)
    ensures |cps| <= |bs|
    ensures forall i :: 0 <= i < |cps| ==> IsScalar(cps[i])
    decreases |bs|
  {
    if |bs| == 0 then []
    else
      var w := Width(bs[0]);
      if w == 0 then Decode(bs[1..])
      else if w == 1 then [bs[0] as int] + Decode(bs[1..])
      else
        var k := Continued(bs);
        if k == w - 1 then [Assemble(bs[..w])] + Decode(bs[w..])
        else Decode(bs[k + 1..])
  }

  /** The decoded text as a Dafny string. */
  function DecodeString(bs: seq<byte>): (s: string)
    ensures |s| == |Decode(bs)|
  {
    var cps := Decode(bs);
    seq(|cps|, i requires 0 <= i < |cps| => cps[i] as char)
  }

  /** `len(bytes.decode("utf-8", "ignore"))`. */
  function CharCount(bs: seq<byte>): nat {
    |Decode(bs)|
  }

  /** The reference encoder: the UTF-8 form of one scalar value. */
  function EncodeChar(cp: int): (bs: seq<byte>)
    requires IsScalar(cp)
    ensures 1 <= |bs| <= 4
  {
    if cp < 0x80 then [cp as byte]
    else if cp < 0x800 then [(0xC0 + cp / 64) as byte, (0x80 + cp % 64) as byte]
    else if cp < 0x10000 then
      [(0xE0 + cp / 4096) as byte, (0x80 + (cp % 4096) / 64) as byte, (0x80 + cp % 64) as byte]
    else
      [(0xF0 + cp / 262144) as byte, (0x80 + (cp % 262144) / 4096) as byte,
       (0x80 + (cp % 4096) / 64) as byte, (0x80 + cp % 64) as byte]
  }

  function Encode(cps: seq<int>): (bs: seq<byte>)
    requires forall i :: 0 <= i < |cps| ==> IsScalar(cps[i])
  {
    if |cps| == 0 then [] else EncodeChar(cps[0]) + Encode(cps[1..])
  }

  /** The code points of a Dafny string. */
  function Chars(s: string): (cps: seq<int>)
    ensures |cps| == |s|
    ensures forall i :: 0 <= i < |s| ==> cps[i] == s[i] as int && IsScalar(cps[i])
  {
    seq(|s|, i requires 0 <= i < |s| => s[i] as int)
  }

  /** `str.encode("utf-8")`. */
  function EncodeString(s: string): (bs: seq<byte>)
    ensures |bs| >= |s|
  {
    EncodeLength(Chars(s));
    Encode(Chars(s))
  }

  lemma {:induction false} EncodeLength(cps: seq<int>)
    requires forall i :: 0 <= i < |cps| ==> IsScalar(cps[i])
    ensures |Encode(cps)| >= |cps|
    decreases |cps|
  {
    if |cps| > 0 {
      EncodeLength(cps[1..]);
    }
  }

  lemma {:induction false} EncodeAppend(a: seq<int>, b: seq<int>)
    requires forall i :: 0 <= i < |a| ==> IsScalar(a[i])
    requires forall i :: 0 <= i < |b| ==> IsScalar(b[i])
    ensures forall i :: 0 <= i < |a + b| ==> IsScalar((a + b)[i])
    ensures Encode(a + b) == Encode(a) + Encode(b)
    decreases |a|
  {
    if |a| > 0 {
      assert (a + b)[0] == a[0] && (a + b)[1..] == a[1..] + b;
      EncodeAppend(a[1..], b);
      AppendAssoc(EncodeChar(a[0]), Encode(a[1..]), Encode(b));
    } else {
      assert a + b == b;
    }
  }

  /** Encoding is done character by character. */
  lemma EncodeStringAppend(x: string, y: string)
    ensures EncodeString(x + y) == EncodeString(x) + EncodeString(y)
  {
    assert Chars(x + y) == Chars(x) + Chars(y);
    EncodeAppend(Chars(x), Chars(y));
  }

  /** `str(bs, encoding="utf-8")`: strict decoding, which fails unless the bytes are
      well-formed UTF-8, that is, unless decoding them drops nothing. */
  function DecodeStrict(bs: seq<byte>): (r: Option<string>)
    ensures r.Some? ==> EncodeString(r.value) == bs && r.value == DecodeString(bs)
  {
    if Encode(Decode(bs)) == bs then
      CharsOfDecoded(bs);
      Some(DecodeString(bs))
    else None
  }

  lemma CharsOfDecoded(bs: seq<byte>)
    ensures Chars(DecodeString(bs)) == Decode(bs)
  {
  }

  /** Strict decoding reads back every encoded string. */
  lemma DecodeStrictEncode(s: string)
    ensures DecodeStrict(EncodeString(s)) == Some(s)
  {
    var cps := Chars(s);
    DecodeEncode(cps);
    assert Encode(Decode(EncodeString(s))) == EncodeString(s);
    var d := DecodeString(Encode(cps));
    assert |d| == |s|;
    forall i | 0 <= i < |s|
      ensures d[i] == s[i]
    {
    }
    assert d == s;
  }

  /** Decoding an encoded character reads exactly that character and leaves the
      rest of the input untouched. */
  lemma DecodeEncodeChar(cp: int, rest: seq<byte>)
    requires IsScalar(cp)
    ensures Decode(EncodeChar(cp) + rest) == [cp] + Decode(rest)
  {
    var e := EncodeChar(cp);
    var bs := e + rest;
    assert bs[..|e|] == e && bs[|e|..] == rest;
    if |e| == 1 {
      assert bs[1..] == rest;
    } else {
      EncodedCharIsComplete(cp);
      assert Continued(bs) == Continued(e);
    }
  }

  /** The multi-byte encoding of `cp` is a complete sequence that assembles to `cp`. */
  lemma EncodedCharIsComplete(cp: int)
    requires IsScalar(cp) && cp >= 0x80
    ensures IsCompleteChar(EncodeChar(cp)) && Assemble(EncodeChar(cp)) == cp
  {
    if cp < 0x800 {
      TwoByteChar(cp);
    } else if cp < 0x10000 {
      ThreeByteChar(cp);
    } else {
      FourByteChar(cp);
    }
  }

  lemma TwoByteChar(cp: int)
    requires 0x80 <= cp < 0x800
    ensures IsCompleteChar(EncodeChar(cp)) && Assemble(EncodeChar(cp)) == cp
  {
    var q, r := cp / 64, cp % 64;
    assert cp == q * 64 + r && 2 <= q < 32;
  }

  lemma ThreeByteChar(cp: int)
    requires IsScalar(cp) && 0x800 <= cp < 0x10000
    ensures IsCompleteChar(EncodeChar(cp)) && Assemble(EncodeChar(cp)) == cp
  {
    var q, q1, r := ThreeDigits(cp);
    assert EncodeChar(cp) == [(0xE0 + q) as byte, (0x80 + q1) as byte, (0x80 + r) as byte];
    ThreeBytes(q, q1, r);
  }

  /** Euclidean division is unique. */
  lemma DivModUnique(n: int, d: int, q: int, r: int)
    requires d > 0 && 0 <= r < d && n == q * d + r
    ensures n / d == q && n % d == r
  {
    var q', r' := n / d, n % d;
    assert (q - q') * d == r' - r;
    if q != q' {
      MulAtLeast(if q > q' then q - q' else q' - q, d);
      assert false;
    }
  }

  lemma MulAtLeast(k: int, d: int)
    requires k >= 1 && d > 0
    ensures k * d >= d
  {
  }

  /** `cp` in base 64, three digits, most significant first. */
  lemma ThreeDigits(cp: int) returns (q: int, q1: int, r: int)
    requires 0x800 <= cp < 0x10000
    ensures q == cp / 4096 && q1 == (cp % 4096) / 64 && r == cp % 64
    ensures cp == q * 4096 + q1 * 64 + r
    ensures 0 <= q < 16 && 0 <= q1 < 64 && 0 <= r < 64
  {
    q, q1, r := cp / 4096, (cp % 4096) / 64, cp % 64;
    var r1 := cp % 4096;
    var r2 := r1 % 64;
    assert r1 == q1 * 64 + r2;
    assert cp == (q * 64 + q1) * 64 + r2;
    DivModUnique(cp, 64, q * 64 + q1, r2);
  }

  lemma ThreeBytes(q: int, q1: int, r: int)
    requires 0 <= q < 16 && 0 <= q1 < 64 && 0 <= r < 64
    requires IsScalar(q * 4096 + q1 * 64 + r) && q * 4096 + q1 * 64 + r >= 0x800
    ensures var e := [(0xE0 + q) as byte, (0x80 + q1) as byte, (0x80 + r) as byte];
      IsCompleteChar(e) && Assemble(e) == q * 4096 + q1 * 64 + r
  {
    assert q == 0 ==> q1 >= 32;
    assert q == 13 ==> q1 < 32;
  }

  lemma FourByteChar(cp: int)
    requires IsScalar(cp) && 0x10000 <= cp
    ensures IsCompleteChar(EncodeChar(cp)) && Assemble(EncodeChar(cp)) == cp
  {
    var q, q1, q2, r := FourDigits(cp);
    assert EncodeChar(cp) == [(0xF0 + q) as byte, (0x80 + q1) as byte, (0x80 + q2) as byte, (0x80 + r) as byte];
    FourBytes(q, q1, q2, r);
  }

  /** `cp` in base 64, four digits, most significant first. */
  lemma FourDigits(cp: int) returns (q: int, q1: int, q2: int, r: int)
    requires 0x10000 <= cp < 0x110000
    ensures q == cp / 262144 && q1 == (cp % 262144) / 4096 && q2 == (cp % 4096) / 64 && r == cp % 64
    ensures cp == q * 262144 + q1 * 4096 + q2 * 64 + r
    ensures 0 <= q <= 4 && 0 <= q1 < 64 && 0 <= q2 < 64 && 0 <= r < 64
  {
    q, q1, q2, r := cp / 262144, (cp % 262144) / 4096, (cp % 4096) / 64, cp % 64;
    var r0 := cp % 262144;
    var r1 := r0 % 4096;
    assert r0 == q1 * 4096 + r1;
    assert cp == (q * 64 + q1) * 4096 + r1;
    DivModUnique(cp, 4096, q * 64 + q1, r1);
    var r2 := r1 % 64;
    assert r1 == q2 * 64 + r2;
    assert cp == ((q * 64 + q1) * 64 + q2) * 64 + r2;
    DivModUnique(cp, 64, (q * 64 + q1) * 64 + q2, r2);
  }

  lemma FourBytes(q: int, q1: int, q2: int, r: int)
    requires 0 <= q <= 4 && 0 <= q1 < 64 && 0 <= q2 < 64 && 0 <= r < 64
    requires 0x10000 <= q * 262144 + q1 * 4096 + q2 * 64 + r < 0x110000
    ensures var e := [(0xF0 + q) as byte, (0x80 + q1) as byte, (0x80 + q2) as byte, (0x80 + r) as byte];
      IsCompleteChar(e) && Assemble(e) == q * 262144 + q1 * 4096 + q2 * 64 + r
  {
    assert q == 0 ==> q1 >= 16;
    assert q == 4 ==> q1 < 16;
  }

  /** Decoding undoes encoding on every sequence of scalar values. */
  lemma {:induction false} DecodeEncode(cps: seq<int>)
    requires forall i :: 0 <= i < |cps| ==> IsScalar(cps[i])
    ensures Decode(Encode(cps)) == cps
    decreases |cps|
  {
    if |cps| > 0 {
      DecodeEncodeChar(cps[0], Encode(cps[1..]));
      DecodeEncode(cps[1..]);
    }
  }

  /** ASCII text encodes to one byte per character, its code. */
  lemma {:induction false} EncodeAscii(cps: seq<int>)
    requires forall i :: 0 <= i < |cps| ==> IsScalar(cps[i]) && cps[i] < 0x80
    ensures |Encode(cps)| == |cps|
    ensures forall i :: 0 <= i < |cps| ==> Encode(cps)[i] as int == cps[i]
    decreases |cps|
  {
    if |cps| > 0 {
      EncodeAscii(cps[1..]);
      assert Encode(cps) == [cps[0] as byte] + Encode(cps[1..]);
    }
  }

  lemma AsciiString(s: string)
    requires forall i :: 0 <= i < |s| ==> (s[i] as int) < 0x80
    ensures |EncodeString(s)| == |s|
    ensures forall i :: 0 <= i < |s| ==> EncodeString(s)[i] as int == s[i] as int
  {
    EncodeAscii(Chars(s));
  }

  /** On ASCII bytes the character count is the byte count. */
  lemma {:induction false} AsciiCount(bs: seq<byte>)
    requires forall i :: 0 <= i < |bs| ==> bs[i] < 0x80
    ensures CharCount(bs) == |bs|
    decreases |bs|
  {
    if |bs| > 0 {
      AsciiCount(bs[1..]);
    }
  }
}
